=== FILE: README.md ===
# xamin typed file entries — a Dafny model

xamin keeps a user's data files as typed *entries*. Each entry class
recognises its own files from a short *hint*, the first bytes of the file. The
classes are text, binary, CSV, YAML and the project file. The base `Entry` does
four jobs:

- it scores the classes by how deep they sit in the class tree, so the most
  specific class that accepts a hint wins (`guess_type`);
- it tracks whether the data in memory differs from what was loaded (a hash
  of the data);
- it tracks whether the file on disk is newer than the data (modification
  times);
- it guards `load` and `save` with the `FileChanged` and `MissingPath`
  errors.

A `Project` is itself a YAML entry. It holds an ordered dictionary of named
entries and names them uniquely from the common directory of their paths. It
stores each entry path relative to the project file's directory and restores
it from there. The older `project` package holds an earlier `Entry` and
`Project`, with the unique-name search by numbered suffixes.

The model is pure functions over immutable values:

- a file system is a map from paths to (bytes, mtime);
- a path is a sequence of parts, with `"/"` first for an absolute path;
- an entry is a record of class, path, data, loaded hash and data mtime;
- every operation that can raise returns a `Result` whose `Failure` names the
  exception.

Parameters stand for everything outside the core, bundled in an `Oracles`
record:

- the CSV sniffer;
- the YAML parser and dumper;
- the SHA-256 digest;
- the working directory;
- the clock;
- the iteration order of the registered subclasses.

Modules follow the source:

| module | what it models |
|---|---|
| `Wrappers` | `Option`, `Result` and the exception names |
| `Values` | payloads |
| `Oracles` | the external parameters above |
| `Utf8` | UTF-8 decoding of hints |
| `Strings` | the `str` methods used: `strip`, `splitlines`, number formatting |
| `Sorting` | Python's stable `sorted` |
| `OrderedDicts` | `OrderedDict` |
| `Paths` | `pathlib` and `utils/path.py` |
| `DictUtils` | `utils/dict.py` |
| `Classes` | the class tree and scores |
| `Hints` | `Hint` and `get_hint` |
| `Sniffing` | each class's `is_type` |
| `Registry` | `subclasses` and `guess_type` |
| `Lifecycle` | hash, mtime, load and save of `entry/entry.py` and its subclasses |
| `Projects` | `entry/project.py` |
| `LegacyEntries` | `project/entry.py` |
| `LegacyProjects` | `project/project.py` |

## Model

| member | source | states |
|---|---|---|
| Classes.FromName | src/xamin/entry/project.py:113-121 | looking a class up by its `__name__` only ever returns the class carrying that name |
| Classes.FromNameOfName | src/xamin/entry/project.py:113-121 | every registered class is found again from the name `__getstate__` stores for it |
| Classes.ScoreTable | src/xamin/entry/entry.py:241-250 | scores grow by 10 per level of inheritance: text and binary 5, CSV and YAML 10, project 20, all above the base entry's 0 |
| Hints.Utf8Of | src/xamin/entry/entry.py:30-37 | the hint has a text form exactly when its bytes are valid UTF-8, and that text encodes back to the same bytes |
| Hints.GetHint | src/xamin/entry/entry.py:138-161 | a hint exists exactly when a path is given and the file exists; a file of at most 2048 bytes is returned whole, and a longer one gives exactly its first 2048 bytes |
| Utf8.DecodeFirst | src/xamin/entry/entry.py:30-37 | one decoding step consumes between one and four bytes of the input |
| Utf8.EncodeChar | src/xamin/entry/entry.py:30-37 | every character encodes to between one and four bytes |
| Utf8.DecodeEncode | src/xamin/entry/entry.py:30-37 | decoding the encoding of any string gives the string back |
| Utf8.EncodeDecode | src/xamin/entry/entry.py:30-37 | encoding a successful decoding gives back the original bytes |
| Utf8.DecodeSucceedsIffValid | src/xamin/entry/entry.py:30-37 | `decode` raises exactly on byte strings that are not valid UTF-8 |
| Strings.NatToString | src/xamin/project/project.py:67 | `str(n)` is the decimal numeral of n: all digits, read in base ten it is n, and it starts with `0` only for zero itself |
| Strings.NatToStringInjective | src/xamin/project/project.py:67 | different numbers format differently, so numbered names never collide |
| Strings.Strip | src/xamin/project/project.py:67 | `strip` removes a run of whitespace at each end and nothing else: what is left is the infix between the two runs, and it neither starts nor ends with whitespace |
| Strings.SplitLinesRebuilds | src/xamin/entry/yaml_entry.py:55-56 | `splitlines` loses only terminators: its lines, none of which holds a line break, each followed by the terminator removed after it, give back the text |
| Strings.LineEndsAreBreaks | src/xamin/entry/yaml_entry.py:55-56 | every removed terminator is `\r\n` or a single line-break character, and the last line has one exactly when the text ends in a line break |
| Strings.SplitOnLinefeed | src/xamin/entry/yaml_entry.py:55-56 | splitting on linefeed gives at least one field, none holding a line break |
| Strings.JoinSplitOnLinefeed | src/xamin/entry/yaml_entry.py:55-56 | joining the fields with linefeeds gives back the original text |
| Strings.SplitLinesAppendLastLine | src/xamin/entry/yaml_entry.py:55-56 | the lines of a text followed by a last line are the text's lines plus that line |
| Strings.DropLastLineKeepsCompleteLines | src/xamin/entry/yaml_entry.py:55-56 | dropping the last line of `a + "\n" + b` leaves exactly `a` |
| Strings.SplitLinesAfterBreak | src/xamin/entry/yaml_entry.py:55-56 | a text ending in any line break, followed by an unterminated last line, splits into the text's lines plus that line |
| Strings.DropLastLineAfterBreak | src/xamin/entry/yaml_entry.py:55-56 | dropping the unterminated last line keeps exactly the lines before it, whatever breaks ended them, joined by `\n` |
| Strings.TranslateNewlinesBreaks | src/xamin/project/entry.py:303-304 | universal newlines turn `\r\n` and a lone `\r` into `\n` and pass text without `\r` through unchanged |
| Strings.TranslateNewlinesKeepsLines | src/xamin/project/entry.py:303-304 | universal-newline reading changes no line: the translated text has exactly the lines of the original |
| Sorting.Insert | src/xamin/entry/entry.py:132-136 | insertion keeps a key-sorted sequence sorted and adds exactly the inserted element |
| Sorting.SortBy | src/xamin/entry/entry.py:132-136 | `sorted` by score yields a score-sorted permutation of its input |
| Sorting.SortByStable | src/xamin/entry/entry.py:132-136 | `sorted` is stable: the elements of any one key keep their input order |
| Sorting.SortedIsFixed | src/xamin/entry/entry.py:132-136 | an already sorted sequence is returned unchanged |
| Sorting.InsertAtEnd | src/xamin/entry/entry.py:132-136 | an element whose key is at least every key present goes last |
| OrderedDicts.IndexOf | src/xamin/entry/project.py:300-305 | a present key's index is its first occurrence |
| OrderedDicts.Get | src/xamin/entry/project.py:300-305 | a lookup succeeds exactly for present keys |
| OrderedDicts.GetLast | src/xamin/entry/project.py:300-305 | a lookup from the back succeeds exactly for present keys |
| OrderedDicts.Put | src/xamin/entry/project.py:322 | assignment replaces a present key's value in place or appends a new key; it maps the key to the value, leaves other keys alone and keeps keys unique |
| OrderedDicts.PutAll | src/xamin/entry/project.py:303-305 | `update` adds exactly the given keys; the last value given for a key wins, other keys keep theirs, and no key is duplicated |
| OrderedDicts.PutAllFirstOrder | src/xamin/entry/project.py:243-298 | filling an empty dictionary in order lists each key at the place of its first item, as `assign_unique_names` does when it puts the entries back |
| OrderedDicts.UniqueKeysCount | src/xamin/entry/project.py:297-298 | a dictionary with unique keys has as many keys as items |
| Paths.Absolute | src/xamin/entry/project.py:331-338 | `absolute()` always yields an absolute path: an absolute path is unchanged and a relative one is appended to the working directory |
| Paths.RelativeTo | src/xamin/entry/project.py:86-90 | `relative_to` succeeds exactly when the base is a prefix of the path, and the base joined with the result is the path |
| Paths.CommonFrom | src/xamin/utils/path.py:52-56 | the shared parts from a position on are shared by all inputs and end where the inputs first disagree |
| Paths.CommonParts | src/xamin/utils/path.py:52-56 | the common parts are a common prefix of all inputs that cannot be extended |
| Paths.LongestCommonPrefixUnique | src/xamin/utils/path.py:52-56 | the longest common prefix is unique, so the common path is well defined |
| Paths.CommonPathIsLongestPrefix | src/xamin/utils/path.py:10-59 | `common_path` returns the longest common prefix of the compared paths |
| Paths.CommonPathNone | src/xamin/utils/path.py:10-59 | `common_path` returns None exactly when there are no paths or they do not share a first part |
| Paths.CommonPathAbsolute | src/xamin/utils/path.py:45-48 | once any input is absolute, a common path exists and is absolute |
| Paths.CommonPathOrderIndependent | src/xamin/utils/path.py:10-59 | the result depends only on which paths are given, not on their order or repetition |
| Paths.CommonPathExampleSiblings | src/xamin/utils/path.py:26-29 | the documented example of three files in `src` gives `src` |
| Paths.CommonPathExampleAbsolute | src/xamin/utils/path.py:30-33 | the documented example of two files under `/usr/local` gives `/usr/local` |
| Paths.CommonPathExampleShorter | src/xamin/utils/path.py:34-36 | the documented example of a file and its own directory gives the directory |
| Paths.CommonPathExampleDisjoint | src/xamin/utils/path.py:37 | the documented example of unrelated relative paths gives None |
| Paths.OsCommonPath | src/xamin/entry/project.py:251-255 | `os.path.commonpath` fails exactly for no paths or a mix of absolute and relative ones, and otherwise returns the longest common prefix |
| Paths.OsCommonPathKeepsAbsoluteness | src/xamin/entry/project.py:251-255 | the common path of absolute paths is absolute, and of relative paths relative |
| Paths.OsCommonPathSameMembers | src/xamin/entry/project.py:251-255 | the common path depends only on which paths are given |
| DictUtils.RecursiveUpdate | src/xamin/utils/dict.py:10-42 | on success the keys are those of `d` plus the non-excluded keys of `u`, and keys not updated keep their values |
| DictUtils.ExcludedKeysUntouched | src/xamin/utils/dict.py:35-37 | an excluded key is neither added nor changed |
| DictUtils.ScalarOverwrites | src/xamin/utils/dict.py:38-42 | a non-mapping value in `u` replaces the value in `d` |
| DictUtils.MappingMerges | src/xamin/utils/dict.py:38-40 | a mapping in `u` over a mapping in `d` is merged recursively, keeping `d`'s other sub-keys |
| DictUtils.EmptyUpdateIsIdentity | src/xamin/utils/dict.py:10-42 | updating with nothing changes nothing |
| DictUtils.UpdateValueIdempotent | src/xamin/utils/dict.py:38-42 | updating a value a second time with the same update changes nothing |
| DictUtils.RecursiveUpdateIdempotent | src/xamin/utils/dict.py:10-42 | applying the same update twice equals applying it once |
| DictUtils.RecursiveUpdateExample | src/xamin/utils/dict.py:26-27 | the documented example of a plain update |
| DictUtils.RecursiveUpdateExcludesExample | src/xamin/utils/dict.py:32-33 | the documented example with an excluded key |
| DictUtils.RecursiveUpdateReplaceExample | src/xamin/utils/dict.py:30-31 | the documented example where a scalar replaces a nested mapping |
| DictUtils.RecursiveUpdateNestedExample | src/xamin/utils/dict.py:28-29 | the documented example where nested mappings merge |
| DictUtils.MappingOverScalarRaises | src/xamin/utils/dict.py:38-39 | a mapping in `u` over a scalar in `d` raises instead of replacing it |
| Sniffing.TextIsTypeIff | src/xamin/entry/text_entry.py:19-34 | a file is text exactly when its hint is non-empty valid UTF-8, so an empty file is not text |
| Sniffing.BinaryNegatesText | src/xamin/entry/binary_entry.py:22-38 | the binary test is the exact negation of the text test |
| Sniffing.TextExamples | src/xamin/entry/text_entry.py:19-34 | an ASCII source line is text; an executable header and an empty hint are not |
| Sniffing.GetDialect | src/xamin/entry/csv_entry.py:42-51 | `NotImplementedError` without a decodable hint; otherwise success exactly when the sniffer finds a dialect |
| Sniffing.CsvRejectsUndecodable | src/xamin/entry/csv_entry.py:30-40 | a missing or non-UTF-8 hint is never CSV, whatever the sniffer says |
| Sniffing.YamlIsTypeCases | src/xamin/entry/yaml_entry.py:22-71 | YAML needs a decodable hint whose complete lines parse to a mapping, a list or an entry |
| Sniffing.YamlIgnoresLastLine | src/xamin/entry/yaml_entry.py:55-56 | two hints that differ only in their last, cut-off line are classified alike, whatever line breaks the hint uses |
| Sniffing.RemoveComments | src/xamin/entry/project.py:150 | removing comments leaves no `#`, adds no character, and leaves text without `#` unchanged |
| Sniffing.RemoveCommentsPlain | src/xamin/entry/project.py:150 | text before the first `#` is kept as it is |
| Sniffing.CommentRunsToLineEnd | src/xamin/entry/project.py:150 | a comment ends at the next `\n`: that line break and every later line are kept, only their own comments removed |
| Sniffing.CommentOnLastLine | src/xamin/entry/project.py:150 | a comment on the last line removes the rest of the text and nothing before the `#` |
| Sniffing.MatchesProjectHeaderIff | src/xamin/entry/project.py:151 | the header pattern accepts exactly the tag line, any whitespace, then `meta:` or `entries:` |
| Sniffing.ProjectRejectsUndecodable | src/xamin/entry/project.py:134-153 | a missing or non-UTF-8 hint is never a project |
| Sniffing.ProjectFileAfterComment | src/xamin/entry/project.py:134-153 | a project file whose first line is a comment is still recognised |
| Sniffing.ProjectIsTypeOfText | src/xamin/entry/project.py:134-153 | on encoded text, the project test is the header match on the text without comments and stripped |
| Sniffing.NoTagNoProject | src/xamin/entry/project.py:149-151 | text without a `!` is never a project file |
| Registry.Subclasses | src/xamin/entry/entry.py:132-136 | the registered classes come back as a permutation sorted by score |
| Registry.SubclassesStable | src/xamin/entry/entry.py:132-136 | classes of equal score keep their registration order |
| Registry.SelectFindsBest | src/xamin/entry/entry.py:215-228 | the loop returns the first accepting class of the highest score above the floor, or its start value when none accepts |
| Registry.GuessTypeIsBest | src/xamin/entry/entry.py:183-233 | `guess_type` returns an accepting class of maximal score, the first of that score in sorted order, or None exactly when nothing accepts |
| Registry.GuessTypeWithoutHint | src/xamin/entry/entry.py:207-213 | without a given hint and without a readable file the guess is None |
| Registry.GuessTypeWithHint | src/xamin/entry/entry.py:183-233 | with a hint at hand some class is always found, because binary accepts whatever text rejects |
| Registry.GuessTypeProject | src/xamin/entry/entry.py:183-233 | a project file is guessed as a project, the top-scoring class |
| Registry.GuessTypeUndecodable | src/xamin/entry/entry.py:183-233 | a non-UTF-8 hint is guessed as binary |
| Registry.TieBrokenByRegistryOrder | src/xamin/entry/entry.py:220-228 | when CSV and YAML both accept, the one registered first wins |
| Registry.FirstOfTopScoreWins | src/xamin/entry/entry.py:220-228 | the strict `>` keeps the first accepting class of the top score |
| Registry.SortedFive | src/xamin/entry/entry.py:132-136 | registration orders already sorted by score are returned unchanged |
| Lifecycle.Hash | src/xamin/entry/entry.py:330-348 | the hash is empty exactly when there is no data |
| Lifecycle.IsFileNewer | src/xamin/entry/entry.py:287-294 | raises `FileNotFoundError` exactly when a loaded entry's file is gone; otherwise true exactly when a path is set, an mtime is recorded and it is older than the file's |
| Lifecycle.WriteAfterLoadMakesFileNewer | src/xamin/entry/entry.py:268-294 | after a load, a write to the file makes it newer exactly when its clock is past the mtime recorded at load, and the entry is then stale |
| Lifecycle.ResetHash | src/xamin/entry/entry.py:350-356 | after a reset, an entry with a path is not unsaved; nothing but the loaded hash changes |
| Lifecycle.ResetMtime | src/xamin/entry/entry.py:296-300 | fails exactly when the file is gone; afterwards the file is not newer; only the data mtime changes |
| Lifecycle.DefaultData | src/xamin/entry/text_entry.py:36-37 | each class's default data has that class's payload type |
| Lifecycle.ShapeOf | src/xamin/entry/entry.py:373-384 | text and bytes have their length as shape; CSV has rows by columns, or none when empty; YAML has a length exactly for collections |
| Lifecycle.ShapeAfterLoad | src/xamin/entry/entry.py:373-384 | the shape of a stale binary entry is its file's length, and of a stale CSV entry the rows and first-row columns the reader finds in the file |
| Lifecycle.DeserializeText | src/xamin/entry/csv_entry.py:75-81 | text keeps its data; CSV parses rows; YAML fails exactly on unparsable text and otherwise yields a tree |
| Lifecycle.BinarySerializeRoundTrip | src/xamin/entry/binary_entry.py:43-45 | what the binary class serializes it deserializes back: bytes unchanged, while str data comes back as `b""` |
| Lifecycle.Serialize | src/xamin/entry/entry.py:390-406 | text and bytes are written as held; CSV writes nothing; YAML writes the dumper's text |
| Lifecycle.Write | src/xamin/entry/entry.py:529-537 | the write succeeds exactly when the serialized kind matches the class's encoding; it stores the content and the clock at the path and touches no other file |
| Lifecycle.WithDefault | src/xamin/entry/entry.py:423-440 | missing data is replaced by the default and present data kept |
| Lifecycle.Load | src/xamin/entry/entry.py:450-477 | `FileChanged` exactly when the file is newer and there are unsaved edits; afterwards the entry holds data, is not unsaved, is not stale, and carries the file's mtime |
| Lifecycle.GetData | src/xamin/entry/entry.py:358-366 | a stale entry gives exactly what loading it gives, and any other entry is returned unchanged; afterwards data is present |
| Lifecycle.LoadKeepsTyping | src/xamin/entry/entry.py:358-366 | data read through the getter has the class's payload type |
| Lifecycle.PreSave | src/xamin/entry/entry.py:479-502 | `MissingPath` exactly without a path; `FileChanged` exactly when not overwriting and the loaded data is stale |
| Lifecycle.Save | src/xamin/entry/entry.py:510-540 | the guards of `pre_save`; nothing is written for a saved entry; afterwards the entry is neither unsaved nor stale and only its hash and mtime changed |
| Lifecycle.NewEntryIsStale | src/xamin/entry/entry.py:252-285 | a fresh entry is stale, and unsaved exactly when it has no path |
| Lifecycle.DataGetterSettles | src/xamin/entry/entry.py:358-366 | reading the data twice is the same as once |
| Lifecycle.SecondSaveIsNoOp | src/xamin/entry/entry.py:510-540 | a second save straight after a save changes nothing |
| Lifecycle.SaveWritesUnsaved | src/xamin/entry/entry.py:529-537 | saving an unsaved entry writes its serialized data, stamped with the clock |
| Lifecycle.CsvSaveEmptiesFile | src/xamin/entry/csv_entry.py:65-73 | saving edited CSV data leaves the file empty, because `serialize` returns an empty string |
| Lifecycle.TextLoadKeepsData | src/xamin/entry/entry.py:408-421 | loading a text entry keeps the data in memory rather than the file's text |
| Lifecycle.BinaryLoadReadsFile | src/xamin/entry/binary_entry.py:43-45 | loading a binary entry yields the file's bytes |
| Lifecycle.BinarySaveLoadRoundTrip | src/xamin/entry/entry.py:450-540 | a binary entry saved and loaded again holds the same bytes |
| Lifecycle.EqIsSameClassAndPath | src/xamin/entry/entry.py:93-116 | entries are equal exactly when class and stored path agree |
| Lifecycle.EqRelativeVersusAbsolute | src/xamin/entry/entry.py:93-116 | a relative path and its absolute form make unequal entries |
| Projects.Meta | src/xamin/entry/project.py:187-194 | reading `meta` only adds `version` when it is missing; all other keys keep their values |
| Projects.MetaSettles | src/xamin/entry/project.py:187-194 | reading `meta` twice equals reading it once |
| Projects.NewProject | src/xamin/entry/project.py:42-50 | a project created without a path has no path, no entries and only the version in its metadata |
| Projects.DefaultNameInjective | src/xamin/entry/project.py:32-35 | distinct numbers give distinct default names |
| Projects.DistinctNamesKept | src/xamin/entry/project.py:243-298 | when the derived names are distinct, renaming keeps every entry, in order, under its derived name |
| Projects.UniquelyNamedEntryKept | src/xamin/entry/project.py:243-298 | an entry whose derived name no other entry shares is found under that name after renaming |
| Projects.AssignUniqueNames | src/xamin/entry/project.py:243-298 | the names are unique and exactly the derived names, no entry is invented; of entries deriving the same name the last one is kept, and each name sits at the place of its first entry |
| Projects.UnsavedEntryName | src/xamin/entry/project.py:264-266 | an entry without a path is named `<unsaved> (n)` after its position |
| Projects.NameRelativeToCommon | src/xamin/entry/project.py:283-291 | below a common directory other than the root, a path is named by its non-empty remainder |
| Projects.LowestFreeFrom | src/xamin/entry/project.py:317-320 | the number chosen is the least free default name from the start |
| Projects.AddItems | src/xamin/entry/project.py:308-322 | added entries are appended after the existing ones; unique keys stay unique; non-entries are skipped |
| Projects.AddValue | src/xamin/entry/project.py:300-322 | a mapping is merged with `update` (`PutAll`: its keys join the project's with the mapping's last value, other keys keep theirs); any other argument only appends entries after the existing ones |
| Projects.AddAll | src/xamin/entry/project.py:300-322 | all arguments together keep keys unique and lose no key |
| Projects.MappingValueKept | src/xamin/entry/project.py:302-322 | a key a mapping argument assigns reads that mapping's value after all arguments are added, unless a later mapping assigns it again |
| Projects.GetKeptByAddAll | src/xamin/entry/project.py:302-322 | arguments that do not assign a key leave its value unchanged, since entries are placed only under free names |
| Projects.AddEntries | src/xamin/entry/project.py:300-325 | after renaming, keys are unique and every entry held was added or already there |
| Projects.AddAllKeeps | src/xamin/entry/project.py:300-322 | without mapping arguments, the entries held before stay in place and every entry an argument brings is added |
| Projects.AddedEntryKept | src/xamin/entry/project.py:300-325 | an entry an argument brings is in the project afterwards when the derived names do not clash |
| Projects.AddSingleAppends | src/xamin/entry/project.py:315-321 | a single entry is appended under the lowest free default name |
| Projects.ReAddingKeepsCount | src/xamin/entry/project.py:271-275 | re-adding an entry with a known path does not grow the project |
| Projects.SameNamesAfterReAdd | src/xamin/entry/project.py:271-275 | re-adding an entry with a known path leaves the set of names unchanged |
| Projects.ExistingPaths | src/xamin/entry/project.py:330-334 | fails with `AttributeError` exactly when the project has a path and an entry has none; otherwise the set is exactly the entries' absolute paths, and empty for an unsaved project |
| Projects.NewEntries | src/xamin/entry/project.py:336-353 | each new entry has a given, not yet present path, and each such path with a guessable type gets one |
| Projects.AddFiles | src/xamin/entry/project.py:327-355 | fails exactly as `ExistingPaths` does; otherwise keys are unique and new entries come only from the given paths |
| Projects.AddFilesAddsNewFile | src/xamin/entry/project.py:327-355 | every given path not yet present whose type can be guessed is added with the guessed class, when the derived names do not clash |
| Projects.AddAllSingles | src/xamin/entry/project.py:308-322 | adding single entries brings in only those entries |
| Projects.AddFilesSkipsExisting | src/xamin/entry/project.py:330-338 | a path already held by an entry is not added again |
| Projects.StoredPathAsWritten | src/xamin/entry/project.py:86-90 | raises `TypeError` exactly for an entry path in a project without a path |
| Projects.StoredPath | src/xamin/entry/project.py:86-90 | no path stays none; a path below the project directory is stored as its remainder relative to that directory; a path not below it, or with no directory, is kept |
| Projects.GetStateAsWritten | src/xamin/entry/project.py:62-95 | fails exactly when the project has no path and some entry has one; otherwise equals the corrected state |
| Projects.GetStateAsWrittenRaises | src/xamin/entry/project.py:86-90 | a project without a path holding an entry with a path cannot be pickled |
| Projects.GetState | src/xamin/entry/project.py:62-95 | the state keeps path, metadata and entry order; an entry path below the project's directory is stored relative to that directory |
| Projects.RestoredKeys | src/xamin/entry/project.py:116-132 | exactly the states with a known class are restored |
| Projects.SetState | src/xamin/entry/project.py:97-132 | metadata is updated key by key; restored entries are added to the existing ones and keys stay unique |
| Projects.SetStateSkipsUnknown | src/xamin/entry/project.py:118-119 | a state without a known class name adds no entry |
| Projects.StoredPathRestores | src/xamin/entry/project.py:124-127 | an absolute entry path stored against a project path is restored unchanged |
| Projects.StateRoundTrip | src/xamin/entry/project.py:62-132 | a saved project's state restores its path, its entries in order and its metadata |
| Projects.RelativeEntryPathRebased | src/xamin/entry/project.py:124-127 | a relative entry path is restored relative to the project directory |
| Projects.StateRoundTripWithoutPath | src/xamin/entry/project.py:62-132 | with the corrected state, an unsaved project's entries come back unchanged |
| Projects.NamingExampleRoot | src/xamin/entry/project.py:276-281 | files sharing only the root are named by their full paths |
| Projects.NamingExampleSubdirectories | src/xamin/entry/project.py:283-291 | files under `/usr/local` are named by their paths below it |
| Projects.NamingExampleSiblings | src/xamin/entry/project.py:283-291 | files in one directory are named by their file names |
| Projects.NamingExamplePathless | src/xamin/entry/project.py:264-275 | an entry's path equal to the common path gives its file name; a pathless entry gets a numbered default name |
| LegacyEntries.BaseOf | src/xamin/project/entry.py:76-80 | the only base class is the root entry |
| LegacyEntries.DepthTable | src/xamin/project/entry.py:76-80 | example: the root has depth 0 and both concrete classes depth 1 |
| LegacyEntries.GetLegacyHint | src/xamin/project/entry.py:112-123 | no hint exactly when the file cannot be read; text exactly when the bytes decode, and that text encodes back to them |
| LegacyEntries.TextBinaryExclusive | src/xamin/project/entry.py:284-348 | no hint is both text and binary, and every hint is one of them |
| LegacyEntries.GuessLoopIsLast | src/xamin/project/entry.py:177-188 | the old loop keeps the last accepting class above depth 0, not the most specific one |
| LegacyEntries.LastWins | src/xamin/project/entry.py:177-188 | example of `GuessLoopIsLast`: when both classes accept, the one listed last wins |
| LegacyEntries.GuessType | src/xamin/project/entry.py:145-188 | with neither path nor hint there is no guess; any guess is a registered concrete class |
| LegacyEntries.GuessTypeByHint | src/xamin/project/entry.py:165-188 | a text hint is guessed as text and a bytes hint as binary |
| LegacyEntries.Hash | src/xamin/project/entry.py:205-223 | the hash is empty exactly without data, and otherwise the digest of the data |
| LegacyEntries.NewEntryIsSaved | src/xamin/project/entry.py:190-203 | a new entry with a path is not unsaved, and one without a path is |
| LegacyEntries.ReadAfterWrite | src/xamin/project/entry.py:300-305 | what `write_text` or `write_bytes` stored reads back: bytes as written, text with universal newlines applied, so unchanged without `\r` |
| LegacyEntries.GetData | src/xamin/project/entry.py:300-305 | the getter reads the file only when the data is falsy, then resets the hash, so the entry is not unsaved afterwards |
| LegacyEntries.SetData | src/xamin/project/entry.py:307-318 | the setter raises `TypeError` exactly for a value of the wrong type and otherwise changes only the data |
| LegacyEntries.SetThenGet | src/xamin/project/entry.py:307-318 | a non-empty value set through the setter is what the getter returns |
| LegacyEntries.WriteValue | src/xamin/project/entry.py:326 | text is written encoded and bytes as they are; any other pairing fails |
| LegacyEntries.SaveAsWritten | src/xamin/project/entry.py:320-327 | as written, a successful save never changes the file system |
| LegacyEntries.SaveAsWrittenLosesEdit | src/xamin/project/entry.py:320-327 | an edit made through the setter is not written by the save as written, but is written by the intended save |
| LegacyEntries.Save | src/xamin/project/entry.py:320-327 | the intended save writes an unsaved, non-empty value to its path, writes nothing for a saved entry, and leaves the entry not unsaved |
| LegacyEntries.SaveThenReadBack | src/xamin/project/entry.py:370-377 | what the intended save writes, a fresh entry on the same path reads back |
| LegacyProjects.FirstFree | src/xamin/project/project.py:66-69 | the search returns the least untaken number below 999, or nothing exactly when all are taken |
| LegacyProjects.FindUniqueName | src/xamin/project/project.py:48-71 | a free name is kept; any other result is not taken; failure is an `AssertionError` |
| LegacyProjects.Taken | src/xamin/project/project.py:68 | a number is taken exactly when its candidate name exists |
| LegacyProjects.FindUniqueNameLeastSuffix | src/xamin/project/project.py:66-69 | a taken name gets the candidate with the least free suffix |
| LegacyProjects.FindUniqueNameFails | src/xamin/project/project.py:63-71 | the search fails exactly when the name and all 999 candidates are taken |
| LegacyProjects.FreeNameKept | src/xamin/project/project.py:56-57 | the documented example `test` is kept |
| LegacyProjects.NumberingStartsAtZero | src/xamin/project/project.py:58-59 | the code gives `one (0)` where the example documents `one (2)` |
| LegacyProjects.NumberingIgnoresTakenSuffix | src/xamin/project/project.py:60-61 | the code gives `one (0)` where the example documents `one (3)` |
| LegacyProjects.Chosen | src/xamin/project/project.py:77-89 | exactly the given files whose absolute path is not already held are chosen |
| LegacyProjects.ChosenAppend | src/xamin/project/project.py:86-89 | choosing is a filter over the arguments: two lists in a row give the two choices in a row, so the chosen paths keep argument order |
| LegacyProjects.ChosenSingle | src/xamin/project/project.py:86-89 | one argument is chosen exactly when it is a file whose absolute path is not held |
| LegacyProjects.RepeatedPathChosenTwice | src/xamin/project/project.py:80-89 | a path given twice is chosen twice, because the existing paths are not updated |
| LegacyProjects.AppendFileNames | src/xamin/project/project.py:73-99 | the chosen paths are named exactly as the reference `NamesFrom` names them, failure included; each name is new to the existing entries and to the other new entries |
| LegacyProjects.NameEach | src/xamin/project/project.py:86-99 | the loop gives exactly the reference naming `NamesFrom`: each path gets `_find_unique_name` of its file name among the names taken so far, and the first `AssertionError` is the result; on success the names are new, pairwise distinct, one per path and in order |
| LegacyProjects.NamesFromFresh | src/xamin/project/project.py:86-99 | every name of the reference naming is new to the existing names and distinct from the other new names, and each path keeps its place |
| LegacyProjects.FreeFileNamesKept | src/xamin/project/project.py:63-92 | file names that are free and pairwise distinct are used unchanged as the entries' names |

The documented examples of `_find_unique_name` promise `one (2)` and
`one (3)`. The numbering loop starts at 0, so the code returns `one (0)` in
both cases. The model follows the code, and the two example lemmas state what
the code returns.

## Left out

- Entry classes for Python, HTML and XML source files: they are not part of
  this model. Only text, binary, CSV, YAML and project are registered.
- `Project.load` and `Project.save` overrides (`entry/project.py:203-241`):
  these wrap YAML load and dump of the whole project. The YAML parser and
  dumper are parameters, so nothing in the core is left to prove.
- The YAML loader, dumper, representers and constructors
  (`entry/project.py:155-178, 364-417`): these are library glue, replaced by
  the parser and dumper parameters.
- SHA-256 and `pickle`: the digest is an opaque parameter, so the hash is
  treated as injective only where a contract names it.
- Logging, the GUI, the command line and the `Setting` machinery: the
  `<unsaved> ({num})` pattern is a constant.
- The `project/*_entry.py` variants next to `project/entry.py`: they are
  superseded by `entry/`. The old `Entry.shape` and `Entry.__eq__` are
  likewise left out, since they repeat the current ones.
- The CSV dialect cache, `guess_mimetype`, file permissions and a missing
  parent directory on write: each is I/O that cannot fail in a map-based file
  system.
- Lifecycle.ShapeOf: requires data of the class's payload type, since the
  source would raise on anything else.
- Projects.StateRoundTrip: requires an absolute project path and well-formed
  absolute entry paths. `relative_to` and `/` are only inverse on those.
- LegacyEntries.Falsy: only the empty string, empty bytes and no data are
  falsy. Other payloads (`OtherData`) are taken as truthy.
- LegacyEntries.ReadValue: `read_text` is taken to use UTF-8. Undecodable
  bytes read as text are a failure.
- LegacyProjects.AppendFileNames: models only the name and path bookkeeping.
  In the source the method always raises afterwards: `Entry(name=...)` is not
  a valid constructor call, and `layoutChanged` is not defined. Arguments are
  taken to be paths already. The source's filter `type(i) in (str, Path)`
  (`project/project.py:77`) keeps only `str` arguments, since a `Path` object
  has the concrete type `PosixPath`; the model does not drop path arguments.
- File modification times: `os.stat().st_mtime` is a float. The model uses a
  `nat` clock instead, which is ordered the same way; only `<` is ever applied
  to it.
- Paths.RelativeTo: `walk_up=True` in `assign_unique_names` is not modelled.
  The model only ever calls it with a prefix of the path, where both agree.
- LegacyProjects.FindUniqueName: the least-suffix and failure conditions are
  stated as separate lemmas (`FindUniqueNameLeastSuffix`,
  `FindUniqueNameFails`) rather than in its contract.
- `is_root`: modelled as the path being exactly `/`.
- Projects.NewProject: only `Project()` without a path is modelled. With a
  path, the `meta` access in `__init__` loads the project file (raising
  `FileNotFoundError` when it is missing), and loading a project file is YAML
  glue. `Project(entries=...)` is the new project followed by `AddEntries`.
- Projects.AddFiles: a project file among the paths becomes an entry of the
  project class without being loaded. In the source `cls(path=path)` loads
  the nested project, and that load can raise.
- DictUtils.RecursiveUpdate: a mapping in `u` over a scalar in `d` is
  reported as `TypeError`. The source raises `AttributeError` instead when
  the nested update's first value is itself a mapping (`(2).get`). The
  source also updates `d` in place, so keys handled before the failure stay
  written; the model returns only the failure.
- Lifecycle.DeserializeText: a YAML file that parses to `None` (an empty
  file) leaves the source entry holding `None`, whose hash is `""`. The model
  holds the parsed tree and hashes it with the digest.
- Lifecycle.Hash: a binary entry holding `str` data makes the source's `hash`
  encode it with the pseudo-encoding `"bytes"`, which raises `LookupError`
  inside `is_unsaved`. The model digests the payload and `IsUnsaved` returns
  a value.
- Strings.SplitLinesAppendLastLine: stated for text whose only line break is `\n`,
  where the lines are `split("\n")`. Strings.SplitLinesAfterBreak states the
  same for every kind of line break.
- Strings.DropLastLineKeepsCompleteLines: stated for text whose only line break is
  `\n`, where the result is the text itself. Strings.DropLastLineAfterBreak
  states it for every kind of line break, with the lines joined by `\n`.
- Projects.GetState: an entry's state holds only its class and path. For a
  nested project entry the source's `entry.__getstate__()` also stores that
  project's `entries` and `meta`; nested projects are not modelled.
- Projects.ExistingPaths: `add_files` filters on whether the project itself
  has a path (line 333), not the entry. The model follows that, so the
  `AttributeError` arises for a pathless entry only in a saved project.

## Findings

| source | as written | input that shows it | evidently intended | confidence | as-written member | corrected member |
|---|---|---|---|---|---|---|
| src/xamin/entry/project.py:86-90 | `path.relative_to(project_path)` with `project_path = None` raises `TypeError`, which the `except (ValueError, KeyError, AttributeError)` does not catch | a project without a path holding one entry with path `/a.txt` | the entry path is kept as it is when the project has no directory, as for the other failures | not executed | Projects.GetStateAsWrittenRaises | Projects.StateRoundTripWithoutPath |
| src/xamin/project/entry.py:320-327, 370-377 | `save` reads `self.data`, whose getter resets the loaded hash, so the `is_unsaved` check that follows is always false and nothing is written | a `TextEntry` on an existing file, set to `"x"`, then saved | the unsaved check is made on the data as it stood before the getter ran, so the edit is written | not executed | LegacyEntries.SaveAsWrittenLosesEdit | LegacyEntries.SaveThenReadBack |

=== FILE: classes.dfy ===
/** The concrete entry classes, their registered names and their scores
    (precedence in type guessing). */
module Classes {
  import opened Wrappers

  /** The registered `Entry` subclasses. The abstract `Entry` itself is not
      registered: it only contributes the base score. */
  datatype Class = TextClass | BinaryClass | CsvClass | YamlClass | ProjectClass

  const AllClasses: seq<Class> := [TextClass, BinaryClass, CsvClass, YamlClass, ProjectClass]

  /** `cls.__name__`, the tag stored in a project's state. */
  function Name(c: Class): string {
    match c
    case TextClass => "TextEntry"
    case BinaryClass => "BinaryEntry"
    case CsvClass => "CsvEntry"
    case YamlClass => "YamlEntry"
    case ProjectClass => "Project"
  }

  /** The lookup `{cls.__name__: cls for cls in subclasses()}[name]`. */
  function FromName(s: string): (r: Option<Class>)
    ensures r.Some? ==> Name(r.value) == s
  {
    if s == "TextEntry" then Some(TextClass)
    else if s == "BinaryEntry" then Some(BinaryClass)
    else if s == "CsvEntry" then Some(CsvClass)
    else if s == "YamlEntry" then Some(YamlClass)
    else if s == "Project" then Some(ProjectClass)
    else None
  }

  /** Every class is found again under its name, so names are distinct. */
  lemma FromNameOfName(c: Class)
    ensures FromName(Name(c)) == Some(c)
  {
  }

  /** `cls.__base__`: None for the classes derived directly from `Entry`. */
  function Base(c: Class): Option<Class> {
    if c == ProjectClass then Some(YamlClass) else None
  }

  /** The score of the abstract `Entry` base. */
  const EntryScore: int := 0

  /** Classes that override `score` with a constant. */
  function PinnedScore(c: Class): Option<int> {
    if c == TextClass || c == BinaryClass then Some(5) else None
  }

  /** `cls.score()`: the pinned value, or the base's score plus 10. */
  function Score(c: Class): int
    decreases if c == ProjectClass then 1 else 0
  {
    match PinnedScore(c)
    case Some(s) => s
    case None =>
      match Base(c)
      case None => EntryScore + 10
      case Some(b) => Score(b) + 10
  }

  /** The resulting precedence: the generic text and binary classes at 5, CSV
      and YAML one inheritance step above `Entry` at 10, and `Project`, a
      YAML subclass, at 20. */
  lemma ScoreTable()
    ensures Score(TextClass) == 5 && Score(BinaryClass) == 5
    ensures Score(CsvClass) == 10 && Score(YamlClass) == 10
    ensures Score(ProjectClass) == 20
    ensures forall c :: Score(c) > EntryScore
  {
  }
}

=== FILE: dict.dfy ===
/** `recursive_update` from the dictionary utilities: merge the updates `u`
    into the dictionary `d`, descending into nested mappings. */
module DictUtils {
  import opened Wrappers
  import opened Values

  /** The value `d[k]` takes when the update value `v` is applied to the
      previous value `prior` (None when `k` was not in `d`). A mapping update
      merges into a mapping (or into `{}` when the key was absent); a mapping
      update on a non-mapping raises unless the update is empty; anything else
      overwrites. */
  function UpdateValue(prior: Option<Node>, v: Node): Result<Node>
    decreases v, 3
  {
    match v
    case Mapping(um) =>
      (match prior
       case None => MergeInto(map[], um)
       case Some(Mapping(dm)) => MergeInto(dm, um)
       case Some(other) => if um == map[] then Success(other) else Failure(TypeError))
    case _ => Success(v)
  }

  /** The nested call `recursive_update(d.get(k, {}), v)`, wrapped back into a mapping. */
  function MergeInto(dm: map<string, Node>, um: map<string, Node>): Result<Node>
    decreases Mapping(um), 2
  {
    match RecursiveUpdate(dm, um, {})
    case Success(r) => Success(Mapping(r))
    case Failure(e) => Failure(e)
  }

  /** Some update key (outside `excludes`) cannot be applied. */
  predicate Fails(d: map<string, Node>, u: map<string, Node>, excludes: set<string>)
    decreases Mapping(u), 0
  {
    exists k :: k in u && k !in excludes && UpdateValue(Get(d, k), u[k]).Failure?
  }

  /** `recursive_update(d, u, excludes)`: the updated dictionary, or the
      exception raised part-way through. */
  function RecursiveUpdate(d: map<string, Node>, u: map<string, Node>, excludes: set<string>)
    : (r: Result<map<string, Node>>)
    ensures r.Success? ==> r.value.Keys == d.Keys + (u.Keys - excludes)
    ensures r.Success? ==> forall k :: k in d && (k !in u || k in excludes) ==> r.value[k] == d[k]
    decreases Mapping(u), 1
  {
    if Fails(d, u, excludes) then Failure(TypeError)
    else
      Success(map k | k in d.Keys + (u.Keys - excludes) ::
                if k in u && k !in excludes then UpdateValue(Get(d, k), u[k]).value else d[k])
  }

  /** Keys listed in `excludes` are left exactly as they were. */
  lemma ExcludedKeysUntouched(d: map<string, Node>, u: map<string, Node>, excludes: set<string>, k: string)
    requires RecursiveUpdate(d, u, excludes).Success?
    requires k in excludes
    ensures k in RecursiveUpdate(d, u, excludes).value <==> k in d
    ensures k in d ==> RecursiveUpdate(d, u, excludes).value[k] == d[k]
  {
  }

  /** A non-mapping update value overwrites `d[k]`, whatever `d[k]` was. */
  lemma ScalarOverwrites(d: map<string, Node>, u: map<string, Node>, excludes: set<string>, k: string)
    requires RecursiveUpdate(d, u, excludes).Success?
    requires k in u && k !in excludes && !u[k].Mapping?
    ensures RecursiveUpdate(d, u, excludes).value[k] == u[k]
  {
  }

  /** A mapping update merges into a mapping: keys only in the old sub-mapping
      keep their values, and `excludes` does not reach the nested level. */
  lemma MappingMerges(d: map<string, Node>, u: map<string, Node>, excludes: set<string>, k: string)
    requires RecursiveUpdate(d, u, excludes).Success?
    requires k in u && k !in excludes && u[k].Mapping?
    requires k in d && d[k].Mapping?
    ensures RecursiveUpdate(d[k].m, u[k].m, {}).Success?
    ensures RecursiveUpdate(d, u, excludes).value[k] == Mapping(RecursiveUpdate(d[k].m, u[k].m, {}).value)
    ensures var sub := RecursiveUpdate(d, u, excludes).value[k].m;
            forall j :: j in d[k].m && j !in u[k].m ==> j in sub && sub[j] == d[k].m[j]
  {
    assert !Fails(d, u, excludes);
    assert UpdateValue(Get(d, k), u[k]).Success?;
    assert UpdateValue(Get(d, k), u[k]) == MergeInto(d[k].m, u[k].m);
  }

  /** Merging nothing changes nothing. */
  lemma EmptyUpdateIsIdentity(d: map<string, Node>, excludes: set<string>)
    ensures RecursiveUpdate(d, map[], excludes) == Success(d)
  {
    assert !Fails(d, map[], excludes);
    var r := RecursiveUpdate(d, map[], excludes).value;
    assert r.Keys == d.Keys;
    assert forall k :: k in r ==> r[k] == d[k];
    assert r == d;
  }

  /** Applying a value twice gives what applying it once gave. */
  lemma {:induction false} UpdateValueIdempotent(prior: Option<Node>, v: Node)
    requires UpdateValue(prior, v).Success?
    ensures UpdateValue(Some(UpdateValue(prior, v).value), v) == UpdateValue(prior, v)
    decreases v, 3
  {
    match v
    case Mapping(um) =>
      var dm := match prior
        case Some(Mapping(dm)) => dm
        case _ => map[];
      if prior.None? || prior.value.Mapping? {
        var r := RecursiveUpdate(dm, um, {}).value;
        RecursiveUpdateIdempotent(dm, um, {});
        assert UpdateValue(Some(Mapping(r)), v) == MergeInto(r, um);
      }
    case _ =>
  }

  /** `recursive_update` is idempotent: a second application of the same
      updates leaves the result unchanged. */
  lemma {:induction false} RecursiveUpdateIdempotent(d: map<string, Node>, u: map<string, Node>, excludes: set<string>)
    requires RecursiveUpdate(d, u, excludes).Success?
    ensures RecursiveUpdate(RecursiveUpdate(d, u, excludes).value, u, excludes) == RecursiveUpdate(d, u, excludes)
    decreases Mapping(u), 2
  {
    var r := RecursiveUpdate(d, u, excludes).value;
    assert !Fails(d, u, excludes);
    forall k | k in u && k !in excludes
      ensures UpdateValue(Get(r, k), u[k]) == Success(r[k])
    {
      assert UpdateValue(Get(d, k), u[k]).Success?;
      UpdateValueIdempotent(Get(d, k), u[k]);
    }
    assert !Fails(r, u, excludes);
    var r2 := RecursiveUpdate(r, u, excludes).value;
    assert r2.Keys == r.Keys;
    assert forall k :: k in r ==> r2[k] == r[k];
    assert r2 == r;
  }

  /** The examples documented for `recursive_update`: a plain merge. */
  lemma RecursiveUpdateExample()
    ensures RecursiveUpdate(map["a" := Atom("1"), "b" := Atom("2")], map["b" := Atom("3"), "c" := Atom("4")], {})
            == Success(map["a" := Atom("1"), "b" := Atom("3"), "c" := Atom("4")])
  {
    var d := map["a" := Atom("1"), "b" := Atom("2")];
    var u := map["b" := Atom("3"), "c" := Atom("4")];
    assert !Fails(d, u, {});
    var r := RecursiveUpdate(d, u, {}).value;
    assert r.Keys == {"a", "b", "c"};
    assert r["b"] == UpdateValue(Get(d, "b"), u["b"]).value == Atom("3");
    assert r["c"] == UpdateValue(Get(d, "c"), u["c"]).value == Atom("4");
    assert r["a"] == Atom("1");
    assert r == map["a" := Atom("1"), "b" := r["b"], "c" := Atom("4")];
  }

  /** An excluded key keeps its old value while the others are merged. */
  lemma RecursiveUpdateExcludesExample()
    ensures RecursiveUpdate(map["a" := Atom("1"), "b" := Atom("2")], map["b" := Atom("3"), "c" := Atom("4")], {"b"})
            == Success(map["a" := Atom("1"), "b" := Atom("2"), "c" := Atom("4")])
  {
    var d := map["a" := Atom("1"), "b" := Atom("2")];
    var u := map["b" := Atom("3"), "c" := Atom("4")];
    assert !Fails(d, u, {"b"});
    var r := RecursiveUpdate(d, u, {"b"}).value;
    assert r.Keys == {"a", "b", "c"};
    assert r["c"] == UpdateValue(Get(d, "c"), u["c"]).value == Atom("4");
    assert r["a"] == Atom("1");
    assert r == map["a" := Atom("1"), "b" := r["b"], "c" := Atom("4")];
  }

  /** A scalar update replaces a whole nested mapping. */
  lemma RecursiveUpdateReplaceExample()
    ensures RecursiveUpdate(map["a" := Atom("1"), "b" := Mapping(map["c" := Atom("2"), "d" := Atom("3")])],
                            map["b" := Atom("4")], {})
            == Success(map["a" := Atom("1"), "b" := Atom("4")])
  {
    var d := map["a" := Atom("1"), "b" := Mapping(map["c" := Atom("2"), "d" := Atom("3")])];
    var u := map["b" := Atom("4")];
    assert !Fails(d, u, {});
    var r := RecursiveUpdate(d, u, {}).value;
    assert r.Keys == {"a", "b"};
    assert r["b"] == UpdateValue(Get(d, "b"), u["b"]).value == Atom("4");
    assert r["a"] == Atom("1");
    assert r == map["a" := Atom("1"), "b" := Atom("4")];
  }

  /** The nested example: `{'a': 1, 'b': {'c': 2, 'd': 3}}` updated with
      `{'b': {'c': 4}}` keeps `d` and replaces `c`. */
  lemma RecursiveUpdateNestedExample()
    ensures RecursiveUpdate(map["a" := Atom("1"), "b" := Mapping(map["c" := Atom("2"), "d" := Atom("3")])],
                            map["b" := Mapping(map["c" := Atom("4")])], {})
            == Success(map["a" := Atom("1"), "b" := Mapping(map["c" := Atom("4"), "d" := Atom("3")])])
  {
    var dm := map["c" := Atom("2"), "d" := Atom("3")];
    var um := map["c" := Atom("4")];
    assert !Fails(dm, um, {});
    var rm := RecursiveUpdate(dm, um, {}).value;
    assert rm.Keys == {"c", "d"};
    assert rm["c"] == UpdateValue(Get(dm, "c"), um["c"]).value == Atom("4");
    assert rm == map["c" := Atom("4"), "d" := Atom("3")];
    var d := map["a" := Atom("1"), "b" := Mapping(dm)];
    var u := map["b" := Mapping(um)];
    assert UpdateValue(Get(d, "b"), u["b"]) == MergeInto(dm, um) == Success(Mapping(rm));
    assert !Fails(d, u, {});
    var r := RecursiveUpdate(d, u, {}).value;
    assert r.Keys == {"a", "b"};
    assert r["b"] == Mapping(rm);
    assert r["a"] == Atom("1");
    assert r == map["a" := Atom("1"), "b" := Mapping(rm)];
  }

  /** A mapping update on a key holding a non-mapping raises, as
      `recursive_update({'b': 2}, {'b': {'c': 4}})` does. */
  lemma MappingOverScalarRaises()
    ensures RecursiveUpdate(map["b" := Atom("2")], map["b" := Mapping(map["c" := Atom("4")])], {}).Failure?
  {
    var d := map["b" := Atom("2")];
    var u := map["b" := Mapping(map["c" := Atom("4")])];
    assert u["b"].m != map[] by { assert "c" in u["b"].m; }
    assert UpdateValue(Get(d, "b"), u["b"]).Failure?;
    assert Fails(d, u, {});
  }
}

=== FILE: hints.dfy ===
/** The file map the entries read and write, and the hint: the first bytes of
    a file, from which entry types are guessed. */
module Hints {
  import opened Wrappers
  import opened Utf8
  import opened Paths

  /** A regular file: its bytes and its modification time. */
  datatype File = File(content: seq<byte>, mtime: nat)

  /** The filesystem as a map from paths to files; a missing key is a path
      that cannot be read. */
  type FileSystem = map<Path, File>

  /** The `hint_size` setting: how many bytes of a file the hint holds. */
  const HintSize: nat := 2048

  /** `Hint`: the leading bytes of a file. */
  datatype Hint = Hint(bytes: seq<byte>)

  /** `Hint.utf_8`: the hint decoded as UTF-8, or None when it is not valid UTF-8. */
  function Utf8Of(h: Hint): (r: Option<string>)
    ensures r.Some? <==> Valid(h.bytes)
    ensures r.Some? ==> Encode(r.value) == h.bytes
  {
    DecodeSucceedsIffValid(h.bytes);
    var r := Decode(h.bytes);
    if r.Some? then EncodeDecode(h.bytes); r else r
  }

  /** `Entry.get_hint(path)`: the first `HintSize` bytes of the file, or None
      when there is no path or the file cannot be read. */
  function GetHint(fs: FileSystem, path: Option<Path>): (r: Option<Hint>)
    ensures r.Some? <==> path.Some? && path.value in fs
    ensures r.Some? ==> |r.value.bytes| <= HintSize
    ensures r.Some? ==> |r.value.bytes| <= |fs[path.value].content|
                        && r.value.bytes == fs[path.value].content[..|r.value.bytes|]
    ensures r.Some? && |fs[path.value].content| <= HintSize ==> r.value.bytes == fs[path.value].content
    ensures r.Some? && |fs[path.value].content| > HintSize ==> r.value.bytes == fs[path.value].content[..HintSize]
  {
    match path
    case None => None
    case Some(p) =>
      if p !in fs then None
      else
        var content := fs[p].content;
        Some(Hint(if |content| <= HintSize then content else content[..HintSize]))
  }
}

=== FILE: legacy.dfy ===
/** The older entry module of the `project` package: an abstract `Entry`
    with `TextEntry` and `BinaryEntry`, typed by a str-or-bytes hint and
    chosen by class depth, holding data the getter reads lazily. */
module LegacyEntries {
  import opened Wrappers
  import opened Utf8
  import opened Strings
  import opened Paths
  import opened Hints
  import opened Oracles

  /** The abstract root and its two subclasses. */
  datatype Kind = RootKind | TextKind | BinaryKind

  /** The first base class that has a `depth`. */
  function BaseOf(k: Kind): (r: Option<Kind>)
    ensures r.Some? ==> r.value == RootKind
  {
    if k == RootKind then None else Some(RootKind)
  }

  /** `depth`: 0 for a class without a depth-bearing base, one more than its
      base's depth otherwise. */
  function Depth(k: Kind): nat
    decreases if k == RootKind then 0 else 1
  {
    match BaseOf(k)
    case None => 0
    case Some(b) => Depth(b) + 1
  }

  /** Example: the depth of each legacy class, root first. */
  lemma DepthTable()
    ensures Depth(RootKind) == 0 && Depth(TextKind) == 1 && Depth(BinaryKind) == 1
    ensures forall k :: Depth(k) > 0 <==> k != RootKind
  {
  }

  // ---------------------------------------------------------------------------
  // Hints and types

  /** The older hint: the leading bytes as text when they decode as UTF-8, as
      bytes otherwise. */
  datatype LegacyHint = TextHint(text: string) | BytesHint(bytes: seq<byte>)

  /** `Entry.get_hint(path)`. */
  function GetLegacyHint(fs: FileSystem, path: Option<Path>): (r: Option<LegacyHint>)
    ensures r.None? <==> GetHint(fs, path).None?
    ensures r.Some? ==> (r.value.TextHint? <==> Valid(GetHint(fs, path).value.bytes))
    ensures r.Some? && r.value.TextHint? ==> Encode(r.value.text) == GetHint(fs, path).value.bytes
    ensures r.Some? && r.value.BytesHint? ==> r.value.bytes == GetHint(fs, path).value.bytes
  {
    match GetHint(fs, path)
    case None => None
    case Some(h) =>
      match Utf8Of(h)
      case Some(s) => Some(TextHint(s))
      case None => Some(BytesHint(h.bytes))
  }

  /** `is_type`: False for the abstract root, an isinstance test on the hint
      for the two subclasses. */
  predicate IsType(k: Kind, h: Option<LegacyHint>) {
    match k
    case RootKind => false
    case TextKind => h.Some? && h.value.TextHint?
    case BinaryKind => h.Some? && h.value.BytesHint?
  }

  /** Text and binary never both accept a hint, and one of them accepts any
      hint there is. */
  lemma TextBinaryExclusive(h: Option<LegacyHint>)
    ensures !(IsType(TextKind, h) && IsType(BinaryKind, h))
    ensures h.Some? <==> IsType(TextKind, h) || IsType(BinaryKind, h)
  {
  }

  // ---------------------------------------------------------------------------
  // guess_type

  /** The loop of `guess_type`: `highest_hierarchy` stays 0, so every class of
      positive depth that accepts replaces the previous choice. */
  function GuessLoop(accepts: Kind -> bool, order: seq<Kind>, best: Option<Kind>): Option<Kind>
    decreases |order|
  {
    if order == [] then best
    else GuessLoop(accepts, order[1..], if Depth(order[0]) > 0 && accepts(order[0]) then Some(order[0]) else best)
  }

  /** A class the loop may pick. */
  predicate Picks(accepts: Kind -> bool, k: Kind) {
    Depth(k) > 0 && accepts(k)
  }

  /** The loop's result is the last class in the list it may pick, or the
      starting choice when there is none. */
  lemma {:induction false} GuessLoopIsLast(accepts: Kind -> bool, order: seq<Kind>, best: Option<Kind>)
    ensures var r := GuessLoop(accepts, order, best);
            (r == best && forall j :: 0 <= j < |order| ==> !Picks(accepts, order[j]))
            || exists i :: 0 <= i < |order| && r == Some(order[i]) && Picks(accepts, order[i])
                           && forall j :: i < j < |order| ==> !Picks(accepts, order[j])
    decreases |order|
  {
    if order != [] {
      var next := if Picks(accepts, order[0]) then Some(order[0]) else best;
      GuessLoopIsLast(accepts, order[1..], next);
      var r := GuessLoop(accepts, order, best);
      assert r == GuessLoop(accepts, order[1..], next);
      assert forall j :: 1 <= j < |order| ==> order[j] == order[1..][j - 1];
      if exists i :: 0 <= i < |order[1..]| && r == Some(order[1..][i]) && Picks(accepts, order[1..][i])
                     && forall j :: i < j < |order[1..]| ==> !Picks(accepts, order[1..][j]) {
        var i :| 0 <= i < |order[1..]| && r == Some(order[1..][i]) && Picks(accepts, order[1..][i])
                 && forall j :: i < j < |order[1..]| ==> !Picks(accepts, order[1..][j]);
        assert forall j :: i + 1 < j < |order| ==> !Picks(accepts, order[j]) by {
          forall j | i + 1 < j < |order| ensures !Picks(accepts, order[j]) {
            assert order[j] == order[1..][j - 1];
          }
        }
        assert r == Some(order[i + 1]);
      } else {
        assert forall j :: 0 <= j < |order[1..]| ==> !Picks(accepts, order[1..][j]);
        assert forall j :: 1 <= j < |order| ==> !Picks(accepts, order[j]);
      }
    }
  }

  /** Example of `GuessLoopIsLast`: when two classes both accept, the later
      one in the list wins, whatever the depths say, since the comparison
      against `highest_hierarchy` never tightens. */
  lemma LastWins(accepts: Kind -> bool)
    requires accepts(TextKind) && accepts(BinaryKind)
    ensures GuessLoop(accepts, [TextKind, BinaryKind], None) == Some(BinaryKind)
    ensures GuessLoop(accepts, [BinaryKind, TextKind], None) == Some(TextKind)
  {
    assert [TextKind, BinaryKind][1..] == [BinaryKind];
    assert [BinaryKind, TextKind][1..] == [TextKind];
  }

  /** `Entry.guess_type(path, hint)`: without a path nor a hint there is
      nothing to go on; a missing hint is read from the path. */
  function GuessType(fs: FileSystem, path: Option<Path>, hint: Option<LegacyHint>, order: seq<Kind>): (r: Option<Kind>)
    ensures path.None? && hint.None? ==> r.None?
    ensures r.Some? ==> r.value in order && r.value != RootKind
  {
    if path.None? && hint.None? then None
    else
      var h := if hint.Some? then hint else GetLegacyHint(fs, path);
      var accepts := k => IsType(k, h);
      GuessLoopIsLast(accepts, order, None);
      GuessLoop(accepts, order, None)
  }

  /** With the two subclasses registered, in either order, the guess is
      text for a text hint, binary for a bytes hint, and None when no hint
      can be had. */
  lemma GuessTypeByHint(fs: FileSystem, path: Path, hint: Option<LegacyHint>, order: seq<Kind>)
    requires TextKind in order && BinaryKind in order
    ensures var h := if hint.Some? then hint else GetLegacyHint(fs, Some(path));
            && (h.None? ==> GuessType(fs, Some(path), hint, order).None?)
            && (h.Some? && h.value.TextHint? ==> GuessType(fs, Some(path), hint, order) == Some(TextKind))
            && (h.Some? && h.value.BytesHint? ==> GuessType(fs, Some(path), hint, order) == Some(BinaryKind))
  {
    var h := if hint.Some? then hint else GetLegacyHint(fs, Some(path));
    var accepts := k => IsType(k, h);
    GuessLoopIsLast(accepts, order, None);
    var r := GuessLoop(accepts, order, None);
    assert r == GuessType(fs, Some(path), hint, order);
    if h.Some? {
      var want := if h.value.TextHint? then TextKind else BinaryKind;
      var i :| 0 <= i < |order| && order[i] == want;
      assert Picks(accepts, order[i]);
      assert forall k :: Picks(accepts, k) ==> k == want;
    }
  }

  // ---------------------------------------------------------------------------
  // Entries, hash and the unsaved flag

  /** The cached data: None, a str, bytes, or some other object. */
  datatype Value = NoData | TextData(text: string) | BytesData(bytes: seq<byte>) | OtherData(tag: nat)

  /** An entry: its class, its path, its cached data and the hash recorded
      when it was last loaded or saved. */
  datatype LegacyEntry = LegacyEntry(kind: Kind, path: Option<Path>, data: Value, loadedHash: string)

  function NewLegacyEntry(kind: Kind, path: Option<Path>): (e: LegacyEntry)
    ensures e.kind == kind && e.path == path && e.data == NoData && e.loadedHash == ""
  {
    LegacyEntry(kind, path, NoData, "")
  }

  /** `hash`: "" without data, otherwise the digest `digest` gives. */
  function Hash(digest: Value -> Digest, e: LegacyEntry): (h: string)
    ensures h == "" <==> e.data == NoData
    ensures e.data != NoData ==> h == digest(e.data)
  {
    if e.data == NoData then "" else digest(e.data)
  }

  /** `is_unsaved`. */
  predicate IsUnsaved(digest: Value -> Digest, e: LegacyEntry) {
    e.path.None? || Hash(digest, e) != e.loadedHash
  }

  /** A new entry with a path has nothing unsaved. */
  lemma NewEntryIsSaved(digest: Value -> Digest, kind: Kind, p: Path)
    ensures !IsUnsaved(digest, NewLegacyEntry(kind, Some(p)))
    ensures IsUnsaved(digest, NewLegacyEntry(kind, None))
  {
  }

  /** `not value`: None, the empty str and empty bytes are false; any other
      object is taken to be true. */
  predicate Falsy(v: Value) {
    v == NoData || v == TextData("") || v == BytesData([])
  }

  // ---------------------------------------------------------------------------
  // The data getter and setters

  /** The read the getter does: `read_text()` (decoded as UTF-8 with universal
      newlines) or `read_bytes()`. The abstract root reads nothing. */
  function ReadValue(fs: FileSystem, kind: Kind, p: Path): (r: Result<Value>)
    ensures kind != RootKind && p !in fs ==> r == Failure(FileNotFound)
    ensures kind == BinaryKind && p in fs ==> r == Success(BytesData(fs[p].content))
    ensures kind == TextKind && p in fs ==>
              r == match Decode(fs[p].content)
                   case None => Failure(UnicodeDecode)
                   case Some(s) => Success(TextData(TranslateNewlines(s)))
  {
    match kind
    case RootKind => Success(NoData)
    case TextKind =>
      if p !in fs then Failure(FileNotFound)
      else
        (match Decode(fs[p].content)
         case None => Failure(UnicodeDecode)
         case Some(s) => Success(TextData(TranslateNewlines(s))))
    case BinaryKind =>
      if p !in fs then Failure(FileNotFound) else Success(BytesData(fs[p].content))
  }

  /** The `data` getter: reads the file when the cached data is false and a
      path is set, then resets the loaded hash and returns the data. */
  function GetData(digest: Value -> Digest, fs: FileSystem, e: LegacyEntry): (r: Result<(LegacyEntry, Value)>)
    ensures r.Success? ==> r.value.0.kind == e.kind && r.value.0.path == e.path && r.value.1 == r.value.0.data
    ensures r.Success? ==> !IsUnsaved(digest, r.value.0) || e.path.None?
    ensures !Falsy(e.data) || e.path.None? || e.kind == RootKind ==>
              r == Success((e.(loadedHash := Hash(digest, e)), e.data))
    ensures r.Failure? ==> e.path.Some? && ReadValue(fs, e.kind, e.path.value).Failure?
  {
    var e1 :-
      if Falsy(e.data) && e.path.Some? && e.kind != RootKind then
        var v :- ReadValue(fs, e.kind, e.path.value);
        Success(e.(data := v))
      else Success(e);
    var e2 := e1.(loadedHash := Hash(digest, e1));
    Success((e2, e2.data))
  }

  /** The typed `data` setters: `TextEntry` takes only str, `BinaryEntry`
      only bytes; the root's setter takes anything. */
  function SetData(e: LegacyEntry, v: Value): (r: Result<LegacyEntry>)
    ensures r.Failure? ==> r.error == TypeError
    ensures r.Success? <==> match e.kind
                            case RootKind => true
                            case TextKind => v.TextData?
                            case BinaryKind => v.BytesData?
    ensures r.Success? ==> r.value.data == v && r.value.(data := e.data) == e
  {
    match e.kind
    case RootKind => Success(e.(data := v))
    case TextKind => if v.TextData? then Success(e.(data := v)) else Failure(TypeError)
    case BinaryKind => if v.BytesData? then Success(e.(data := v)) else Failure(TypeError)
  }

  /** Data that was set is what the getter returns, without touching the file. */
  lemma SetThenGet(digest: Value -> Digest, fs: FileSystem, e: LegacyEntry, v: Value)
    requires SetData(e, v).Success? && !Falsy(v)
    ensures GetData(digest, fs, SetData(e, v).value).Success?
    ensures GetData(digest, fs, SetData(e, v).value).value.1 == v
  {
  }

  // ---------------------------------------------------------------------------
  // save

  /** `path.write_text(data)` or `path.write_bytes(data)`; any other pairing
      of class and data raises. */
  function WriteValue(fs: FileSystem, kind: Kind, p: Path, v: Value, now: nat): (r: Result<FileSystem>)
    ensures r.Success? <==> (kind == TextKind && v.TextData?) || (kind == BinaryKind && v.BytesData?)
    ensures r.Success? && v.TextData? ==> r.value == fs[p := File(Encode(v.text), now)]
    ensures r.Success? && v.BytesData? ==> r.value == fs[p := File(v.bytes, now)]
  {
    match (kind, v)
    case (TextKind, TextData(s)) => Success(fs[p := File(Encode(s), now)])
    case (BinaryKind, BytesData(b)) => Success(fs[p := File(b, now)])
    case _ => Failure(TypeError)
  }

  /** A value written with `write_text` or `write_bytes` reads back: bytes
      as written, text with universal newlines applied, and so unchanged when
      it holds no carriage return. */
  lemma ReadAfterWrite(fs: FileSystem, kind: Kind, p: Path, v: Value, now: nat)
    requires WriteValue(fs, kind, p, v, now).Success?
    ensures v.BytesData? ==> ReadValue(WriteValue(fs, kind, p, v, now).value, kind, p) == Success(v)
    ensures v.TextData? ==>
              ReadValue(WriteValue(fs, kind, p, v, now).value, kind, p) == Success(TextData(TranslateNewlines(v.text)))
    ensures v.TextData? && '\r' !in v.text ==> ReadValue(WriteValue(fs, kind, p, v, now).value, kind, p) == Success(v)
  {
    if v.TextData? {
      DecodeEncode(v.text);
    }
  }

  /** `TextEntry.save`/`BinaryEntry.save` as written: the path guard, the
      data getter (which resets the loaded hash), then a write only if the
      entry is unsaved. */
  function SaveAsWritten(digest: Value -> Digest, fs: FileSystem, e: LegacyEntry, now: nat)
    : (r: Result<(LegacyEntry, FileSystem)>)
    ensures e.path.None? ==> r == Failure(FileNotFound)
    ensures r.Failure? && e.path.Some? ==> ReadValue(fs, e.kind, e.path.value).Failure?
    ensures r.Success? ==> r.value.1 == fs
  {
    if e.path.None? then Failure(FileNotFound)
    else if e.kind == RootKind then Success((e, fs))
    else
      var p := e.path.value;
      var (e1, d) :- GetData(digest, fs, e);
      if IsUnsaved(digest, e1) && !Falsy(d) then
        match WriteValue(fs, e.kind, p, d, now)
        case Success(fs1) => Success((e1.(loadedHash := Hash(digest, e1)), fs1))
        case Failure(err) => Failure(err)
      else Success((e1, fs))
  }

  /** The save the docstrings describe: the unsaved check is made on the
      data as it stood before the getter resets the loaded hash. */
  function Save(digest: Value -> Digest, fs: FileSystem, e: LegacyEntry, now: nat)
    : (r: Result<(LegacyEntry, FileSystem)>)
    ensures e.path.None? ==> r == Failure(FileNotFound)
    ensures r.Failure? && e.path.Some? && r.error != TypeError ==> ReadValue(fs, e.kind, e.path.value).Failure?
    ensures r.Success? && !IsUnsaved(digest, e) ==> r.value.1 == fs
    ensures r.Success? ==> !IsUnsaved(digest, r.value.0) && r.value.0.path == e.path && r.value.0.kind == e.kind
    ensures e.path.Some? && e.kind != RootKind && IsUnsaved(digest, e) && !Falsy(e.data)
            && WriteValue(fs, e.kind, e.path.value, e.data, now).Success? ==>
              r == Success((e.(loadedHash := Hash(digest, e)), WriteValue(fs, e.kind, e.path.value, e.data, now).value))
  {
    if e.path.None? then Failure(FileNotFound)
    else if e.kind == RootKind then Success((e.(loadedHash := Hash(digest, e)), fs))
    else
      var unsaved := IsUnsaved(digest, e);
      var (e1, d) :- GetData(digest, fs, e);
      if unsaved && !Falsy(d) then
        var fs1 :- WriteValue(fs, e1.kind, e1.path.value, d, now);
        Success((e1, fs1))
      else Success((e1, fs))
  }

  /** An edit through the setter is lost by the save as written and written
      by the intended save. */
  lemma SaveAsWrittenLosesEdit(digest: Value -> Digest, fs: FileSystem, p: Path, s: string, now: nat)
    requires p in fs && s != ""
    ensures var e := SetData(NewLegacyEntry(TextKind, Some(p)), TextData(s)).value;
            && SaveAsWritten(digest, fs, e, now) == Success((e.(loadedHash := digest(TextData(s))), fs))
            && Save(digest, fs, e, now).Success?
            && Save(digest, fs, e, now).value.1[p] == File(Encode(s), now)
  {
    var e := SetData(NewLegacyEntry(TextKind, Some(p)), TextData(s)).value;
    assert IsUnsaved(digest, e);
  }

  /** What the intended save writes, a fresh entry on the same path reads
      back: bytes exactly, text up to the newline translation of the read. */
  lemma SaveThenReadBack(digest: Value -> Digest, fs: FileSystem, e: LegacyEntry, now: nat)
    requires e.path.Some? && e.kind != RootKind && IsUnsaved(digest, e) && !Falsy(e.data)
    requires (e.kind == TextKind && e.data.TextData? && '\r' !in e.data.text) || (e.kind == BinaryKind && e.data.BytesData?)
    ensures Save(digest, fs, e, now).Success?
    ensures var fs1 := Save(digest, fs, e, now).value.1;
            GetData(digest, fs1, NewLegacyEntry(e.kind, e.path)).Success?
            && GetData(digest, fs1, NewLegacyEntry(e.kind, e.path)).value.1 == e.data
  {
    if e.kind == TextKind {
      DecodeEncode(e.data.text);
    }
  }
}

=== FILE: legacy_project.dfy ===
/** The older `Project` of the `project` package: unique entry names by
    numbered suffixes, and the name bookkeeping of appending file entries. */
module LegacyProjects {
  import opened Wrappers
  import opened Strings
  import opened Paths

  /** How many numbered suffixes are tried before giving up. */
  const Attempts: nat := 999

  /** `name.strip() + " ({number:1})".format(number=n)`. */
  function Candidate(name: string, n: nat): string {
    Strip(name) + " (" + NatToString(n) + ")"
  }

  /** The first number from `n` below `Attempts` that is not taken. */
  function FirstFree(taken: nat -> bool, n: nat): (r: Option<nat>)
    ensures r.Some? ==> n <= r.value < Attempts && !taken(r.value)
    ensures r.Some? ==> forall m :: n <= m < r.value ==> taken(m)
    ensures r.None? <==> forall m :: n <= m < Attempts ==> taken(m)
    decreases Attempts - n
  {
    if n >= Attempts then None
    else if !taken(n) then Some(n)
    else
      var r := FirstFree(taken, n + 1);
      assert r.Some? ==> forall m :: n <= m < r.value ==> taken(m) by {
        if r.Some? {
          forall m | n <= m < r.value ensures taken(m) {
            if m > n {
              assert n + 1 <= m < r.value;
            }
          }
        }
      }
      r
  }

  /** `Project._find_unique_name`: the name itself when free, else the first
      free numbered candidate, else an `AssertionError`. */
  function FindUniqueName(name: string, existing: set<string>): (r: Result<string>)
    ensures name !in existing ==> r == Success(name)
    ensures r.Success? ==> r.value !in existing
    ensures r.Failure? ==> r.error == AssertionError
  {
    if name !in existing then Success(name)
    else
      match FirstFree(Taken(name, existing), 0)
      case Some(n) => Success(Candidate(name, n))
      case None => Failure(AssertionError)
  }

  /** Whether the candidate with suffix `n` is already a name. */
  function Taken(name: string, existing: set<string>): (taken: nat -> bool)
    ensures forall n: nat :: taken(n) <==> Candidate(name, n) in existing
  {
    (n: nat) => Candidate(name, n) in existing
  }

  /** A taken name is replaced by the candidate with the least free suffix. */
  lemma FindUniqueNameLeastSuffix(name: string, existing: set<string>)
    requires name in existing && FindUniqueName(name, existing).Success?
    ensures exists n :: 0 <= n < Attempts && FindUniqueName(name, existing).value == Candidate(name, n)
                        && forall m :: 0 <= m < n ==> Candidate(name, m) in existing
  {
    var n := FirstFree(Taken(name, existing), 0).value;
    assert FindUniqueName(name, existing).value == Candidate(name, n);
  }

  /** The search fails exactly when the name and all its candidates are taken. */
  lemma FindUniqueNameFails(name: string, existing: set<string>)
    ensures FindUniqueName(name, existing).Failure?
            <==> name in existing && forall n :: 0 <= n < Attempts ==> Candidate(name, n) in existing
  {
    if name in existing {
      var taken := Taken(name, existing);
      assert FirstFree(taken, 0).None? <==> forall n :: 0 <= n < Attempts ==> taken(n);
    }
  }

  lemma FirstCandidate()
    ensures Candidate("one", 0) == "one (0)"
  {
    assert forall i :: 0 <= i < |"one"| ==> !IsSpace("one"[i]);
    assert Strip("one") == "one";
    assert NatToString(0) == "0";
  }

  /** Example from the docstring: a free name is kept, as the first
      ensures of `FindUniqueName` says for every free name. */
  lemma FreeNameKept()
    ensures FindUniqueName("test", {"one", "two"}) == Success("test")
  {
    assert |"test"| == 4 && |"one"| == 3 && |"two"| == 3;
    assert "test" !in {"one", "two"};
  }

  /** The numbering starts at 0, so the documented example expecting
      "one (2)" gets "one (0)" instead. */
  lemma NumberingStartsAtZero()
    ensures FindUniqueName("one", {"one", "two"}) == Success("one (0)")
  {
    FirstCandidate();
    assert "one (0)" !in {"one", "two"} by {
      assert |"one (0)"| == 7;
    }
    FirstCandidateFree("one", {"one", "two"});
  }

  /** Likewise for the example expecting "one (3)" after "one (2)". */
  lemma NumberingIgnoresTakenSuffix()
    ensures FindUniqueName("one", {"one", "one (2)"}) == Success("one (0)")
  {
    FirstCandidate();
    assert "one (0)" !in {"one", "one (2)"} by {
      assert |"one (0)"| == 7 && "one (0)"[5] != "one (2)"[5];
    }
    FirstCandidateFree("one", {"one", "one (2)"});
  }

  lemma FirstCandidateFree(name: string, existing: set<string>)
    requires name in existing && Candidate(name, 0) !in existing
    ensures FindUniqueName(name, existing) == Success(Candidate(name, 0))
  {
    assert !Taken(name, existing)(0);
  }

  // ---------------------------------------------------------------------------
  // append_file_entries

  /** The paths `append_file_entries` takes, in order: files whose absolute
      path is not already an entry's. A path given twice is taken twice,
      since the existing paths are not updated. */
  function Chosen(isFile: Path -> bool, existingPaths: set<Path>, args: seq<Path>, cwd: Path): (ps: seq<Path>)
    requires IsAbsolute(cwd)
    ensures |ps| <= |args|
    ensures forall p :: p in ps ==> p in args && isFile(p) && Absolute(p, cwd) !in existingPaths
    ensures forall p :: p in args && isFile(p) && Absolute(p, cwd) !in existingPaths ==> p in ps
    decreases |args|
  {
    if args == [] then []
    else
      var rest := Chosen(isFile, existingPaths, args[1..], cwd);
      assert forall p :: p in args ==> p == args[0] || p in args[1..];
      if isFile(args[0]) && Absolute(args[0], cwd) !in existingPaths then [args[0]] + rest else rest
  }

  /** Choosing is a filter: the choice from two argument lists one after the
      other is the choice from the first followed by the choice from the
      second, so the chosen paths keep the order of the arguments. */
  lemma {:induction false} ChosenAppend(isFile: Path -> bool, existingPaths: set<Path>, a: seq<Path>, b: seq<Path>, cwd: Path)
    requires IsAbsolute(cwd)
    ensures Chosen(isFile, existingPaths, a + b, cwd)
            == Chosen(isFile, existingPaths, a, cwd) + Chosen(isFile, existingPaths, b, cwd)
    decreases |a|
  {
    if a == [] {
      assert a + b == b;
    } else {
      assert (a + b)[0] == a[0] && (a + b)[1..] == a[1..] + b;
      ChosenAppend(isFile, existingPaths, a[1..], b, cwd);
    }
  }

  /** One argument is chosen exactly when it is a file not already held. */
  lemma ChosenSingle(isFile: Path -> bool, existingPaths: set<Path>, p: Path, cwd: Path)
    requires IsAbsolute(cwd)
    ensures Chosen(isFile, existingPaths, [p], cwd)
            == if isFile(p) && Absolute(p, cwd) !in existingPaths then [p] else []
  {
    assert [p][1..] == [];
  }

  /** A file path given twice is chosen twice. */
  lemma RepeatedPathChosenTwice(isFile: Path -> bool, existingPaths: set<Path>, p: Path, cwd: Path)
    requires IsAbsolute(cwd) && isFile(p) && Absolute(p, cwd) !in existingPaths
    ensures Chosen(isFile, existingPaths, [p, p], cwd) == [p, p]
  {
    assert [p, p][1..] == [p];
    assert [p][1..] == [];
  }

  /** The name bookkeeping of `Project.append_file_entries`: each chosen path
      is named by a unique name from its file name, and the name is added to
      the existing names before the next path. */
  method AppendFileNames(existingNames: set<string>, existingPaths: set<Path>, isFile: Path -> bool,
                         args: seq<Path>, cwd: Path)
    returns (r: Result<seq<(string, Path)>>)
    requires IsAbsolute(cwd)
    ensures r == NamesFrom(existingNames, Chosen(isFile, existingPaths, args, cwd))
    ensures r.Failure? ==> r.error == AssertionError
    ensures r.Success? ==> |r.value| == |Chosen(isFile, existingPaths, args, cwd)|
    ensures r.Success? ==> forall i :: 0 <= i < |r.value| ==> r.value[i].1 == Chosen(isFile, existingPaths, args, cwd)[i]
    ensures r.Success? ==> forall i :: 0 <= i < |r.value| ==> r.value[i].0 !in existingNames
    ensures r.Success? ==> forall i, j :: 0 <= i < j < |r.value| ==> r.value[i].0 != r.value[j].0
  {
    r := NameEach(existingNames, Chosen(isFile, existingPaths, args, cwd));
  }

  /** Names each path in turn by a unique name from its file name, each name
      joining the taken names before the next path. */
  method NameEach(existingNames: set<string>, ps: seq<Path>) returns (r: Result<seq<(string, Path)>>)
    ensures r == NamesFrom(existingNames, ps)
    ensures r.Failure? ==> r.error == AssertionError
    ensures r.Success? ==> |r.value| == |ps|
    ensures r.Success? ==> forall i :: 0 <= i < |r.value| ==> r.value[i].1 == ps[i]
    ensures r.Success? ==> forall i :: 0 <= i < |r.value| ==> r.value[i].0 !in existingNames
    ensures r.Success? ==> forall i, j :: 0 <= i < j < |r.value| ==> r.value[i].0 != r.value[j].0
  {
    var names := existingNames;
    var added: seq<(string, Path)> := [];
    var k := 0;
    var whole := NamesFrom(existingNames, ps);
    assert ps[0..] == ps;
    assert whole.Success? ==> [] + whole.value == whole.value;
    while k < |ps|
      invariant 0 <= k <= |ps|
      invariant NamesFrom(existingNames, ps) == Prefixed(added, NamesFrom(names, ps[k..]))
    {
      var name := UniqueName(Paths.Name(ps[k]), names);
      assert ps[k..][0] == ps[k] && ps[k..][1..] == ps[k + 1..];
      if name.Failure? {
        NamesFromFresh(existingNames, ps);
        return Failure(AssertionError);
      }
      PrefixedTwice(added, [(name.value, ps[k])], NamesFrom(names + {name.value}, ps[k + 1..]));
      added, names, k := added + [(name.value, ps[k])], names + {name.value}, k + 1;
    }
    assert NamesFrom(names, ps[k..]) == Success([]);
    assert added + [] == added;
    NamesFromFresh(existingNames, ps);
    return Success(added);
  }

  /** `FindUniqueName` as a step of the loop. */
  method UniqueName(name: string, existing: set<string>) returns (r: Result<string>)
    ensures r == FindUniqueName(name, existing)
  {
    r := FindUniqueName(name, existing);
  }

  /** The names `append_file_entries` gives the paths `ps` in turn: each is
      `FindUniqueName` of the path's file name among the names taken so far,
      and the first failure stops the whole call. */
  function NamesFrom(existing: set<string>, ps: seq<Path>): (r: Result<seq<(string, Path)>>)
    ensures r.Failure? ==> r.error == AssertionError
    ensures r.Success? ==> |r.value| == |ps|
    decreases |ps|
  {
    if ps == [] then Success([])
    else
      match FindUniqueName(Paths.Name(ps[0]), existing)
      case Failure(e) => Failure(e)
      case Success(n) => Prefixed([(n, ps[0])], NamesFrom(existing + {n}, ps[1..]))
  }

  /** A successful result with `a` put in front; a failure passes through. */
  function Prefixed<T>(a: seq<T>, r: Result<seq<T>>): (q: Result<seq<T>>)
    ensures q.Success? <==> r.Success?
    ensures q.Success? ==> q.value == a + r.value
    ensures q.Failure? ==> q == r
  {
    match r
    case Success(v) => Success(a + v)
    case Failure(e) => Failure(e)
  }

  /** Each path keeps its place and gets a name that was not taken before and
      that no other path gets. */
  lemma {:induction false} NamesFromFresh(existing: set<string>, ps: seq<Path>)
    ensures var r := NamesFrom(existing, ps);
            r.Success? ==> (forall i :: 0 <= i < |r.value| ==> r.value[i].1 == ps[i] && r.value[i].0 !in existing)
    ensures var r := NamesFrom(existing, ps);
            r.Success? ==> forall i, j :: 0 <= i < j < |r.value| ==> r.value[i].0 != r.value[j].0
    decreases |ps|
  {
    var r := NamesFrom(existing, ps);
    if ps != [] && r.Success? {
      var n := FindUniqueName(Paths.Name(ps[0]), existing).value;
      var t := ps[1..];
      var rest := NamesFrom(existing + {n}, t);
      NamesFromFresh(existing + {n}, t);
      assert r.value == [(n, ps[0])] + rest.value;
      forall i | 0 <= i < |r.value| ensures r.value[i].1 == ps[i] && r.value[i].0 !in existing {
        if i > 0 {
          assert r.value[i] == rest.value[i - 1] && t[i - 1] == ps[i];
        }
      }
      forall i, j | 0 <= i < j < |r.value| ensures r.value[i].0 != r.value[j].0 {
        assert r.value[j] == rest.value[j - 1];
        if i > 0 {
          assert r.value[i] == rest.value[i - 1];
        }
      }
    }
  }

  lemma PrefixedTwice<T>(a: seq<T>, b: seq<T>, r: Result<seq<T>>)
    ensures Prefixed(a, Prefixed(b, r)) == Prefixed(a + b, r)
  {
    if r.Success? {
      assert a + (b + r.value) == (a + b) + r.value;
    }
  }

  /** File names that are free and pairwise distinct are kept as they are. */
  lemma {:induction false} FreeFileNamesKept(existing: set<string>, ps: seq<Path>)
    requires forall i :: 0 <= i < |ps| ==> Paths.Name(ps[i]) !in existing
    requires forall i, j :: 0 <= i < j < |ps| ==> Paths.Name(ps[i]) != Paths.Name(ps[j])
    ensures NamesFrom(existing, ps).Success?
    ensures forall i :: 0 <= i < |ps| ==> NamesFrom(existing, ps).value[i] == (Paths.Name(ps[i]), ps[i])
    decreases |ps|
  {
    if ps != [] {
      var n := Paths.Name(ps[0]);
      var t := ps[1..];
      assert FindUniqueName(n, existing) == Success(n);
      forall i | 0 <= i < |t| ensures Paths.Name(t[i]) !in existing + {n} {
        assert t[i] == ps[i + 1];
      }
      forall i, j | 0 <= i < j < |t| ensures Paths.Name(t[i]) != Paths.Name(t[j]) {
        assert t[i] == ps[i + 1] && t[j] == ps[j + 1];
      }
      FreeFileNamesKept(existing + {n}, t);
      var rest := NamesFrom(existing + {n}, t);
      assert NamesFrom(existing, ps) == Success([(n, ps[0])] + rest.value);
      forall i | 0 <= i < |ps| ensures NamesFrom(existing, ps).value[i] == (Paths.Name(ps[i]), ps[i]) {
        if i > 0 {
          assert ([(n, ps[0])] + rest.value)[i] == rest.value[i - 1];
          assert t[i - 1] == ps[i];
        }
      }
    }
  }
}

=== FILE: lifecycle.dfy ===
/** The life of one `Entry`: the cached data, the hash recorded when it was
    last loaded or saved, the file's mtime at that moment, and the flags and
    guards `load` and `save` derive from them. The filesystem is a map from
    paths to (content, mtime); the hash and the parsing libraries are the
    parameters bundled in `Oracles`. */
module Lifecycle {
  import opened Wrappers
  import opened Utf8
  import opened Strings
  import opened Paths
  import opened Values
  import opened Oracles
  import opened Hints
  import opened Classes
  import opened Sniffing

  /** An entry instance. `data` is None while `_data` has never been set;
      `loadedHash` is `_loaded_hash` and `dataMtime` is `_data_mtime`. */
  datatype Entry = Entry(
    cls: Class,
    path: Option<Path>,
    data: Option<Payload>,
    loadedHash: string,
    dataMtime: Option<nat>
  )

  /** `cls(path=path)`: no data, the empty loaded hash, no recorded mtime. */
  function NewEntry(c: Class, path: Option<Path>): Entry {
    Entry(c, path, None, "", None)
  }

  /** The `encoding` class attribute: the binary class reads and writes bytes,
      every other class text in UTF-8. */
  predicate UsesBytes(c: Class) { c == BinaryClass }

  // ---------------------------------------------------------------------------
  // Hash and the three flags

  /** `Entry.hash`: the empty string without data, else the data's digest. */
  function Hash(o: Oracles, e: Entry): (h: string)
    ensures h == "" <==> e.data.None?
  {
    match e.data
    case None => ""
    case Some(d) => o.hash(d)
  }

  /** `Entry.is_unsaved`: an entry without a path is never saved; otherwise
      the data's hash differs from the one recorded at the last load or save. */
  predicate IsUnsaved(o: Oracles, e: Entry) {
    e.path.None? || Hash(o, e) != e.loadedHash
  }

  /** `Entry.is_file_newer`: the `stat` of a missing file raises. */
  function IsFileNewer(fs: FileSystem, e: Entry): (r: Result<bool>)
    ensures r.Failure? <==> e.path.Some? && e.dataMtime.Some? && e.path.value !in fs
    ensures r.Failure? ==> r.error == FileNotFound
    ensures r.Success? ==> (r.value <==> e.path.Some? && e.dataMtime.Some? && e.dataMtime.value < fs[e.path.value].mtime)
  {
    match (e.path, e.dataMtime)
    case (Some(p), Some(t)) =>
      if p !in fs then Failure(FileNotFound) else Success(t < fs[p].mtime)
    case _ => Success(false)
  }

  /** `Entry.is_stale`, case by case in the source's order. */
  predicate IsStale(fs: FileSystem, e: Entry) {
    if e.data.None? then true
    else if e.path.None? then false
    else if e.path.value !in fs then false
    else if e.dataMtime.None? then true
    else IsFileNewer(fs, e) == Success(true)
  }

  /** `reset_hash`. */
  function ResetHash(o: Oracles, e: Entry): (r: Entry)
    ensures !IsUnsaved(o, r) <==> r.path.Some?
    ensures r.(loadedHash := e.loadedHash) == e
  {
    e.(loadedHash := Hash(o, e))
  }

  /** `reset_mtime`: nothing without a path; a missing file makes `stat` raise. */
  function ResetMtime(fs: FileSystem, e: Entry): (r: Result<Entry>)
    ensures r.Failure? <==> e.path.Some? && e.path.value !in fs
    ensures r.Failure? ==> r.error == FileNotFound
    ensures r.Success? ==> r.value.(dataMtime := e.dataMtime) == e
    ensures r.Success? ==> IsFileNewer(fs, r.value) == Success(false)
  {
    match e.path
    case None => Success(e)
    case Some(p) => if p !in fs then Failure(FileNotFound) else Success(e.(dataMtime := Some(fs[p].mtime)))
  }

  // ---------------------------------------------------------------------------
  // Per-class data

  /** `default_data()` of each class with a plain lifecycle. */
  function DefaultData(c: Class): (d: Payload)
    requires c != ProjectClass
    ensures WellTyped(c, d)
  {
    match c
    case TextClass => Text("")
    case BinaryClass => Bytes([])
    case CsvClass => Rows([])
    case YamlClass => Tree(Mapping(map[]))
  }

  /** The payloads each class's type parameter `T` admits. */
  predicate WellTyped(c: Class, d: Payload) {
    match c
    case TextClass => d.Text?
    case BinaryClass => d.Bytes?
    case CsvClass => d.Rows?
    case YamlClass => d.Tree? || d.EntryObject?
    case ProjectClass => d.Tree?
  }

  /** `shape` on the data, once loaded: rows and columns of the first row for
      CSV, the length for data that has one, and `()` otherwise. */
  function ShapeOf(c: Class, d: Payload): (r: seq<nat>)
    requires WellTyped(c, d)
    ensures |r| <= 2
    ensures c == CsvClass ==> (r == [] <==> d.rows == [])
    ensures c == CsvClass && d.rows != [] ==> r == [|d.rows|, |d.rows[0]|]
    ensures c == YamlClass ==> (r == [] <==> !(d.Tree? && HasLength(d.tree)))
    ensures c == TextClass ==> r == [|d.text|]
    ensures c == BinaryClass ==> r == [|d.bytes|]
  {
    match d
    case Text(s) => [|s|]
    case Bytes(b) => [|b|]
    case Rows(rows) => if |rows| > 0 then [|rows|, |rows[0]|] else []
    case Tree(n) => if HasLength(n) then [Length(n)] else []
    case EntryObject => []
  }

  /** What a read produces: text for the UTF-8 classes, bytes for the binary one. */
  datatype Raw = RawText(text: string) | RawBytes(bytes: seq<byte>)

  /** `deserialize(text)` of the text-reading classes. The base method (used
      by the text class) ignores its input and returns the current data. */
  function DeserializeText(o: Oracles, fs: FileSystem, e: Entry, current: Payload, text: string): (r: Result<Payload>)
    requires e.cls != BinaryClass && e.cls != ProjectClass
    ensures e.cls == TextClass ==> r == Success(current)
    ensures e.cls == CsvClass ==>
              (r.Success? <==> GetDialect(o, GetHint(fs, e.path)).Success?)
              && (r.Success? ==> r.value == Rows(o.csvRead(text)))
    ensures e.cls == YamlClass ==> (r == Failure(ParseError) <==> o.yamlLoad(text).Unparsable?)
    ensures e.cls == YamlClass && r.Success? ==> WellTyped(YamlClass, r.value)
  {
    match e.cls
    case TextClass => Success(current)
    case CsvClass =>
      var _ :- GetDialect(o, GetHint(fs, e.path));
      Success(Rows(o.csvRead(text)))
    case YamlClass =>
      match o.yamlLoad(text)
      case Unparsable => Failure(ParseError)
      case Document(n) => Success(Tree(n))
      case EntryDocument => Success(EntryObject)
  }

  /** `BinaryEntry.deserialize`: a buffer is kept as bytes, text gives `b""`. */
  function DeserializeBinary(raw: Raw): (r: Payload)
    ensures raw.RawBytes? ==> r == Bytes(raw.bytes)
    ensures raw.RawText? ==> r == Bytes([])
  {
    match raw
    case RawBytes(b) => Bytes(b)
    case RawText(_) => Bytes([])
  }

  /** `serialize(data)`. The base method passes text and bytes through and
      raises otherwise; the YAML class dumps its data. The CSV class reads its
      output stream without rewinding it, so it always produces "". */
  function Serialize(o: Oracles, c: Class, d: Payload): (r: Result<Raw>)
    requires c != ProjectClass
    ensures (c == TextClass || c == BinaryClass) ==>
              (r.Success? <==> d.Text? || d.Bytes?)
              && (d.Bytes? ==> r == Success(RawBytes(d.bytes)))
              && (d.Text? ==> r == Success(RawText(d.text)))
    ensures c == CsvClass ==> r == Success(RawText(""))
    ensures c == YamlClass ==> r == Success(RawText(o.yamlDump(d)))
  {
    match c
    case CsvClass => Success(RawText(""))
    case YamlClass => Success(RawText(o.yamlDump(d)))
    case _ =>
      match d
      case Text(s) => Success(RawText(s))
      case Bytes(b) => Success(RawBytes(b))
      case _ => Failure(NotImplemented)
  }

  /** The write step of `save`: bytes only for the binary class; text under
      the pseudo-encoding "bytes" is an unknown codec; anything else raises. */
  function Write(fs: FileSystem, c: Class, p: Path, raw: Raw, now: nat): (r: Result<FileSystem>)
    ensures r.Success? ==> p in r.value && r.value[p].mtime == now
    ensures r.Success? ==> forall q :: q != p ==> (q in r.value <==> q in fs) && (q in fs ==> r.value[q] == fs[q])
    ensures r.Success? && raw.RawBytes? ==> r.value[p].content == raw.bytes
    ensures r.Success? && raw.RawText? ==> r.value[p].content == Encode(raw.text)
    ensures r.Success? <==> (UsesBytes(c) <==> raw.RawBytes?)
  {
    match raw
    case RawBytes(b) =>
      if UsesBytes(c) then Success(fs[p := File(b, now)]) else Failure(NotImplemented)
    case RawText(s) =>
      if UsesBytes(c) then Failure(LookupError) else Success(fs[p := File(Encode(s), now)])
  }

  // ---------------------------------------------------------------------------
  // load

  /** The first step of `pre_load`: default data when none was ever set. */
  function WithDefault(e: Entry): (r: Entry)
    requires e.cls != ProjectClass
    ensures r.data.Some? && r.(data := e.data) == e
    ensures e.data.Some? ==> r == e
  {
    if e.data.None? then e.(data := Some(DefaultData(e.cls))) else e
  }

  /** `pre_load`: refuses to reload over unsaved changes to a newer file. */
  function PreLoad(o: Oracles, fs: FileSystem, e: Entry): Result<Entry>
    requires e.cls != ProjectClass
  {
    var e1 := WithDefault(e);
    var newer :- IsFileNewer(fs, e1);
    if newer && IsUnsaved(o, e1) then Failure(FileChanged) else Success(e1)
  }

  /** The read and deserialize step of `load`, for an entry with a path. */
  function ReadData(o: Oracles, fs: FileSystem, e: Entry, p: Path, current: Payload): Result<Payload>
    requires e.cls != ProjectClass && e.path == Some(p)
  {
    if p !in fs then Failure(FileNotFound)
    else if UsesBytes(e.cls) then Success(DeserializeBinary(RawBytes(fs[p].content)))
    else
      match Decode(fs[p].content)
      case None => Failure(UnicodeDecode)
      case Some(text) => DeserializeText(o, fs, e, current, TranslateNewlines(text))
  }

  /** `Entry.load`: `pre_load`, the read when a path is set, then `post_load`
      resets the hash and the mtime. */
  function Load(o: Oracles, fs: FileSystem, e: Entry): (r: Result<Entry>)
    requires e.cls != ProjectClass
    ensures r == Failure(FileChanged) <==>
              IsFileNewer(fs, e) == Success(true) && IsUnsaved(o, WithDefault(e))
    ensures r.Success? ==> r.value.cls == e.cls && r.value.path == e.path
    ensures r.Success? ==> r.value.data.Some? && r.value.loadedHash == Hash(o, r.value)
    ensures r.Success? ==> IsFileNewer(fs, r.value) == Success(false)
    ensures r.Success? && e.path.Some? ==>
              e.path.value in fs && !IsUnsaved(o, r.value) && !IsStale(fs, r.value)
              && r.value.dataMtime == Some(fs[e.path.value].mtime)
  {
    var e1 :- PreLoad(o, fs, e);
    var e2 :- match e1.path
      case None => Success(e1)
      case Some(p) =>
        var d :- ReadData(o, fs, e1, p, e1.data.value);
        Success(e1.(data := Some(d)));
    ResetMtime(fs, ResetHash(o, e2))
  }

  /** The `data` property: loads first when the data is stale. */
  function GetData(o: Oracles, fs: FileSystem, e: Entry): (r: Result<Entry>)
    requires e.cls != ProjectClass
    ensures r.Success? ==> r.value.data.Some?
    ensures !IsStale(fs, e) ==> r == Success(e)
    ensures IsStale(fs, e) ==> r == Load(o, fs, e)
  {
    if IsStale(fs, e) then Load(o, fs, e) else Success(e)
  }

  /** The `shape` property, through the `data` property. */
  function Shape(o: Oracles, fs: FileSystem, e: Entry): (r: Result<seq<nat>>)
    requires e.cls != ProjectClass
    requires e.data.Some? ==> WellTyped(e.cls, e.data.value)
  {
    var e1 :- GetData(o, fs, e);
    LoadKeepsTyping(o, fs, e);
    Success(ShapeOf(e1.cls, e1.data.value))
  }

  /** Loading keeps the data within the class's type. */
  lemma LoadKeepsTyping(o: Oracles, fs: FileSystem, e: Entry)
    requires e.cls != ProjectClass
    requires e.data.Some? ==> WellTyped(e.cls, e.data.value)
    ensures GetData(o, fs, e).Success? ==> WellTyped(e.cls, GetData(o, fs, e).value.data.value)
  {
    if IsStale(fs, e) && Load(o, fs, e).Success? {
      var e1 := WithDefault(e);
      assert WellTyped(e.cls, e1.data.value);
      var r := Load(o, fs, e).value;
      if e.path.Some? {
        var p := e.path.value;
        var d := ReadData(o, fs, e1, p, e1.data.value);
        assert d.Success? && r.data == Some(d.value);
      }
    }
  }

  // ---------------------------------------------------------------------------
  // save

  /** `pre_save`: a path is required, and a stale file is not overwritten
      unless asked to. */
  function PreSave(fs: FileSystem, e: Entry, overwrite: bool): (r: Result<()>)
    ensures r == Failure(MissingPath) <==> e.path.None?
    ensures r == Failure(FileChanged) <==> e.path.Some? && !overwrite && e.data.Some? && IsStale(fs, e)
    ensures r.Success? || r == Failure(MissingPath) || r == Failure(FileChanged)
  {
    if e.path.None? then Failure(MissingPath)
    else if !overwrite && e.data.Some? && IsStale(fs, e) then Failure(FileChanged)
    else Success(())
  }

  /** `Entry.save(overwrite)`: writes the serialized data only when it is
      unsaved, then `post_save` resets the hash and the mtime. `now` is the
      mtime the filesystem gives the written file. */
  function Save(o: Oracles, fs: FileSystem, e: Entry, overwrite: bool, now: nat): (r: Result<(FileSystem, Entry)>)
    requires e.cls != ProjectClass
    ensures e.path.None? ==> r == Failure(MissingPath)
    ensures e.path.Some? && !overwrite && e.data.Some? && IsStale(fs, e) ==> r == Failure(FileChanged)
    ensures r.Success? && !IsUnsaved(o, e) ==> r.value.0 == fs
    ensures r.Success? ==> r.value.1.(dataMtime := e.dataMtime, loadedHash := e.loadedHash) == e
    ensures r.Success? ==> !IsUnsaved(o, r.value.1) && IsFileNewer(r.value.0, r.value.1) == Success(false)
    ensures r.Success? && e.data.Some? ==> !IsStale(r.value.0, r.value.1)
  {
    var _ :- PreSave(fs, e, overwrite);
    var fs1 :- if IsUnsaved(o, e) then WriteData(o, fs, e, now) else Success(fs);
    var e1 :- ResetMtime(fs1, ResetHash(o, e));
    Success((fs1, e1))
  }

  /** The write branch of `save`: the serialized data to the entry's path; an
      entry whose data was never set has nothing to serialize. */
  function WriteData(o: Oracles, fs: FileSystem, e: Entry, now: nat): Result<FileSystem>
    requires e.cls != ProjectClass && e.path.Some?
  {
    if e.data.None? then Failure(AttributeError)
    else
      var raw :- Serialize(o, e.cls, e.data.value);
      Write(fs, e.cls, e.path.value, raw, now)
  }

  // ---------------------------------------------------------------------------
  // Equality

  /** `Entry.__eq__` against another entry, branch by branch; `cwd` resolves
      relative paths for `absolute()`. */
  predicate Eq(a: Entry, b: Entry, cwd: Path)
    requires IsAbsolute(cwd)
  {
    var sameClass := a.cls == b.cls;
    var pathsAgree :=
      if a.path.Some? && b.path.Some? && Absolute(a.path.value, cwd) != Absolute(b.path.value, cwd) then false
      else if a.path != b.path then false
      else true;
    sameClass && pathsAgree
  }

  // ---------------------------------------------------------------------------
  // Properties of the lifecycle

  /** A fresh entry is stale, so the first read of `data` loads it. */
  lemma NewEntryIsStale(o: Oracles, c: Class, path: Option<Path>, fs: FileSystem)
    ensures IsStale(fs, NewEntry(c, path))
    ensures IsUnsaved(o, NewEntry(c, path)) <==> path.None?
  {
  }

  /** The `data` property settles: once it has returned, reading it again
      neither loads nor changes anything. */
  lemma DataGetterSettles(o: Oracles, fs: FileSystem, e: Entry)
    requires e.cls != ProjectClass
    requires GetData(o, fs, e).Success?
    ensures GetData(o, fs, GetData(o, fs, e).value) == GetData(o, fs, e)
  {
    var r := GetData(o, fs, e).value;
    assert !IsStale(fs, r);
  }

  /** Saving twice in a row: the second save finds nothing unsaved and
      nothing stale, writes nothing and changes nothing, whatever its
      `overwrite` flag and clock. */
  lemma SecondSaveIsNoOp(o: Oracles, fs: FileSystem, e: Entry, overwrite: bool, now: nat, overwrite2: bool, now2: nat)
    requires e.cls != ProjectClass
    requires Save(o, fs, e, overwrite, now).Success?
    ensures var (fs1, e1) := Save(o, fs, e, overwrite, now).value;
            Save(o, fs1, e1, overwrite2, now2) == Success((fs1, e1))
  {
    var (fs1, e1) := Save(o, fs, e, overwrite, now).value;
    assert e1.path.Some?;
    assert !IsUnsaved(o, e1);
    assert ResetHash(o, e1) == e1;
    assert ResetMtime(fs1, e1) == Success(e1);
  }

  /** An unsaved entry's save writes its serialized data to its path,
      stamped with the clock. */
  lemma SaveWritesUnsaved(o: Oracles, fs: FileSystem, e: Entry, overwrite: bool, now: nat)
    requires e.cls != ProjectClass
    requires IsUnsaved(o, e)
    requires Save(o, fs, e, overwrite, now).Success?
    ensures var fs1 := Save(o, fs, e, overwrite, now).value.0;
            && e.path.Some? && e.data.Some? && e.path.value in fs1
            && fs1[e.path.value].mtime == now
            && Serialize(o, e.cls, e.data.value).Success?
            && fs1 == fs[e.path.value := File(RawContent(Serialize(o, e.cls, e.data.value).value), now)]
  {
  }

  /** The bytes a raw value is written as. */
  function RawContent(raw: Raw): seq<byte> {
    match raw
    case RawBytes(b) => b
    case RawText(s) => Encode(s)
  }

  /** Saving a CSV entry always truncates its file: the serializer returns
      the empty string whatever the rows. */
  lemma CsvSaveEmptiesFile(o: Oracles, fs: FileSystem, e: Entry, overwrite: bool, now: nat)
    requires e.cls == CsvClass && IsUnsaved(o, e)
    requires Save(o, fs, e, overwrite, now).Success?
    ensures Save(o, fs, e, overwrite, now).value.0[e.path.value].content == []
  {
    SaveWritesUnsaved(o, fs, e, overwrite, now);
  }

  /** The text class never reads its file into its data: the base
      `deserialize` returns the data already held (the default "" for a
      fresh entry). */
  lemma TextLoadKeepsData(o: Oracles, fs: FileSystem, e: Entry)
    requires e.cls == TextClass
    requires Load(o, fs, e).Success?
    ensures Load(o, fs, e).value.data == WithDefault(e).data
  {
  }

  /** The binary class loads exactly the file's bytes. */
  lemma BinaryLoadReadsFile(o: Oracles, fs: FileSystem, e: Entry)
    requires e.cls == BinaryClass && e.path.Some?
    requires Load(o, fs, e).Success?
    ensures Load(o, fs, e).value.data == Some(Bytes(fs[e.path.value].content))
  {
  }

  /** What the binary class serializes it deserializes back: a bytes payload
      unchanged; a str payload, which serializes as text, comes back as `b""`. */
  lemma BinarySerializeRoundTrip(o: Oracles, d: Payload)
    ensures d.Bytes? ==> Serialize(o, BinaryClass, d).Success?
                         && DeserializeBinary(Serialize(o, BinaryClass, d).value) == d
    ensures d.Text? ==> Serialize(o, BinaryClass, d).Success?
                        && DeserializeBinary(Serialize(o, BinaryClass, d).value) == Bytes([])
  {
  }

  /** After a load, writing the file again makes it newer than the loaded
      data exactly when the write's clock is past the file's mtime at load
      time; the entry is then stale and the next access reloads it. */
  lemma WriteAfterLoadMakesFileNewer(o: Oracles, fs: FileSystem, e: Entry, c: Class, raw: Raw, now: nat)
    requires e.cls != ProjectClass && e.path.Some? && Load(o, fs, e).Success?
    requires Write(fs, c, e.path.value, raw, now).Success?
    ensures e.path.value in fs
    ensures var fs1, e1 := Write(fs, c, e.path.value, raw, now).value, Load(o, fs, e).value;
            && IsFileNewer(fs1, e1) == Success(fs[e.path.value].mtime < now)
            && (fs[e.path.value].mtime < now ==> IsStale(fs1, e1))
  {
  }

  /** `shape` of a stale binary entry whose load succeeds is the length of
      its file; of a stale CSV entry, the rows and first-row columns the CSV
      reader finds in the file's text. */
  lemma ShapeAfterLoad(o: Oracles, fs: FileSystem, e: Entry)
    requires e.cls == BinaryClass || e.cls == CsvClass
    requires e.path.Some? && IsStale(fs, e) && Load(o, fs, e).Success?
    requires e.data.Some? ==> WellTyped(e.cls, e.data.value)
    ensures e.cls == BinaryClass ==> Shape(o, fs, e) == Success([|fs[e.path.value].content|])
    ensures e.cls == CsvClass ==>
              && Decode(fs[e.path.value].content).Some?
              && var rows := o.csvRead(TranslateNewlines(Decode(fs[e.path.value].content).value));
                 Shape(o, fs, e) == Success(if rows == [] then [] else [|rows|, |rows[0]|])
  {
    if e.cls == BinaryClass {
      BinaryLoadReadsFile(o, fs, e);
    } else {
      var p := e.path.value;
      var e1 := WithDefault(e);
      assert ReadData(o, fs, e1, p, e1.data.value).Success?;
    }
  }

  /** Binary round trip: after an unsaved bytes payload is saved, loading the
      saved entry gives back the same entry, bytes included. */
  lemma BinarySaveLoadRoundTrip(o: Oracles, fs: FileSystem, e: Entry, b: seq<byte>, overwrite: bool, now: nat)
    requires e.cls == BinaryClass && e.data == Some(Bytes(b)) && IsUnsaved(o, e)
    requires Save(o, fs, e, overwrite, now).Success?
    ensures var (fs1, e1) := Save(o, fs, e, overwrite, now).value;
            Load(o, fs1, e1) == Success(e1) && e1.data == Some(Bytes(b))
  {
    SaveWritesUnsaved(o, fs, e, overwrite, now);
    var (fs1, e1) := Save(o, fs, e, overwrite, now).value;
    assert fs1[e.path.value].content == b;
    assert PreLoad(o, fs1, e1) == Success(e1);
  }

  /** `__eq__` compares the class and the stored paths and ignores the data:
      the branch on absolute paths can only reject. */
  lemma EqIsSameClassAndPath(a: Entry, b: Entry, cwd: Path)
    requires IsAbsolute(cwd)
    ensures Eq(a, b, cwd) <==> a.cls == b.cls && a.path == b.path
  {
  }

  /** Consequently an entry for a relative path and one for the same file's
      absolute path are unequal. */
  lemma EqRelativeVersusAbsolute(c: Class, p: Path, cwd: Path)
    requires IsAbsolute(cwd) && !IsAbsolute(p)
    ensures Absolute(p, cwd) == Absolute(Absolute(p, cwd), cwd)
    ensures !Eq(NewEntry(c, Some(p)), NewEntry(c, Some(Absolute(p, cwd))), cwd)
  {
    EqIsSameClassAndPath(NewEntry(c, Some(p)), NewEntry(c, Some(Absolute(p, cwd))), cwd);
  }
}

=== FILE: oracles.dfy ===
/** The library calls the entry subsystem relies on but whose behaviour is
    not modelled: the CSV sniffer and reader, the YAML loader and
    dumper, and the content hash. Each is a parameter, so every property
    proved holds for every implementation of them. */
module Oracles {
  import opened Values

  /** A hex digest: never empty, so the empty string can mean "no data". */
  type Digest = s: string | s != [] witness "0"

  /** The outcome of `yaml.load`: an exception, a plain document, or an entry
      object built by a registered constructor (such as `!Project`). */
  datatype Loaded = Unparsable | Document(doc: Node) | EntryDocument

  datatype Oracles = Oracles(
    sniff: string -> bool,                   // csv.Sniffer().sniff succeeds
    csvRead: string -> seq<seq<string>>,     // list(csv.reader(text))
    yamlLoad: string -> Loaded,              // yaml.load(text)
    yamlDump: Payload -> string,             // yaml.dump(data)
    hash: Payload -> Digest                  // sha256 of the data, hex
  )
}

=== FILE: ordered_dict.dfy ===
/** `collections.OrderedDict` with string keys, as its items in insertion
    order: assignment replaces the value of an existing key in place and
    appends a new key at the end. */
module OrderedDicts {
  import opened Wrappers

  type Items<V> = seq<(string, V)>

  function Keys<V>(es: Items<V>): set<string> {
    set i | 0 <= i < |es| :: es[i].0
  }

  predicate UniqueKeys<V>(es: Items<V>) {
    forall i, j :: 0 <= i < j < |es| ==> es[i].0 != es[j].0
  }

  function ValuesOf<V>(es: Items<V>): seq<V> {
    seq(|es|, i requires 0 <= i < |es| => es[i].1)
  }

  /** The position of the first item with key `k`. */
  function IndexOf<V>(es: Items<V>, k: string): (i: nat)
    requires k in Keys(es)
    ensures i < |es| && es[i].0 == k
    ensures forall j :: 0 <= j < i ==> es[j].0 != k
  {
    if es[0].0 == k then 0
    else
      KeysCons(es);
      var i := IndexOf(es[1..], k);
      assert es[i + 1] == es[1..][i];
      assert forall j :: 1 <= j < i + 1 ==> es[j] == es[1..][j - 1];
      i + 1
  }

  /** `d.get(k)`. */
  function Get<V>(es: Items<V>, k: string): (r: Option<V>)
    ensures r.Some? <==> k in Keys(es)
  {
    if k in Keys(es) then Some(es[IndexOf(es, k)].1) else None
  }

  /** The value of the last item with key `k`, which wins when the items are
      assigned in order. */
  function GetLast<V>(es: Items<V>, k: string): (r: Option<V>)
    ensures r.Some? <==> k in Keys(es)
  {
    if es == [] then None
    else
      var last := es[|es| - 1];
      KeysSnoc(es);
      if last.0 == k then Some(last.1) else GetLast(es[..|es| - 1], k)
  }

  lemma KeysCons<V>(es: Items<V>)
    requires es != []
    ensures Keys(es) == {es[0].0} + Keys(es[1..])
  {
    forall k | k in Keys(es) ensures k in {es[0].0} + Keys(es[1..]) {
      var i :| 0 <= i < |es| && es[i].0 == k;
      if i > 0 { assert es[1..][i - 1] == es[i]; }
    }
    forall k | k in Keys(es[1..]) ensures k in Keys(es) {
      var i :| 0 <= i < |es[1..]| && es[1..][i].0 == k;
      assert es[i + 1] == es[1..][i];
    }
  }

  lemma KeysSnoc<V>(es: Items<V>)
    requires es != []
    ensures Keys(es) == Keys(es[..|es| - 1]) + {es[|es| - 1].0}
  {
    var init := es[..|es| - 1];
    forall k | k in Keys(es) ensures k in Keys(init) + {es[|es| - 1].0} {
      var i :| 0 <= i < |es| && es[i].0 == k;
      if i < |es| - 1 { assert init[i] == es[i]; }
    }
    forall k | k in Keys(init) ensures k in Keys(es) {
      var i :| 0 <= i < |init| && init[i].0 == k;
      assert es[i] == init[i];
    }
  }

  lemma KeysAppend<V>(es: Items<V>, k: string, v: V)
    ensures Keys(es + [(k, v)]) == Keys(es) + {k}
  {
    var r := es + [(k, v)];
    KeysSnoc(r);
    assert r[..|r| - 1] == es;
  }

  /** Appending a repeat of an existing key keeps the keys. */
  lemma KeysOfSnoc<V>(a: Items<V>, b: Items<V>, i: nat)
    requires i < |a| && |b| == |a| + 1
    requires forall j :: 0 <= j < |a| ==> b[j].0 == a[j].0
    requires b[|a|].0 == a[i].0
    ensures Keys(b) == Keys(a)
  {
    forall k | k in Keys(b) ensures k in Keys(a) {
      var j :| 0 <= j < |b| && b[j].0 == k;
      if j == |a| { assert a[i].0 == k; }
    }
    forall k | k in Keys(a) ensures k in Keys(b) {
      var j :| 0 <= j < |a| && a[j].0 == k;
      assert b[j].0 == k;
    }
  }

  /** `d[k] = v`. */
  function Put<V>(es: Items<V>, k: string, v: V): (r: Items<V>)
    ensures k in Keys(es) ==> |r| == |es|
    ensures k !in Keys(es) ==> r == es + [(k, v)]
    ensures forall i :: 0 <= i < |es| ==> r[i].0 == es[i].0
    ensures Keys(r) == Keys(es) + {k}
    ensures Get(r, k) == Some(v)
    ensures forall k' :: k' != k ==> Get(r, k') == Get(es, k')
    ensures UniqueKeys(es) ==> UniqueKeys(r)
    ensures forall x :: x in ValuesOf(r) ==> x in ValuesOf(es) || x == v
  {
    if k in Keys(es) then
      var i := IndexOf(es, k);
      var r := es[i := (k, v)];
      PutInPlace(es, k, v, i);
      r
    else
      var r := es + [(k, v)];
      KeysAppend(es, k, v);
      PutAppends(es, k, v);
      r
  }

  lemma PutInPlace<V>(es: Items<V>, k: string, v: V, i: nat)
    requires k in Keys(es) && i == IndexOf(es, k)
    ensures Keys(es[i := (k, v)]) == Keys(es)
    ensures Get(es[i := (k, v)], k) == Some(v)
    ensures forall k' :: k' != k ==> Get(es[i := (k, v)], k') == Get(es, k')
    ensures UniqueKeys(es) ==> UniqueKeys(es[i := (k, v)])
    ensures forall x :: x in ValuesOf(es[i := (k, v)]) ==> x in ValuesOf(es) || x == v
  {
    var r := es[i := (k, v)];
    assert forall j :: 0 <= j < |r| ==> r[j].0 == es[j].0;
    assert Keys(r) == Keys(es) by {
      forall key ensures key in Keys(r) <==> key in Keys(es) {
        if key in Keys(r) { var j :| 0 <= j < |r| && r[j].0 == key; assert es[j].0 == key; }
        if key in Keys(es) { var j :| 0 <= j < |es| && es[j].0 == key; assert r[j].0 == key; }
      }
    }
    assert IndexOf(r, k) == i by {
      var j := IndexOf(r, k);
      assert es[j].0 == k;
    }
    forall k' | k' != k ensures Get(r, k') == Get(es, k') {
      if k' in Keys(es) {
        var j := IndexOf(es, k');
        assert r[j] == es[j];
        var j2 := IndexOf(r, k');
        assert es[j2].0 == k';
        assert j2 == j;
      }
    }
    forall x | x in ValuesOf(r) ensures x in ValuesOf(es) || x == v {
      var j :| 0 <= j < |r| && ValuesOf(r)[j] == x;
      if j != i { assert ValuesOf(es)[j] == x; }
    }
  }

  lemma PutAppends<V>(es: Items<V>, k: string, v: V)
    requires k !in Keys(es)
    ensures Get(es + [(k, v)], k) == Some(v)
    ensures forall k' :: k' != k ==> Get(es + [(k, v)], k') == Get(es, k')
    ensures UniqueKeys(es) ==> UniqueKeys(es + [(k, v)])
    ensures forall x :: x in ValuesOf(es + [(k, v)]) ==> x in ValuesOf(es) || x == v
  {
    var r := es + [(k, v)];
    KeysAppend(es, k, v);
    assert forall j :: 0 <= j < |es| ==> r[j] == es[j];
    assert forall j :: 0 <= j < |es| ==> es[j].0 != k by {
      forall j | 0 <= j < |es| ensures es[j].0 != k { assert es[j].0 in Keys(es); }
    }
    assert IndexOf(r, k) == |es|;
    forall k' | k' != k ensures Get(r, k') == Get(es, k') {
      if k' in Keys(es) {
        var j := IndexOf(es, k');
        var j2 := IndexOf(r, k');
        assert j2 < |es|;
        assert j2 == j;
      }
    }
    forall x | x in ValuesOf(r) ensures x in ValuesOf(es) || x == v {
      var j :| 0 <= j < |r| && ValuesOf(r)[j] == x;
      if j < |es| { assert ValuesOf(es)[j] == x; }
    }
  }

  /** Assigning the items in order: `d.update(items)`, or a loop of
      `d[k] = v`. The last assignment to a key wins; a key keeps the position
      of its first assignment. */
  function PutAll<V>(es: Items<V>, items: Items<V>): (r: Items<V>)
    ensures Keys(r) == Keys(es) + Keys(items)
    ensures UniqueKeys(es) ==> UniqueKeys(r)
    ensures |r| <= |es| + |items|
    ensures forall x :: x in ValuesOf(r) ==> x in ValuesOf(es) || x in ValuesOf(items)
    ensures forall k :: Get(r, k) == if k in Keys(items) then GetLast(items, k) else Get(es, k)
    decreases |items|
  {
    if items == [] then es
    else
      var mid := PutAll(es, items[..|items| - 1]);
      var r := Put(mid, items[|items| - 1].0, items[|items| - 1].1);
      PutAllValuesStep(es, items, mid, r);
      PutAllGetStep(es, items, mid, r);
      KeysSnoc(items);
      r
  }

  /** An assigned value joins the values of the items assigned before it. */
  lemma PutAllValuesStep<V>(es: Items<V>, items: Items<V>, mid: Items<V>, r: Items<V>)
    requires items != []
    requires forall x :: x in ValuesOf(mid) ==> x in ValuesOf(es) || x in ValuesOf(items[..|items| - 1])
    requires r == Put(mid, items[|items| - 1].0, items[|items| - 1].1)
    ensures forall x :: x in ValuesOf(r) ==> x in ValuesOf(es) || x in ValuesOf(items)
  {
    var init := items[..|items| - 1];
    assert forall x :: x in ValuesOf(init) ==> x in ValuesOf(items) by {
      forall x | x in ValuesOf(init) ensures x in ValuesOf(items) {
        var i :| 0 <= i < |init| && ValuesOf(init)[i] == x;
        assert ValuesOf(items)[i] == x;
      }
    }
    assert items[|items| - 1].1 == ValuesOf(items)[|items| - 1];
  }

  /** After one more assignment, a key reads the last value assigned to it. */
  lemma PutAllGetStep<V>(es: Items<V>, items: Items<V>, mid: Items<V>, r: Items<V>)
    requires items != []
    requires forall k :: Get(mid, k) == if k in Keys(items[..|items| - 1]) then GetLast(items[..|items| - 1], k) else Get(es, k)
    requires r == Put(mid, items[|items| - 1].0, items[|items| - 1].1)
    ensures forall k :: Get(r, k) == if k in Keys(items) then GetLast(items, k) else Get(es, k)
  {
    var init := items[..|items| - 1];
    var last := items[|items| - 1];
    KeysSnoc(items);
    forall k ensures Get(r, k) == if k in Keys(items) then GetLast(items, k) else Get(es, k) {
      if k != last.0 {
        assert GetLast(items, k) == GetLast(init, k);
        assert k in Keys(items) <==> k in Keys(init);
      }
    }
  }

  lemma PutNew<V>(es: Items<V>, item: (string, V))
    requires item.0 !in Keys(es)
    ensures Put(es, item.0, item.1) == es + [item]
  {
  }

  lemma InitThenLast<V>(es: Items<V>)
    requires es != []
    ensures es[..|es| - 1] + [es[|es| - 1]] == es
  {
  }

  lemma PutAllSnoc<V>(es: Items<V>, items: Items<V>)
    requires items != []
    ensures PutAll(es, items) == Put(PutAll(es, items[..|items| - 1]), items[|items| - 1].0, items[|items| - 1].1)
  {
  }

  /** With distinct keys there are as many items as keys. */
  lemma {:induction false} UniqueKeysCount<V>(es: Items<V>)
    requires UniqueKeys(es)
    ensures |Keys(es)| == |es|
  {
    if es != [] {
      KeysCons(es);
      assert UniqueKeys(es[1..]) by {
        forall i, j | 0 <= i < j < |es[1..]| ensures es[1..][i].0 != es[1..][j].0 {
          assert es[1..][i] == es[i + 1] && es[1..][j] == es[j + 1];
        }
      }
      UniqueKeysCount(es[1..]);
      assert forall j :: 0 <= j < |es[1..]| ==> es[1..][j].0 != es[0].0 by {
        forall j | 0 <= j < |es[1..]| ensures es[1..][j].0 != es[0].0 {
          assert es[1..][j] == es[j + 1];
        }
      }
    }
  }

  /** A key held by one item only is looked up to that item's value. */
  lemma {:induction false} GetLastUnique<V>(es: Items<V>, i: nat)
    requires i < |es|
    requires forall j :: 0 <= j < |es| && j != i ==> es[j].0 != es[i].0
    ensures GetLast(es, es[i].0) == Some(es[i].1)
    decreases |es|
  {
    if i < |es| - 1 {
      var init := es[..|es| - 1];
      assert init[i] == es[i];
      forall j | 0 <= j < |init| && j != i ensures init[j].0 != init[i].0 {
        assert init[j] == es[j];
      }
      GetLastUnique(init, i);
    }
  }

  /** Items kept as a prefix keep their values. */
  lemma ValuesOfPrefix<V>(a: Items<V>, r: Items<V>)
    requires |a| <= |r| && r[..|a|] == a
    ensures forall x :: x in ValuesOf(a) ==> x in ValuesOf(r)
  {
    forall x | x in ValuesOf(a) ensures x in ValuesOf(r) {
      var j :| 0 <= j < |a| && ValuesOf(a)[j] == x;
      assert r[j] == a[j];
      assert ValuesOf(r)[j] == x;
    }
  }

  /** The first position of a key in a prefix is its first position in the
      whole sequence. */
  lemma IndexOfPrefix<V>(es: Items<V>, n: nat, k: string)
    requires n <= |es| && k in Keys(es[..n])
    ensures k in Keys(es) && IndexOf(es, k) == IndexOf(es[..n], k) < n
  {
    var i := IndexOf(es[..n], k);
    assert es[i] == es[..n][i];
  }

  /** Each key of `r` is listed in the order of its first item in `items`. */
  predicate InFirstOrder<V>(r: Items<V>, items: Items<V>) {
    forall i, j :: 0 <= i < j < |r| ==>
      r[i].0 in Keys(items) && r[j].0 in Keys(items) && IndexOf(items, r[i].0) < IndexOf(items, r[j].0)
  }

  /** Assigning items in order to an empty dictionary keeps each key at the
      place of its first assignment. */
  lemma {:induction false} PutAllFirstOrder<V>(items: Items<V>)
    ensures InFirstOrder(PutAll([], items), items)
    decreases |items|
  {
    if items != [] {
      var n := |items| - 1;
      var mid := PutAll([], items[..n]);
      PutAllFirstOrder(items[..n]);
      var r := Put(mid, items[n].0, items[n].1);
      forall i, j | 0 <= i < j < |r|
        ensures r[i].0 in Keys(items) && r[j].0 in Keys(items) && IndexOf(items, r[i].0) < IndexOf(items, r[j].0)
      {
        FirstOrderPair(items, mid, r, i, j);
      }
    }
  }

  lemma FirstOrderPair<V>(items: Items<V>, mid: Items<V>, r: Items<V>, i: nat, j: nat)
    requires items != []
    requires InFirstOrder(mid, items[..|items| - 1]) && Keys(mid) == Keys(items[..|items| - 1])
    requires r == Put(mid, items[|items| - 1].0, items[|items| - 1].1)
    requires i < j < |r|
    ensures r[i].0 in Keys(items) && r[j].0 in Keys(items) && IndexOf(items, r[i].0) < IndexOf(items, r[j].0)
  {
    var n := |items| - 1;
    assert r[i].0 == mid[i].0 && mid[i].0 in Keys(mid);
    IndexOfPrefix(items, n, r[i].0);
    if j < |mid| {
      assert r[j].0 == mid[j].0 && mid[j].0 in Keys(mid);
      IndexOfPrefix(items, n, r[j].0);
    } else {
      assert items[n].0 !in Keys(items[..n]);
      IndexOfNewLast(items);
    }
  }

  /** A key first seen in the last item has the last position. */
  lemma IndexOfNewLast<V>(items: Items<V>)
    requires items != [] && items[|items| - 1].0 !in Keys(items[..|items| - 1])
    ensures items[|items| - 1].0 in Keys(items) && IndexOf(items, items[|items| - 1].0) == |items| - 1
  {
    var n := |items| - 1;
    assert items[n].0 in Keys(items);
    forall j | 0 <= j < n ensures items[j].0 != items[n].0 {
      assert items[..n][j] == items[j];
    }
  }

  /** Items appended after a key's first item do not change its lookup. */
  lemma GetOfPrefix<V>(es: Items<V>, r: Items<V>, k: string)
    requires |es| <= |r| && r[..|es|] == es && k in Keys(es)
    ensures Get(r, k) == Get(es, k)
  {
    IndexOfPrefix(r, |es|, k);
    assert r[IndexOf(es, k)] == es[IndexOf(es, k)];
  }
}

=== FILE: paths.dfy ===
/** Filesystem paths as `pathlib` sees them: a sequence of parts, the first
    part "/" for an absolute path (POSIX flavour), and `common_path` from the
    path utilities. */
module Paths {
  import opened Wrappers
  import Strings

  type Path = seq<string>

  const Root: string := "/"

  predicate IsAbsolute(p: Path) { |p| > 0 && p[0] == Root }

  /** `is_root(p)`: the path is the filesystem root itself. */
  predicate IsRoot(p: Path) { p == [Root] }

  /** `p.absolute()` against the working directory `cwd`. */
  function Absolute(p: Path, cwd: Path): (r: Path)
    requires IsAbsolute(cwd)
    ensures IsAbsolute(r)
    ensures IsAbsolute(p) ==> r == p
    ensures !IsAbsolute(p) ==> r == cwd + p
  {
    if IsAbsolute(p) then p else cwd + p
  }

  /** `p.parent`: the root and the empty relative path are their own parents. */
  function Parent(p: Path): Path {
    if |p| == 0 || IsRoot(p) then p else p[..|p| - 1]
  }

  /** `p.name`: the last part, or "" for the root and the empty path. */
  function Name(p: Path): string {
    if |p| == 0 || IsRoot(p) then "" else p[|p| - 1]
  }

  /** `base / rel`: an absolute right operand replaces the left one. */
  function Join(base: Path, rel: Path): Path {
    if IsAbsolute(rel) then rel else base + rel
  }

  predicate IsPrefix(a: Path, b: Path) { |a| <= |b| && b[..|a|] == a }

  /** `p.relative_to(base)`: the parts after `base`, or None for the
      `ValueError` raised when `base` is neither `p` nor one of its parents. */
  function RelativeTo(p: Path, base: Path): (r: Option<Path>)
    ensures r.Some? ==> base + r.value == p
    ensures r.Some? <==> IsPrefix(base, p) && (base != [] || !IsAbsolute(p))
  {
    if IsPrefix(base, p) && (base != [] || !IsAbsolute(p)) then
      var rel := p[|base|..];
      assert base + rel == p;
      Some(rel)
    else None
  }

  /** `str(p)`: parts joined by "/", "." for the empty relative path. */
  function ToString(p: Path): string {
    if IsAbsolute(p) then Root + Strings.Join("/", p[1..])
    else if p == [] then "."
    else Strings.Join("/", p)
  }

  // ---------------------------------------------------------------------------
  // Longest common prefix of part sequences

  ghost predicate IsCommonPrefix(c: Path, ps: seq<Path>) {
    forall p :: p in ps ==> IsPrefix(c, p)
  }

  /** Every input continues past `c` with the same next part. */
  ghost predicate Extendable(c: Path, ps: seq<Path>) {
    && (forall p :: p in ps ==> |c| < |p|)
    && (forall p, q :: p in ps && q in ps && |c| < |p| && |c| < |q| ==> p[|c|] == q[|c|])
  }

  /** Reference definition: `c` is the longest prefix the inputs share. */
  ghost predicate IsLongestCommonPrefix(c: Path, ps: seq<Path>) {
    IsCommonPrefix(c, ps) && !Extendable(c, ps)
  }

  predicate AgreeAt(ps: seq<Path>, i: nat)
    requires ps != []
  {
    && i < |ps[0]|
    && forall k :: 0 <= k < |ps| ==> i < |ps[k]| && ps[k][i] == ps[0][i]
  }

  /** Column-by-column scan from column `i`: keep a column while every input
      has it and all inputs hold the same part there (the transpose/takewhile
      of `common_path`). */
  function CommonFrom(ps: seq<Path>, i: nat): (c: Path)
    requires ps != []
    requires i <= |ps[0]|
    requires forall k :: 0 <= k < |ps| ==> i <= |ps[k]| && ps[k][..i] == ps[0][..i]
    ensures forall k :: 0 <= k < |ps| ==> IsPrefix(ps[0][..i] + c, ps[k])
    ensures !AgreeAt(ps, i + |c|)
    decreases |ps[0]| - i
  {
    if AgreeAt(ps, i) then
      assert forall k :: 0 <= k < |ps| ==> ps[k][..i + 1] == ps[k][..i] + [ps[k][i]];
      var rest := CommonFrom(ps, i + 1);
      assert ps[0][..i + 1] + rest == ps[0][..i] + ([ps[0][i]] + rest);
      [ps[0][i]] + rest
    else []
  }

  /** The longest common prefix of the inputs' parts; [] for no inputs. */
  function CommonParts(ps: seq<Path>): (c: Path)
    ensures IsCommonPrefix(c, ps)
    ensures ps != [] ==> !Extendable(c, ps)
  {
    if ps == [] then []
    else
      var c := CommonFrom(ps, 0);
      assert forall k :: 0 <= k < |ps| ==> IsPrefix(c, ps[k]) by {
        assert ps[0][..0] + c == c;
      }
      ExtendableAgrees(ps, c);
      c
  }

  lemma ExtendableAgrees(ps: seq<Path>, c: Path)
    requires ps != []
    ensures Extendable(c, ps) ==> AgreeAt(ps, |c|)
  {
    if Extendable(c, ps) {
      assert ps[0] in ps;
      forall k | 0 <= k < |ps| ensures |c| < |ps[k]| && ps[k][|c|] == ps[0][|c|] {
        assert ps[k] in ps;
      }
    }
  }

  /** At most one path is the longest common prefix of a non-empty input. */
  lemma LongestCommonPrefixUnique(c1: Path, c2: Path, ps: seq<Path>)
    requires ps != []
    requires IsLongestCommonPrefix(c1, ps) && IsLongestCommonPrefix(c2, ps)
    ensures c1 == c2
  {
    ShorterPrefixExtendable(c1, c2, ps);
    ShorterPrefixExtendable(c2, c1, ps);
    assert |c1| == |c2|;
    assert IsPrefix(c1, ps[0]) && IsPrefix(c2, ps[0]) by { assert ps[0] in ps; }
  }

  /** A common prefix shorter than another common prefix can be extended. */
  lemma ShorterPrefixExtendable(c1: Path, c2: Path, ps: seq<Path>)
    requires IsCommonPrefix(c1, ps) && IsCommonPrefix(c2, ps)
    ensures |c1| < |c2| ==> Extendable(c1, ps)
  {
    if |c1| < |c2| {
      forall p | p in ps ensures |c1| < |p| && p[|c1|] == c2[|c1|] {
        assert IsPrefix(c2, p);
        assert p[|c1|] == p[..|c2|][|c1|];
      }
    }
  }

  /** The inputs in the form `common_path` compares them: all made absolute as
      soon as one of them is absolute. */
  function ComparedForms(ps: seq<Path>, cwd: Path): (forms: seq<Path>)
    requires IsAbsolute(cwd)
    ensures |forms| == |ps|
    ensures (exists k :: 0 <= k < |ps| && IsAbsolute(ps[k])) ==>
              forall k :: 0 <= k < |forms| ==> forms[k] == Absolute(ps[k], cwd)
    ensures (forall k :: 0 <= k < |ps| ==> !IsAbsolute(ps[k])) ==> forms == ps
  {
    if exists k :: 0 <= k < |ps| && IsAbsolute(ps[k]) then
      seq(|ps|, k requires 0 <= k < |ps| => Absolute(ps[k], cwd))
    else ps
  }

  /** `common_path(*paths)`: the longest shared leading parts, or None when the
      inputs share no leading part (including when there are no inputs). */
  function CommonPath(ps: seq<Path>, cwd: Path): (r: Option<Path>)
    requires IsAbsolute(cwd)
  {
    var c := CommonParts(ComparedForms(ps, cwd));
    if |c| > 0 then Some(c) else None
  }

  /** The result is a prefix of every input (in compared form) and cannot be
      extended by one more shared part. */
  lemma CommonPathIsLongestPrefix(ps: seq<Path>, cwd: Path)
    requires IsAbsolute(cwd)
    ensures CommonPath(ps, cwd).Some? ==>
              IsLongestCommonPrefix(CommonPath(ps, cwd).value, ComparedForms(ps, cwd))
    ensures CommonPath(ps, cwd).Some? ==>
              forall k :: 0 <= k < |ps| ==> IsPrefix(CommonPath(ps, cwd).value, ComparedForms(ps, cwd)[k])
  {
    var forms := ComparedForms(ps, cwd);
    if CommonPath(ps, cwd).Some? {
      assert forms != [];
      var c := CommonPath(ps, cwd).value;
      forall k | 0 <= k < |ps| ensures IsPrefix(c, forms[k]) {
        assert forms[k] in forms;
      }
    }
  }

  /** None exactly when there are no inputs or the inputs do not even share
      their first part. */
  lemma CommonPathNone(ps: seq<Path>, cwd: Path)
    requires IsAbsolute(cwd)
    ensures CommonPath(ps, cwd).None? <==> ps == [] || !Extendable([], ComparedForms(ps, cwd))
  {
    var forms := ComparedForms(ps, cwd);
    var c := CommonParts(forms);
    if ps != [] && c != [] {
      assert forall p :: p in forms ==> 0 < |p| && p[0] == c[0] by {
        forall p | p in forms ensures 0 < |p| && p[0] == c[0] {
          assert IsPrefix(c, p);
          assert p[0] == p[..|c|][0];
        }
      }
      assert Extendable([], forms);
    }
  }

  /** When any input is absolute the result is absolute: the root is shared. */
  lemma CommonPathAbsolute(ps: seq<Path>, cwd: Path)
    requires IsAbsolute(cwd)
    requires exists k :: 0 <= k < |ps| && IsAbsolute(ps[k])
    ensures CommonPath(ps, cwd).Some? && IsAbsolute(CommonPath(ps, cwd).value)
  {
    var forms := ComparedForms(ps, cwd);
    assert forall p :: p in forms ==> 0 < |p| && p[0] == Root;
    assert Extendable([], forms);
    CommonPathNone(ps, cwd);
    var c := CommonPath(ps, cwd).value;
    assert IsPrefix(c, forms[0]);
    assert c[0] == forms[0][..|c|][0];
  }

  /** The result depends only on which paths are given, not on their order or
      repetition. */
  lemma CommonPathOrderIndependent(ps: seq<Path>, qs: seq<Path>, cwd: Path)
    requires IsAbsolute(cwd)
    requires forall p :: p in ps <==> p in qs
    ensures CommonPath(ps, cwd) == CommonPath(qs, cwd)
  {
    var fp, fq := ComparedForms(ps, cwd), ComparedForms(qs, cwd);
    assert ps != [] ==> ps[0] in qs;
    assert qs != [] ==> qs[0] in ps;
    if ps == [] {
    } else {
      assert (exists k :: 0 <= k < |ps| && IsAbsolute(ps[k]))
        <==> (exists k :: 0 <= k < |qs| && IsAbsolute(qs[k])) by {
        if exists k :: 0 <= k < |ps| && IsAbsolute(ps[k]) {
          var k :| 0 <= k < |ps| && IsAbsolute(ps[k]);
          assert ps[k] in qs;
        }
        if exists k :: 0 <= k < |qs| && IsAbsolute(qs[k]) {
          var k :| 0 <= k < |qs| && IsAbsolute(qs[k]);
          assert qs[k] in ps;
        }
      }
      assert forall f :: f in fp <==> f in fq by {
        forall f ensures f in fp ==> f in fq {
          if f in fp {
            var k :| 0 <= k < |fp| && fp[k] == f;
            assert ps[k] in qs;
            var j :| 0 <= j < |qs| && qs[j] == ps[k];
            assert fq[j] == f;
          }
        }
        forall f ensures f in fq ==> f in fp {
          if f in fq {
            var k :| 0 <= k < |fq| && fq[k] == f;
            assert qs[k] in ps;
            var j :| 0 <= j < |ps| && ps[j] == qs[k];
            assert fp[j] == f;
          }
        }
      }
      var cp, cq := CommonParts(fp), CommonParts(fq);
      assert IsLongestCommonPrefix(cp, fq);
      LongestCommonPrefixUnique(cp, cq, fq);
    }
  }

  /** The examples documented for `common_path`. */
  lemma CommonPathExampleSiblings(cwd: Path)
    requires IsAbsolute(cwd)
    ensures CommonPath([["src", "header.h"], ["src", "README.txt"], ["src", "setup.cfg"]], cwd) == Some(["src"])
  {
    var a: seq<Path> := [["src", "header.h"], ["src", "README.txt"], ["src", "setup.cfg"]];
    assert ComparedForms(a, cwd) == a;
    assert a[1][1] != a[0][1];
    assert !AgreeAt(a, 1);
    assert CommonFrom(a, 1) == [];
    assert AgreeAt(a, 0);
    assert CommonFrom(a, 0) == ["src"];
  }

  lemma CommonPathExampleAbsolute(cwd: Path)
    requires IsAbsolute(cwd)
    ensures CommonPath(UsrLocal, cwd) == Some(["/", "usr", "local"])
  {
    assert ComparedForms(UsrLocal, cwd) == UsrLocal;
    UsrLocalCommon();
  }

  const UsrLocal: seq<Path> := [["/", "usr", "local", "bin", "python"], ["/", "usr", "local", "src", "header.h"]]

  lemma UsrLocalCommon()
    ensures CommonFrom(UsrLocal, 0) == ["/", "usr", "local"]
  {
    UsrLocalTail();
    assert AgreeAt(UsrLocal, 1);
    assert CommonFrom(UsrLocal, 1) == ["usr", "local"];
    assert AgreeAt(UsrLocal, 0);
  }

  lemma UsrLocalTail()
    ensures UsrLocal[1][..2] == UsrLocal[0][..2]
    ensures CommonFrom(UsrLocal, 2) == ["local"]
  {
    var b := UsrLocal;
    assert b[1][..2] == ["/", "usr"] == b[0][..2];
    assert b[1][..3] == ["/", "usr", "local"] == b[0][..3];
    assert !AgreeAt(b, 3) by { assert b[1][3] != b[0][3]; }
    assert CommonFrom(b, 3) == [];
    assert AgreeAt(b, 2);
  }

  lemma CommonPathExampleShorter(cwd: Path)
    requires IsAbsolute(cwd)
    ensures CommonPath([["src", "header.h"], ["src"]], cwd) == Some(["src"])
  {
    var c: seq<Path> := [["src", "header.h"], ["src"]];
    assert ComparedForms(c, cwd) == c;
    assert |c[1]| == 1;
    assert !AgreeAt(c, 1);
    assert CommonFrom(c, 1) == [];
    assert AgreeAt(c, 0);
    assert CommonFrom(c, 0) == ["src"];
  }

  lemma CommonPathExampleDisjoint(cwd: Path)
    requires IsAbsolute(cwd)
    ensures CommonPath([["src", "header.h"], ["README.txt"]], cwd) == None
  {
    var d: seq<Path> := [["src", "header.h"], ["README.txt"]];
    assert ComparedForms(d, cwd) == d;
    assert d[1][0] != d[0][0];
    assert !AgreeAt(d, 0);
  }
  // ---------------------------------------------------------------------------
  // os.path.commonpath, as the project naming uses it

  /** Some inputs are absolute and some relative. */
  predicate Mixed(ps: seq<Path>) {
    (exists k :: 0 <= k < |ps| && IsAbsolute(ps[k])) && (exists k :: 0 <= k < |ps| && !IsAbsolute(ps[k]))
  }

  /** `os.path.commonpath(ps)`, with the `ValueError` it raises for no inputs
      or for a mix of absolute and relative inputs as None. Unlike
      `common_path`, an empty relative result is returned (as ".") rather
      than treated as missing. */
  function OsCommonPath(ps: seq<Path>): (r: Option<Path>)
    ensures r.Some? <==> ps != [] && !Mixed(ps)
    ensures r.Some? ==> IsLongestCommonPrefix(r.value, ps)
  {
    if ps == [] || Mixed(ps) then None else Some(CommonParts(ps))
  }

  /** The common path of absolute inputs is absolute; of relative inputs, relative. */
  lemma OsCommonPathKeepsAbsoluteness(ps: seq<Path>)
    requires OsCommonPath(ps).Some?
    ensures IsAbsolute(OsCommonPath(ps).value) <==> IsAbsolute(ps[0])
  {
    var c := OsCommonPath(ps).value;
    assert ps[0] in ps;
    if IsAbsolute(ps[0]) {
      assert forall p :: p in ps ==> 0 < |p| && p[0] == Root by {
        forall p | p in ps ensures 0 < |p| && p[0] == Root {
          var k :| 0 <= k < |ps| && ps[k] == p;
          assert !IsAbsolute(ps[k]) ==> Mixed(ps);
        }
      }
      if c == [] {
        assert Extendable(c, ps);
      }
      assert c[0] == ps[0][..|c|][0];
    } else if c != [] {
      assert c[0] == ps[0][..|c|][0];
    }
  }

  /** Only the first part of a path can be the root: parts never hold "/". */
  predicate WellFormed(p: Path) {
    forall i :: 0 < i < |p| ==> p[i] != Root
  }

  /** `os.path.commonpath` looks only at which paths are given, not at their
      order or repetitions. */
  lemma OsCommonPathSameMembers(ps: seq<Path>, qs: seq<Path>)
    requires forall p :: p in ps <==> p in qs
    ensures OsCommonPath(ps) == OsCommonPath(qs)
  {
    assert Mixed(ps) <==> Mixed(qs) by {
      assert (exists k :: 0 <= k < |ps| && IsAbsolute(ps[k])) <==> (exists p :: p in ps && IsAbsolute(p));
      assert (exists k :: 0 <= k < |qs| && IsAbsolute(qs[k])) <==> (exists p :: p in qs && IsAbsolute(p));
      assert (exists k :: 0 <= k < |ps| && !IsAbsolute(ps[k])) <==> (exists p :: p in ps && !IsAbsolute(p));
      assert (exists k :: 0 <= k < |qs| && !IsAbsolute(qs[k])) <==> (exists p :: p in qs && !IsAbsolute(p));
    }
    assert ps == [] <==> qs == [] by {
      assert ps != [] ==> ps[0] in qs;
      assert qs != [] ==> qs[0] in ps;
    }
    if ps != [] && !Mixed(ps) {
      var c1 := OsCommonPath(ps).value;
      var c2 := OsCommonPath(qs).value;
      assert IsLongestCommonPrefix(c1, qs);
      LongestCommonPrefixUnique(c1, c2, qs);
    }
  }
}

=== FILE: projects.dfy ===
/** `Project`: a YAML entry whose data holds a `meta` dict and an ordered
    dict of named entries. Modelled here: the naming of entries, adding
    entries and files, the `meta` accessor, and the state dicts
    `__getstate__`/`__setstate__` exchange. */
module Projects {
  import opened Wrappers
  import opened Strings
  import opened Paths
  import opened Values
  import opened Oracles
  import opened Hints
  import opened Classes
  import opened Registry
  import opened OrderedDicts

  /** `xamin.__version__`. */
  const Version: string := "0.2.0"

  /** An entry as a project sees it: its class and its path. */
  datatype Handle = Handle(cls: Class, path: Option<Path>)

  type Entries = Items<Handle>

  /** A project's path and the two parts of its data. */
  datatype Project = Project(path: Option<Path>, meta: map<string, Node>, entries: Entries)

  /** The `meta` property: `setdefault("version", __version__)` on the
      stored meta dict, which it then returns. */
  function Meta(p: Project): (r: (Project, map<string, Node>))
    ensures r.0 == p.(meta := r.1)
    ensures r.1.Keys == p.meta.Keys + {"version"}
    ensures forall k :: k in p.meta ==> r.1[k] == p.meta[k]
    ensures "version" !in p.meta ==> r.1["version"] == Str(Version)
  {
    var m := if "version" in p.meta then p.meta else p.meta["version" := Str(Version)];
    (p.(meta := m), m)
  }

  /** Reading `meta` twice changes nothing the second time. */
  lemma MetaSettles(p: Project)
    ensures Meta(Meta(p).0) == Meta(p)
  {
  }

  /** `Project()` without a path: `default_data()` (empty `meta` and
      `entries`), then the `meta` access in `__init__` records the version. */
  function NewProject(): (p: Project)
    ensures p.path == None && p.entries == []
    ensures p.meta == map["version" := Str(Version)]
  {
    Meta(Project(None, map[], [])).0
  }

  // ---------------------------------------------------------------------------
  // assign_unique_names

  /** `default_name.format(num=num)`. */
  function DefaultName(num: nat): string {
    "<unsaved> (" + NatToString(num) + ")"
  }

  lemma DefaultNameInjective(a: nat, b: nat)
    ensures DefaultName(a) == DefaultName(b) ==> a == b
  {
    if DefaultName(a) == DefaultName(b) {
      var sa := NatToString(a);
      var sb := NatToString(b);
      var pre := "<unsaved> (";
      assert DefaultName(a) == pre + sa + ")" && DefaultName(b) == pre + sb + ")";
      assert |sa| == |sb|;
      assert sa == DefaultName(a)[|pre|..|pre| + |sa|];
      assert sb == DefaultName(b)[|pre|..|pre| + |sb|];
      NatToStringInjective(a, b);
    }
  }

  /** The paths of the entries that have one, in order. */
  function PathsOf(hs: seq<Handle>): (ps: seq<Path>)
    ensures forall i :: 0 <= i < |hs| && hs[i].path.Some? ==> hs[i].path.value in ps
    ensures forall p :: p in ps ==> exists i :: 0 <= i < |hs| && hs[i].path == Some(p)
  {
    if hs == [] then []
    else
      var rest := PathsOf(hs[1..]);
      assert forall i :: 1 <= i < |hs| ==> hs[i] == hs[1..][i - 1];
      assert forall i :: 0 <= i < |hs[1..]| ==> hs[1..][i] == hs[i + 1];
      (if hs[0].path.Some? then [hs[0].path.value] else []) + rest
  }

  /** The common path of the entries' paths, None when there are none or
      they mix absolute and relative paths. */
  function CommonOf(es: Entries): Option<Path> {
    OsCommonPath(PathsOf(ValuesOf(es)))
  }

  /** The name `assign_unique_names` derives for the entry at 1-based
      position `num`. */
  function DerivedName(num: nat, h: Handle, common: Option<Path>, cwd: Path): string
    requires IsAbsolute(cwd)
  {
    match h.path
    case None => DefaultName(num)
    case Some(p) =>
      match common
      case None => ToString(p)
      case Some(c) =>
        if Absolute(c, cwd) == Absolute(p, cwd) then Paths.Name(p)
        else if IsRoot(c) then ToString(p)
        else
          match RelativeTo(Absolute(p, cwd), Absolute(c, cwd))
          case Some(rel) => ToString(rel)
          case None => ToString(p)
  }

  /** Every entry paired with its derived name, in order. */
  function NamedItems(es: Entries, cwd: Path): (items: Entries)
    requires IsAbsolute(cwd)
    ensures |items| == |es|
    ensures forall i :: 0 <= i < |es| ==>
              items[i] == (DerivedName(i + 1, es[i].1, CommonOf(es), cwd), es[i].1)
    ensures ValuesOf(items) == ValuesOf(es)
  {
    var common := CommonOf(es);
    seq(|es|, i requires 0 <= i < |es| => (DerivedName(i + 1, es[i].1, common, cwd), es[i].1))
  }

  /** `Project.assign_unique_names`: the entries are taken out and put back
      in order under their derived names, so entries that derive the same
      name collapse into one (the last of them, at the first one's place). */
  function AssignUniqueNames(es: Entries, cwd: Path): (r: Entries)
    requires IsAbsolute(cwd)
    ensures UniqueKeys(r)
    ensures |r| <= |es|
    ensures forall h :: h in ValuesOf(r) ==> h in ValuesOf(es)
    ensures Keys(r) == set i | 0 <= i < |es| :: DerivedName(i + 1, es[i].1, CommonOf(es), cwd)
    ensures forall k :: OrderedDicts.Get(r, k) == GetLast(NamedItems(es, cwd), k)
    ensures InFirstOrder(r, NamedItems(es, cwd))
  {
    var items := NamedItems(es, cwd);
    NamedItemsKeys(es, cwd);
    NamedItemsValues(es, cwd);
    PutAllFirstOrder(items);
    PutAll([], items)
  }

  lemma NamedItemsKeys(es: Entries, cwd: Path)
    requires IsAbsolute(cwd)
    ensures Keys(NamedItems(es, cwd)) == set i | 0 <= i < |es| :: DerivedName(i + 1, es[i].1, CommonOf(es), cwd)
  {
    var items := NamedItems(es, cwd);
    forall k ensures k in Keys(items) <==> k in set i | 0 <= i < |es| :: DerivedName(i + 1, es[i].1, CommonOf(es), cwd) {
      if k in Keys(items) {
        var i :| 0 <= i < |items| && items[i].0 == k;
        assert DerivedName(i + 1, es[i].1, CommonOf(es), cwd) == k;
      }
    }
  }

  lemma NamedItemsValues(es: Entries, cwd: Path)
    requires IsAbsolute(cwd)
    ensures forall h :: h in ValuesOf(NamedItems(es, cwd)) ==> h in ValuesOf(es)
  {
    var items := NamedItems(es, cwd);
    forall h | h in ValuesOf(items) ensures h in ValuesOf(es) {
      var i :| 0 <= i < |items| && ValuesOf(items)[i] == h;
      assert ValuesOf(es)[i] == h;
    }
  }

  /** An entry without a path at 1-based position n is named "<unsaved> (n)". */
  lemma UnsavedEntryName(es: Entries, cwd: Path, i: nat)
    requires IsAbsolute(cwd) && i < |es| && es[i].1.path.None?
    ensures DefaultName(i + 1) in Keys(AssignUniqueNames(es, cwd))
  {
    assert DerivedName(i + 1, es[i].1, CommonOf(es), cwd) == DefaultName(i + 1);
  }

  /** With a common path that is neither the entry's own path nor the root,
      the name is the entry's path after the common path: the relative-path
      computation never falls back to the full path. */
  lemma NameRelativeToCommon(es: Entries, cwd: Path, i: nat)
    requires IsAbsolute(cwd) && i < |es|
    requires es[i].1.path.Some? && CommonOf(es).Some?
    requires Absolute(CommonOf(es).value, cwd) != Absolute(es[i].1.path.value, cwd)
    requires !IsRoot(CommonOf(es).value)
    ensures exists rel :: rel != [] && Absolute(CommonOf(es).value, cwd) + rel == Absolute(es[i].1.path.value, cwd)
                          && DerivedName(i + 1, es[i].1, CommonOf(es), cwd) == ToString(rel)
  {
    var p := es[i].1.path.value;
    var c := CommonOf(es).value;
    var ps := PathsOf(ValuesOf(es));
    assert ValuesOf(es)[i] == es[i].1;
    assert p in ps;
    assert IsPrefix(c, p);
    OsCommonPathKeepsAbsoluteness(ps);
    var ac := Absolute(c, cwd);
    var ap := Absolute(p, cwd);
    var k :| 0 <= k < |ps| && ps[k] == p;
    assert !Mixed(ps);
    assert IsAbsolute(p) <==> IsAbsolute(ps[0]);
    assert IsPrefix(ac, ap) by {
      if !IsAbsolute(c) {
        assert ap == cwd + p && ac == cwd + c;
        assert ap[..|ac|] == cwd + p[..|c|];
      }
    }
    var rel := RelativeTo(ap, ac);
    assert rel.Some?;
    assert ac + rel.value == ap;
    assert rel.value != [];
  }

  // ---------------------------------------------------------------------------
  // add_entries

  /** An element of an iterable passed to `add_entries`: an entry, or any
      other object (skipped). */
  datatype Item = EntryItem(h: Handle) | NotAnEntry

  /** One argument of `add_entries`: a mapping of names to entries, a single
      non-iterable object, or an iterable. */
  datatype Added = MappingArg(named: Entries) | Single(item: Item) | Iterable(items: seq<Item>)

  /** The placeholder names with numbers below `num`. */
  function Below(num: nat): set<string> {
    set m | 0 <= m < num :: DefaultName(m)
  }

  /** The `while name(num) in self.entries: num += 1` loop. */
  function LowestFreeFrom(es: Entries, num: nat): (n: nat)
    ensures n >= num && DefaultName(n) !in Keys(es)
    ensures forall m :: num <= m < n ==> DefaultName(m) in Keys(es)
    decreases |Keys(es) - Below(num)|
  {
    if DefaultName(num) !in Keys(es) then num
    else
      BelowGrows(es, num);
      var n := LowestFreeFrom(es, num + 1);
      assert forall m :: num <= m < n ==> DefaultName(m) in Keys(es) by {
        forall m | num <= m < n ensures DefaultName(m) in Keys(es) {
          if m > num {
            assert num + 1 <= m < n;
          }
        }
      }
      n
  }

  lemma BelowGrows(es: Entries, num: nat)
    requires DefaultName(num) in Keys(es)
    ensures |Keys(es) - Below(num + 1)| < |Keys(es) - Below(num)|
  {
    assert Below(num + 1) == Below(num) + {DefaultName(num)};
    assert DefaultName(num) !in Below(num) by {
      forall m | 0 <= m < num ensures DefaultName(m) != DefaultName(num) {
        DefaultNameInjective(m, num);
      }
    }
    var a := Keys(es) - Below(num);
    assert Keys(es) - Below(num + 1) == a - {DefaultName(num)};
    assert DefaultName(num) in a;
  }

  /** The iterable branch: each entry under the lowest free placeholder
      name, the search continuing from the last number used. */
  function AddItems(es: Entries, items: seq<Item>, num: nat): (r: Entries)
    ensures UniqueKeys(es) ==> UniqueKeys(r)
    ensures Keys(es) <= Keys(r)
    ensures |es| <= |r| && r[..|es|] == es
    ensures forall i :: 0 <= i < |items| && items[i].EntryItem? ==> items[i].h in ValuesOf(r)
    ensures forall h :: h in ValuesOf(r) ==> h in ValuesOf(es) || EntryItem(h) in items
    decreases |items|
  {
    if items == [] then es
    else
      assert forall i :: 1 <= i < |items| ==> items[i] == items[1..][i - 1];
      match items[0]
      case NotAnEntry =>
        var r := AddItems(es, items[1..], num);
        r
      case EntryItem(h) =>
        var n := LowestFreeFrom(es, num);
        var es1 := Put(es, DefaultName(n), h);
        var r := AddItems(es1, items[1..], n);
        AppendedEntryKept(es, es1, r, DefaultName(n), h);
        r
  }

  /** An entry appended under a new name stays, with everything before it,
      when more entries are appended after it. */
  lemma AppendedEntryKept(es: Entries, es1: Entries, r: Entries, name: string, h: Handle)
    requires name !in Keys(es) && es1 == Put(es, name, h)
    requires |es1| <= |r| && r[..|es1|] == es1
    ensures |es| <= |r| && r[..|es|] == es
    ensures h in ValuesOf(r)
    ensures forall x :: x in ValuesOf(es) ==> x in ValuesOf(es1)
  {
    assert es1 == es + [(name, h)];
    assert r[..|es|] == es1[..|es|];
    assert r[|es|] == es1[|es|];
    assert ValuesOf(r)[|es|] == h;
    forall x | x in ValuesOf(es) ensures x in ValuesOf(es1) {
      var j :| 0 <= j < |es| && ValuesOf(es)[j] == x;
      assert ValuesOf(es1)[j] == x;
    }
  }

  /** One argument of `add_entries`: a mapping is merged as it is. */
  function AddValue(es: Entries, v: Added): (r: Entries)
    ensures UniqueKeys(es) ==> UniqueKeys(r)
    ensures Keys(es) <= Keys(r)
    ensures v.MappingArg? ==> r == PutAll(es, v.named)
    ensures !v.MappingArg? ==> |es| <= |r| && r[..|es|] == es
  {
    match v
    case MappingArg(named) => PutAll(es, named)
    case Single(item) => AddItems(es, [item], 0)
    case Iterable(items) => AddItems(es, items, 0)
  }

  function AddAll(es: Entries, vs: seq<Added>): (r: Entries)
    ensures UniqueKeys(es) ==> UniqueKeys(r)
    ensures Keys(es) <= Keys(r)
    decreases |vs|
  {
    if vs == [] then es else AddAll(AddValue(es, vs[0]), vs[1..])
  }

  /** `Project.add_entries(*vs)`: every argument is added, then the names
      are reassigned. */
  function AddEntries(p: Project, vs: seq<Added>, cwd: Path): (r: Project)
    requires IsAbsolute(cwd)
    ensures r.path == p.path && r.meta == p.meta
    ensures UniqueKeys(r.entries)
    ensures |r.entries| <= |AddAll(p.entries, vs)|
    ensures forall h :: h in ValuesOf(r.entries) ==> h in ValuesOf(AddAll(p.entries, vs))
  {
    p.(entries := AssignUniqueNames(AddAll(p.entries, vs), cwd))
  }

  /** A single entry is added under the lowest free placeholder, "<unsaved> (0)"
      upwards, at the end. */
  lemma AddSingleAppends(es: Entries, h: Handle)
    ensures AddValue(es, Single(EntryItem(h))) == es + [(DefaultName(LowestFreeFrom(es, 0)), h)]
  {
    var n := LowestFreeFrom(es, 0);
    assert [EntryItem(h)][1..] == [];
    assert AddItems(es, [EntryItem(h)], 0) == AddItems(Put(es, DefaultName(n), h), [], n);
  }

  /** Re-adding an entry whose path is already in the project does not
      increase the number of entries: it derives the same name as the entry
      already there. */
  lemma ReAddingKeepsCount(p: Project, h: Handle, cwd: Path)
    requires IsAbsolute(cwd)
    requires h.path.Some? && exists i :: 0 <= i < |p.entries| && p.entries[i].1.path == h.path
    ensures |AddEntries(p, [Single(EntryItem(h))], cwd).entries| == |AssignUniqueNames(p.entries, cwd)|
    ensures |AddEntries(p, [Single(EntryItem(h))], cwd).entries| <= |p.entries|
  {
    var es := p.entries;
    AddSingleAppends(es, h);
    var es2 := es + [(DefaultName(LowestFreeFrom(es, 0)), h)];
    assert AddAll(es, [Single(EntryItem(h))]) == es2 by {
      assert AddAll(AddValue(es, Single(EntryItem(h))), []) == AddValue(es, Single(EntryItem(h)));
    }
    SameNamesAfterReAdd(es, es2, h, cwd);
    var r1 := AssignUniqueNames(es2, cwd);
    var r0 := AssignUniqueNames(es, cwd);
    UniqueKeysCount(r1);
    UniqueKeysCount(r0);
  }

  lemma SameNamesAfterReAdd(es: Entries, es2: Entries, h: Handle, cwd: Path)
    requires IsAbsolute(cwd)
    requires h.path.Some? && exists i :: 0 <= i < |es| && es[i].1.path == h.path
    requires |es2| == |es| + 1 && es2[..|es|] == es && es2[|es|].1 == h
    ensures Keys(AssignUniqueNames(es2, cwd)) == Keys(AssignUniqueNames(es, cwd))
  {
    var i :| 0 <= i < |es| && es[i].1.path == h.path;
    assert forall j :: 0 <= j < |es| ==> es2[j] == es[j] by {
      forall j | 0 <= j < |es| ensures es2[j] == es[j] { assert es2[..|es|][j] == es2[j]; }
    }
    SamePathsAfterReAdd(es, es2, i);
    var a := NamedItems(es, cwd);
    var b := NamedItems(es2, cwd);
    assert forall j :: 0 <= j < |es| ==> b[j].0 == a[j].0 by {
      forall j | 0 <= j < |es| ensures b[j].0 == a[j].0 { assert es2[j] == es[j]; }
    }
    assert b[|es|].0 == a[i].0 by {
      DerivedNameOfPath(|es| + 1, es2[|es|].1, i + 1, es[i].1, CommonOf(es), cwd);
    }
    KeysOfSnoc(a, b, i);
    AssignedKeys(es, cwd);
    AssignedKeys(es2, cwd);
  }

  /** The names assigned are the names derived. */
  lemma AssignedKeys(es: Entries, cwd: Path)
    requires IsAbsolute(cwd)
    ensures Keys(AssignUniqueNames(es, cwd)) == Keys(NamedItems(es, cwd))
  {
    assert Keys<Handle>([]) == {};
  }

  lemma SamePathsAfterReAdd(es: Entries, es2: Entries, i: nat)
    requires i < |es| && es[i].1.path.Some?
    requires |es2| == |es| + 1 && es2[|es|].1.path == es[i].1.path
    requires forall j :: 0 <= j < |es| ==> es2[j] == es[j]
    ensures CommonOf(es2) == CommonOf(es)
  {
    var vs := ValuesOf(es);
    var vs2 := ValuesOf(es2);
    assert forall j :: 0 <= j < |vs| ==> vs2[j] == vs[j];
    var ps := PathsOf(vs);
    var ps2 := PathsOf(vs2);
    assert forall q :: q in ps <==> q in ps2 by {
      forall q ensures q in ps <==> q in ps2 {
        if q in ps {
          var j :| 0 <= j < |vs| && vs[j].path == Some(q);
          assert vs2[j] == vs[j];
        }
        if q in ps2 {
          var j :| 0 <= j < |vs2| && vs2[j].path == Some(q);
          if j < |es| { assert vs[j] == vs2[j]; }
          else { assert vs[i].path == Some(q); }
        }
      }
    }
    OsCommonPathSameMembers(ps, ps2);
  }

  /** A name derived from a path does not depend on the entry's position
      or class. */
  lemma DerivedNameOfPath(n: nat, h: Handle, m: nat, h2: Handle, c: Option<Path>, cwd: Path)
    requires IsAbsolute(cwd) && h.path.Some? && h2.path == h.path
    ensures DerivedName(n, h, c, cwd) == DerivedName(m, h2, c, cwd)
  {
  }

  // ---------------------------------------------------------------------------
  // add_files

  /** The `existing_paths` set: the entries' absolute paths, collected only
      when the project itself has a path; an entry without a path then makes
      `.absolute()` raise. */
  function ExistingPaths(p: Project, cwd: Path): (r: Result<set<Path>>)
    requires IsAbsolute(cwd)
    ensures r.Failure? <==> p.path.Some? && exists i :: 0 <= i < |p.entries| && p.entries[i].1.path.None?
    ensures r.Failure? ==> r.error == AttributeError
    ensures p.path.None? ==> r == Success({})
    ensures r.Success? && p.path.Some? ==>
              forall i :: 0 <= i < |p.entries| ==> Absolute(p.entries[i].1.path.value, cwd) in r.value
    ensures r.Success? && p.path.Some? ==>
              forall q :: q in r.value ==>
                exists i :: 0 <= i < |p.entries| && p.entries[i].1.path.Some? && q == Absolute(p.entries[i].1.path.value, cwd)
  {
    if p.path.None? then Success({})
    else if exists i :: 0 <= i < |p.entries| && p.entries[i].1.path.None? then Failure(AttributeError)
    else Success(set i | 0 <= i < |p.entries| :: Absolute(p.entries[i].1.path.value, cwd))
  }

  /** The entries `add_files` creates: one per new path whose type can be
      guessed, in argument order. */
  function NewEntries(o: Oracles, fs: FileSystem, order: seq<Class>, args: seq<Path>, existing: set<Path>, cwd: Path)
    : (hs: seq<Handle>)
    requires IsAbsolute(cwd)
    ensures forall h :: h in hs ==> h.path.Some? && h.path.value in args && Absolute(h.path.value, cwd) !in existing
                                    && GuessType(o, fs, h.path, GetHint(fs, h.path), order) == Some(h.cls)
    ensures forall a :: a in args && Absolute(a, cwd) !in existing
                        && GuessType(o, fs, Some(a), GetHint(fs, Some(a)), order).Some? ==>
                          exists h :: h in hs && h.path == Some(a)
    decreases |args|
  {
    if args == [] then []
    else
      var a := args[0];
      var rest := NewEntries(o, fs, order, args[1..], existing, cwd);
      assert forall b :: b in args[1..] ==> b in args;
      assert forall b :: b in args ==> b == a || b in args[1..];
      if Absolute(a, cwd) in existing then rest
      else
        match GuessType(o, fs, Some(a), GetHint(fs, Some(a)), order)
        case None => rest
        case Some(c) => [Handle(c, Some(a))] + rest
  }

  /** `Project.add_files(*args)`: each path not already present, with the
      guessed class, added as an entry of its own. */
  function AddFiles(o: Oracles, fs: FileSystem, order: seq<Class>, p: Project, args: seq<Path>, cwd: Path)
    : (r: Result<Project>)
    requires IsAbsolute(cwd)
    ensures r.Failure? <==> p.path.Some? && exists i :: 0 <= i < |p.entries| && p.entries[i].1.path.None?
    ensures r.Success? ==> r.value.path == p.path && r.value.meta == p.meta && UniqueKeys(r.value.entries)
    ensures r.Success? ==> forall h :: h in ValuesOf(r.value.entries) && h !in ValuesOf(p.entries) ==>
              h.path.Some? && h.path.value in args
              && GuessType(o, fs, h.path, GetHint(fs, h.path), order) == Some(h.cls)
  {
    var existing :- ExistingPaths(p, cwd);
    var hs := NewEntries(o, fs, order, args, existing, cwd);
    var vs := FileArgs(hs);
    var r := AddEntries(p, vs, cwd);
    AddAllSingles(p.entries, hs, vs);
    Success(r)
  }

  /** Adding single entries one argument at a time brings in nothing else. */
  lemma {:induction false} AddAllSingles(es: Entries, hs: seq<Handle>, vs: seq<Added>)
    requires |vs| == |hs| && forall i :: 0 <= i < |hs| ==> vs[i] == Single(EntryItem(hs[i]))
    ensures forall h :: h in ValuesOf(AddAll(es, vs)) ==> h in ValuesOf(es) || h in hs
    decreases |vs|
  {
    if vs != [] {
      var es1 := AddValue(es, vs[0]);
      assert forall h :: h in ValuesOf(es1) ==> h in ValuesOf(es) || h == hs[0] by {
        assert [EntryItem(hs[0])][1..] == [];
      }
      AddAllSingles(es1, hs[1..], vs[1..]);
    }
  }

  /** Each new entry of `add_files` as a single argument of `add_entries`. */
  function FileArgs(hs: seq<Handle>): (vs: seq<Added>)
    ensures |vs| == |hs| && forall i :: 0 <= i < |hs| ==> vs[i] == Single(EntryItem(hs[i]))
  {
    seq(|hs|, i requires 0 <= i < |hs| => Single(EntryItem(hs[i])))
  }

  /** The argument brings entry `h`: as a single entry or as an item of an
      iterable. */
  predicate Brings(v: Added, h: Handle) {
    match v
    case MappingArg(_) => false
    case Single(item) => item == EntryItem(h)
    case Iterable(items) => EntryItem(h) in items
  }

  /** Without mapping arguments, adding keeps every entry held before and
      brings in every entry an argument brings. */
  lemma {:induction false} AddAllKeeps(es: Entries, vs: seq<Added>, h: Handle)
    requires forall j :: 0 <= j < |vs| ==> !vs[j].MappingArg?
    ensures |es| <= |AddAll(es, vs)| && AddAll(es, vs)[..|es|] == es
    ensures (exists j :: 0 <= j < |vs| && Brings(vs[j], h)) ==> h in ValuesOf(AddAll(es, vs))
    decreases |vs|
  {
    if vs != [] {
      var es1, rest := AddValue(es, vs[0]), vs[1..];
      BroughtIsAdded(es, vs[0], h);
      forall j | 0 <= j < |rest| ensures !rest[j].MappingArg? {
        assert rest[j] == vs[j + 1];
      }
      AddAllKeeps(es1, rest, h);
      var r := AddAll(es1, rest);
      PrefixOfPrefix(es, es1, r);
      ValuesOfPrefix(es1, r);
      if exists j :: 0 <= j < |vs| && Brings(vs[j], h) {
        var j :| 0 <= j < |vs| && Brings(vs[j], h);
        if j > 0 { assert Brings(rest[j - 1], h); }
      }
    }
  }

  lemma BroughtIsAdded(es: Entries, v: Added, h: Handle)
    requires !v.MappingArg?
    ensures Brings(v, h) ==> h in ValuesOf(AddValue(es, v))
  {
    var items := if v.Single? then [v.item] else v.items;
    assert AddValue(es, v) == AddItems(es, items, 0);
    if Brings(v, h) {
      var k :| 0 <= k < |items| && items[k] == EntryItem(h);
    }
  }

  lemma PrefixOfPrefix<T>(a: seq<T>, b: seq<T>, c: seq<T>)
    requires |a| <= |b| <= |c| && c[..|b|] == b && b[..|a|] == a
    ensures c[..|a|] == a
  {
    assert c[..|b|][..|a|] == c[..|a|];
  }

  /** An entry keeps its place in `assign_unique_names` when no other entry
      derives its name, whatever the other entries do. */
  lemma UniquelyNamedEntryKept(es: Entries, cwd: Path, i: nat)
    requires IsAbsolute(cwd) && i < |es|
    requires forall j :: 0 <= j < |es| && j != i ==>
               DerivedName(j + 1, es[j].1, CommonOf(es), cwd) != DerivedName(i + 1, es[i].1, CommonOf(es), cwd)
    ensures OrderedDicts.Get(AssignUniqueNames(es, cwd), DerivedName(i + 1, es[i].1, CommonOf(es), cwd)) == Some(es[i].1)
  {
    var items := NamedItems(es, cwd);
    assert items[i].0 in Keys(items);
    GetLastUnique(items, i);
  }

  /** Before renaming, a key a mapping argument assigns reads the value that
      mapping gives it, unless a later mapping argument assigns it again:
      the other arguments only append entries under new names. */
  lemma {:induction false} MappingValueKept(es: Entries, vs: seq<Added>, j: nat, k: string)
    requires j < |vs| && vs[j].MappingArg? && k in Keys(vs[j].named)
    requires forall m :: j < m < |vs| && vs[m].MappingArg? ==> k !in Keys(vs[m].named)
    ensures OrderedDicts.Get(AddAll(es, vs), k) == GetLast(vs[j].named, k)
    decreases |vs|
  {
    var es1, rest := AddValue(es, vs[0]), vs[1..];
    assert AddAll(es, vs) == AddAll(es1, rest);
    LaterArgumentsShift(vs, j, k);
    if j > 0 {
      assert rest[j - 1] == vs[j];
      MappingValueKept(es1, rest, j - 1, k);
    } else {
      MappingAssigns(es, vs[0], k);
      GetKeptByAddAll(es1, rest, k);
    }
  }

  lemma MappingAssigns(es: Entries, v: Added, k: string)
    requires v.MappingArg? && k in Keys(v.named)
    ensures k in Keys(AddValue(es, v)) && OrderedDicts.Get(AddValue(es, v), k) == GetLast(v.named, k)
  {
    assert AddValue(es, v) == PutAll(es, v.named);
  }

  lemma LaterArgumentsShift(vs: seq<Added>, j: nat, k: string)
    requires j < |vs|
    requires forall m :: j < m < |vs| && vs[m].MappingArg? ==> k !in Keys(vs[m].named)
    ensures forall m :: j < m + 1 && 0 <= m < |vs[1..]| && vs[1..][m].MappingArg? ==> k !in Keys(vs[1..][m].named)
  {
    forall m | j < m + 1 && 0 <= m < |vs[1..]| && vs[1..][m].MappingArg? ensures k !in Keys(vs[1..][m].named) {
      assert vs[1..][m] == vs[m + 1];
    }
  }

  /** Arguments that do not assign a key leave its value alone. */
  lemma {:induction false} GetKeptByAddAll(es: Entries, vs: seq<Added>, k: string)
    requires k in Keys(es)
    requires forall m :: 0 <= m < |vs| && vs[m].MappingArg? ==> k !in Keys(vs[m].named)
    ensures OrderedDicts.Get(AddAll(es, vs), k) == OrderedDicts.Get(es, k)
    decreases |vs|
  {
    if vs != [] {
      var es1 := AddValue(es, vs[0]);
      if !vs[0].MappingArg? {
        GetOfPrefix(es, es1, k);
      }
      forall m | 0 <= m < |vs[1..]| && vs[1..][m].MappingArg? ensures k !in Keys(vs[1..][m].named) {
        assert vs[1..][m] == vs[m + 1];
      }
      GetKeptByAddAll(es1, vs[1..], k);
    }
  }

  /** An entry an argument of `add_entries` brings is in the project
      afterwards when the derived names do not clash. */
  lemma AddedEntryKept(p: Project, vs: seq<Added>, cwd: Path, h: Handle)
    requires IsAbsolute(cwd)
    requires forall j :: 0 <= j < |vs| ==> !vs[j].MappingArg?
    requires exists j :: 0 <= j < |vs| && Brings(vs[j], h)
    requires UniqueKeys(NamedItems(AddAll(p.entries, vs), cwd))
    ensures h in ValuesOf(AddEntries(p, vs, cwd).entries)
  {
    AddAllKeeps(p.entries, vs, h);
    DistinctNamesKept(AddAll(p.entries, vs), cwd);
  }

  /** `add_files` adds every new path whose type it can guess, with the
      guessed class, when the derived names do not clash. */
  lemma AddFilesAddsNewFile(o: Oracles, fs: FileSystem, order: seq<Class>, p: Project, args: seq<Path>, cwd: Path, a: Path)
    requires IsAbsolute(cwd) && ExistingPaths(p, cwd).Success?
    requires a in args && Absolute(a, cwd) !in ExistingPaths(p, cwd).value
    requires GuessType(o, fs, Some(a), GetHint(fs, Some(a)), order).Some?
    requires UniqueKeys(NamedItems(AddAll(p.entries, FileArgs(NewEntries(o, fs, order, args, ExistingPaths(p, cwd).value, cwd))), cwd))
    ensures AddFiles(o, fs, order, p, args, cwd).Success?
    ensures Handle(GuessType(o, fs, Some(a), GetHint(fs, Some(a)), order).value, Some(a))
              in ValuesOf(AddFiles(o, fs, order, p, args, cwd).value.entries)
  {
    var existing := ExistingPaths(p, cwd).value;
    var hs := NewEntries(o, fs, order, args, existing, cwd);
    var h := Handle(GuessType(o, fs, Some(a), GetHint(fs, Some(a)), order).value, Some(a));
    assert h in hs by { NewFileBrought(o, fs, order, args, existing, cwd, a); }
    FileArgsBring(hs, h);
    AddedEntryKept(p, FileArgs(hs), cwd, h);
    AddFilesAddsEntries(o, fs, order, p, args, cwd);
  }

  lemma NewFileBrought(o: Oracles, fs: FileSystem, order: seq<Class>, args: seq<Path>, existing: set<Path>, cwd: Path, a: Path)
    requires IsAbsolute(cwd) && a in args && Absolute(a, cwd) !in existing
    requires GuessType(o, fs, Some(a), GetHint(fs, Some(a)), order).Some?
    ensures Handle(GuessType(o, fs, Some(a), GetHint(fs, Some(a)), order).value, Some(a))
              in NewEntries(o, fs, order, args, existing, cwd)
  {
    var hs := NewEntries(o, fs, order, args, existing, cwd);
    var h :| h in hs && h.path == Some(a);
  }

  lemma FileArgsBring(hs: seq<Handle>, h: Handle)
    requires h in hs
    ensures forall j :: 0 <= j < |FileArgs(hs)| ==> !FileArgs(hs)[j].MappingArg?
    ensures exists j :: 0 <= j < |FileArgs(hs)| && Brings(FileArgs(hs)[j], h)
  {
    var k :| 0 <= k < |hs| && hs[k] == h;
    assert Brings(FileArgs(hs)[k], h);
  }

  lemma AddFilesAddsEntries(o: Oracles, fs: FileSystem, order: seq<Class>, p: Project, args: seq<Path>, cwd: Path)
    requires IsAbsolute(cwd) && ExistingPaths(p, cwd).Success?
    ensures AddFiles(o, fs, order, p, args, cwd)
            == Success(AddEntries(p, FileArgs(NewEntries(o, fs, order, args, ExistingPaths(p, cwd).value, cwd)), cwd))
  {
  }

  /** With a project path, a path already held by an entry (compared in
      absolute form) is not added again. */
  lemma AddFilesSkipsExisting(o: Oracles, fs: FileSystem, order: seq<Class>, p: Project, args: seq<Path>, cwd: Path, i: nat)
    requires IsAbsolute(cwd) && p.path.Some?
    requires i < |p.entries| && ExistingPaths(p, cwd).Success?
    ensures forall h :: h in NewEntries(o, fs, order, args, ExistingPaths(p, cwd).value, cwd) ==>
              Absolute(h.path.value, cwd) != Absolute(p.entries[i].1.path.value, cwd)
  {
  }

  // ---------------------------------------------------------------------------
  // __getstate__ / __setstate__

  /** The `path` item of an entry's state: absent, `None`, or a path. */
  datatype Stored = Absent | NonePath | At(p: Path)

  /** An entry's state dict: its `class` name, if any, and its `path` item. */
  datatype EntryState = EntryState(cls: Option<string>, path: Stored)

  /** A project's state dict: its own path, the entries' states by name, and
      a copy of `meta`. */
  datatype State = State(path: Option<Path>, entries: Items<EntryState>, meta: map<string, Node>)

  /** The directory entry paths are stored relative to. */
  function ProjectDir(path: Option<Path>): Option<Path> {
    match path
    case None => None
    case Some(p) => Some(Parent(p))
  }

  /** The stored form of an entry path as written: `path.relative_to(dir)`,
      with `ValueError` (not under the directory) and `AttributeError` (no
      path) caught; `relative_to(None)` raises a `TypeError` that is not. */
  function StoredPathAsWritten(path: Option<Path>, dir: Option<Path>): (r: Result<Stored>)
    ensures r.Failure? <==> path.Some? && dir.None?
    ensures r.Failure? ==> r.error == TypeError
    ensures r.Success? ==> r.value == StoredPath(path, dir)
  {
    match path
    case None => Success(NonePath)
    case Some(q) =>
      match dir
      case None => Failure(TypeError)
      case Some(d) =>
        match RelativeTo(q, d)
        case Some(rel) => Success(At(rel))
        case None => Success(At(q))
  }

  /** The stored form of an entry path, relative to the directory when
      possible and unchanged otherwise (including when there is no
      directory). */
  function StoredPath(path: Option<Path>, dir: Option<Path>): (r: Stored)
    ensures path.None? <==> r == NonePath
    ensures path.Some? && dir.Some? && r.At? && r.p != path.value ==> dir.value + r.p == path.value
    ensures path.Some? && dir.None? ==> r == At(path.value)
    ensures path.Some? && dir.Some? && IsPrefix(dir.value, path.value)
            && (dir.value != [] || !IsAbsolute(path.value))
            ==> r == At(path.value[|dir.value|..])
    ensures path.Some? && dir.Some? && !IsPrefix(dir.value, path.value) ==> r == At(path.value)
  {
    match path
    case None => NonePath
    case Some(q) =>
      match dir
      case None => At(q)
      case Some(d) =>
        match RelativeTo(q, d)
        case Some(rel) => At(rel)
        case None => At(q)
  }

  function EntryStateOf(h: Handle, dir: Option<Path>): EntryState {
    EntryState(Some(Classes.Name(h.cls)), StoredPath(h.path, dir))
  }

  /** `Project.__getstate__` as written. */
  function GetStateAsWritten(p: Project): (r: Result<State>)
    ensures r.Failure? <==> p.path.None? && exists i :: 0 <= i < |p.entries| && p.entries[i].1.path.Some?
    ensures r.Success? ==> r.value == GetState(p)
  {
    var dir := ProjectDir(p.path);
    if exists i :: 0 <= i < |p.entries| && StoredPathAsWritten(p.entries[i].1.path, dir).Failure? then
      Failure(TypeError)
    else
      Success(GetState(p))
  }

  /** A project without a path holding an entry with one cannot produce its
      state: the exception escapes `__getstate__`. */
  lemma GetStateAsWrittenRaises(meta: map<string, Node>)
    ensures GetStateAsWritten(Project(None, meta, [("a.txt", Handle(TextClass, Some(["/", "a.txt"])))]))
            == Failure(TypeError)
  {
    var p := Project(None, meta, [("a.txt", Handle(TextClass, Some(["/", "a.txt"])))]);
    assert StoredPathAsWritten(p.entries[0].1.path, None).Failure?;
  }

  /** `Project.__getstate__` with a missing directory treated like any other
      directory the path cannot be made relative to. */
  function GetState(p: Project): (st: State)
    ensures st.path == p.path && st.meta == p.meta
    ensures |st.entries| == |p.entries|
    ensures forall i :: 0 <= i < |p.entries| ==>
              st.entries[i].0 == p.entries[i].0
              && st.entries[i].1.cls == Some(Classes.Name(p.entries[i].1.cls))
              && st.entries[i].1.path == StoredPath(p.entries[i].1.path, ProjectDir(p.path))
    ensures forall i :: 0 <= i < |p.entries| && p.path.Some? && p.entries[i].1.path.Some?
                        && IsPrefix(Parent(p.path.value), p.entries[i].1.path.value)
                        && (Parent(p.path.value) != [] || !IsAbsolute(p.entries[i].1.path.value)) ==>
              st.entries[i].1.path == At(p.entries[i].1.path.value[|Parent(p.path.value)|..])
  {
    var dir := ProjectDir(p.path);
    State(p.path, seq(|p.entries|, i requires 0 <= i < |p.entries| => (p.entries[i].0, EntryStateOf(p.entries[i].1, dir))), p.meta)
  }

  /** The path an entry gets back from its stored form: joined onto the
      directory and made absolute. Without a stored path or without a
      directory the join raises a `TypeError`, which is caught. */
  function RestoredPath(stored: Stored, dir: Option<Path>, cwd: Path): Option<Path>
    requires IsAbsolute(cwd)
  {
    match stored
    case Absent => None
    case NonePath => None
    case At(q) =>
      match dir
      case None => Some(q)
      case Some(d) => Some(Absolute(Paths.Join(d, q), cwd))
  }

  /** An entry state `__setstate__` can restore: its class is given and
      registered. */
  predicate Restorable(st: EntryState) {
    st.cls.Some? && FromName(st.cls.value).Some?
  }

  /** The entries `__setstate__` creates, in order, skipping the states it
      cannot restore. */
  function Restored(states: Items<EntryState>, dir: Option<Path>, cwd: Path): Entries
    requires IsAbsolute(cwd)
    decreases |states|
  {
    if states == [] then []
    else
      var (name, st) := states[0];
      var rest := Restored(states[1..], dir, cwd);
      if !Restorable(st) then rest
      else [(name, Handle(FromName(st.cls.value).value, RestoredPath(st.path, dir, cwd)))] + rest
  }

  /** A name is restored exactly when some state under it is restorable. */
  lemma {:induction false} RestoredKeys(states: Items<EntryState>, dir: Option<Path>, cwd: Path)
    requires IsAbsolute(cwd)
    ensures forall k :: k in Keys(Restored(states, dir, cwd)) <==>
              exists i :: 0 <= i < |states| && states[i].0 == k && Restorable(states[i].1)
    decreases |states|
  {
    if states != [] {
      var r := Restored(states, dir, cwd);
      var rest := Restored(states[1..], dir, cwd);
      RestoredKeys(states[1..], dir, cwd);
      assert forall i :: 1 <= i < |states| ==> states[i] == states[1..][i - 1];
      assert forall i :: 0 <= i < |states[1..]| ==> states[1..][i] == states[i + 1];
      if Restorable(states[0].1) {
        KeysCons(r);
        assert r[1..] == rest;
      }
    }
  }

  /** `Project.__setstate__`: the project path from the state, the state's
      meta merged over the current one, and each restorable entry assigned
      by name. */
  function SetState(p: Project, st: State, cwd: Path): (r: Project)
    requires IsAbsolute(cwd)
    ensures r.path == st.path
    ensures r.meta.Keys == p.meta.Keys + st.meta.Keys
    ensures forall k :: k in r.meta ==> r.meta[k] == if k in st.meta then st.meta[k] else p.meta[k]
    ensures Keys(r.entries) == Keys(p.entries) + Keys(Restored(st.entries, ProjectDir(st.path), cwd))
    ensures UniqueKeys(p.entries) ==> UniqueKeys(r.entries)
  {
    Project(st.path, p.meta + st.meta, PutAll(p.entries, Restored(st.entries, ProjectDir(st.path), cwd)))
  }

  /** After `__setstate__` a name the project did not have is present
      exactly when some state under it names a registered class: entries
      whose class is missing or unknown are skipped. */
  lemma SetStateSkipsUnknown(p: Project, st: State, cwd: Path, k: string)
    requires IsAbsolute(cwd) && k !in Keys(p.entries)
    ensures k in Keys(SetState(p, st, cwd).entries) <==>
              exists i :: 0 <= i < |st.entries| && st.entries[i].0 == k && Restorable(st.entries[i].1)
  {
    RestoredKeys(st.entries, ProjectDir(st.path), cwd);
  }

  // ---------------------------------------------------------------------------
  // The state round trip

  /** Restoring items with distinct names into an empty dict keeps them as
      they are. */
  lemma {:induction false} PutAllIntoEmpty<V>(items: Items<V>)
    requires UniqueKeys(items)
    ensures PutAll([], items) == items
    decreases |items|
  {
    if items != [] {
      var init := items[..|items| - 1];
      var last := items[|items| - 1];
      assert UniqueKeys(init) && last.0 !in Keys(init) by {
        forall i, j | 0 <= i < j < |init| ensures init[i].0 != init[j].0 {
          assert init[i] == items[i] && init[j] == items[j];
        }
        forall j | 0 <= j < |init| ensures init[j].0 != last.0 { assert init[j] == items[j]; }
      }
      calc {
        PutAll([], items);
      == { PutAllSnoc([], items); }
        Put(PutAll([], init), last.0, last.1);
      == { PutAllIntoEmpty(init); }
        Put(init, last.0, last.1);
      == { PutNew(init, last); }
        init + [last];
      == { InitThenLast(items); }
        items;
      }
    }
  }

  /** The stored path of an entry comes back unchanged, for an absolute
      project path and an absolute (or missing) entry path. */
  lemma StoredPathRestores(q: Option<Path>, pp: Path, cwd: Path)
    requires IsAbsolute(cwd) && IsAbsolute(pp)
    requires q.Some? ==> IsAbsolute(q.value) && WellFormed(q.value)
    ensures RestoredPath(StoredPath(q, Some(Parent(pp))), Some(Parent(pp)), cwd) == q
  {
    if q.Some? {
      var d := Parent(pp);
      assert IsAbsolute(d);
      match RelativeTo(q.value, d)
      case Some(rel) =>
        assert d + rel == q.value;
        if rel != [] {
          assert rel[0] == q.value[|d|];
        }
        assert Paths.Join(d, rel) == q.value;
      case None =>
    }
  }

  /** A project's state restores into a fresh project: same path, same
      entries in the same order under the same names with the same classes
      and paths, and the same meta once it holds a version. The project
      path must be absolute, and so must every entry path that is set. */
  lemma StateRoundTrip(p: Project, cwd: Path)
    requires IsAbsolute(cwd) && UniqueKeys(p.entries)
    requires p.path.Some? && IsAbsolute(p.path.value)
    requires forall i :: 0 <= i < |p.entries| && p.entries[i].1.path.Some? ==>
               IsAbsolute(p.entries[i].1.path.value) && WellFormed(p.entries[i].1.path.value)
    ensures GetStateAsWritten(p) == Success(GetState(p))
    ensures SetState(NewProject(), GetState(p), cwd).path == p.path
    ensures SetState(NewProject(), GetState(p), cwd).entries == p.entries
    ensures "version" in p.meta ==> SetState(NewProject(), GetState(p), cwd).meta == p.meta
  {
    RoundTripEntries(p, cwd);
    RoundTripMeta(p, cwd);
  }

  lemma RoundTripEntries(p: Project, cwd: Path)
    requires IsAbsolute(cwd) && UniqueKeys(p.entries)
    requires p.path.Some? && IsAbsolute(p.path.value)
    requires forall i :: 0 <= i < |p.entries| && p.entries[i].1.path.Some? ==>
               IsAbsolute(p.entries[i].1.path.value) && WellFormed(p.entries[i].1.path.value)
    ensures SetState(NewProject(), GetState(p), cwd).path == p.path
    ensures SetState(NewProject(), GetState(p), cwd).entries == p.entries
  {
    RestoredIsOriginal(p.entries, GetState(p).entries, p.path.value, cwd);
    PutAllIntoEmpty(p.entries);
  }

  lemma RoundTripMeta(p: Project, cwd: Path)
    requires IsAbsolute(cwd)
    ensures "version" in p.meta ==> SetState(NewProject(), GetState(p), cwd).meta == p.meta
  {
    var m := SetState(NewProject(), GetState(p), cwd).meta;
    if "version" in p.meta {
      assert m.Keys == p.meta.Keys;
    }
  }

  lemma {:induction false} RestoredIsOriginal(es: Entries, states: Items<EntryState>, pp: Path, cwd: Path)
    requires IsAbsolute(cwd) && IsAbsolute(pp)
    requires |states| == |es|
    requires forall i :: 0 <= i < |es| ==>
               states[i].0 == es[i].0
               && states[i].1.cls == Some(Classes.Name(es[i].1.cls))
               && states[i].1.path == StoredPath(es[i].1.path, Some(Parent(pp)))
    requires forall i :: 0 <= i < |es| && es[i].1.path.Some? ==>
               IsAbsolute(es[i].1.path.value) && WellFormed(es[i].1.path.value)
    ensures Restored(states, Some(Parent(pp)), cwd) == es
    decreases |es|
  {
    if es != [] {
      var dir := Some(Parent(pp));
      assert Restored(states, dir, cwd) == [es[0]] + Restored(states[1..], dir, cwd) by {
        StoredPathRestores(es[0].1.path, pp, cwd);
        RestoredCons(states, es[0], dir, cwd);
      }
      assert Restored(states[1..], dir, cwd) == es[1..] by {
        forall i | 0 <= i < |es[1..]|
          ensures states[1..][i].0 == es[1..][i].0
          ensures states[1..][i].1.cls == Some(Classes.Name(es[1..][i].1.cls))
          ensures states[1..][i].1.path == StoredPath(es[1..][i].1.path, dir)
          ensures es[1..][i].1.path.Some? ==> IsAbsolute(es[1..][i].1.path.value) && WellFormed(es[1..][i].1.path.value)
        {
          assert states[1..][i] == states[i + 1] && es[1..][i] == es[i + 1];
        }
        RestoredIsOriginal(es[1..], states[1..], pp, cwd);
      }
      assert es == [es[0]] + es[1..];
    }
  }

  /** The first state restores to the given entry. */
  lemma RestoredCons(states: Items<EntryState>, e: (string, Handle), dir: Option<Path>, cwd: Path)
    requires IsAbsolute(cwd) && states != []
    requires states[0].0 == e.0 && states[0].1.cls == Some(Classes.Name(e.1.cls))
    requires RestoredPath(states[0].1.path, dir, cwd) == e.1.path
    ensures Restored(states, dir, cwd) == [e] + Restored(states[1..], dir, cwd)
  {
    FromNameOfName(e.1.cls);
  }

  /** An entry path that is relative comes back rooted at the project's
      directory, whatever the working directory it was relative to. */
  lemma RelativeEntryPathRebased(q: Path, pp: Path, cwd: Path)
    requires IsAbsolute(cwd) && IsAbsolute(pp) && !IsAbsolute(q)
    ensures RestoredPath(StoredPath(Some(q), Some(Parent(pp))), Some(Parent(pp)), cwd) == Some(Parent(pp) + q)
  {
    var d := Parent(pp);
    assert d[0] == Root;
    assert forall n :: 0 < n <= |q| ==> q[..n][0] == q[0];
    assert !IsPrefix(d, q);
  }

  /** The intended behaviour for a project without a path: every entry path
      is kept as it is, and the state restores every entry exactly. */
  lemma StateRoundTripWithoutPath(p: Project, cwd: Path)
    requires IsAbsolute(cwd) && UniqueKeys(p.entries) && p.path.None?
    ensures SetState(NewProject(), GetState(p), cwd).entries == p.entries
    ensures forall i :: 0 <= i < |p.entries| && p.entries[i].1.path.Some? ==>
              GetState(p).entries[i].1.path == At(p.entries[i].1.path.value)
  {
    RestoredWithoutDir(p.entries, GetState(p).entries, cwd);
    PutAllIntoEmpty(p.entries);
  }

  lemma {:induction false} RestoredWithoutDir(es: Entries, states: Items<EntryState>, cwd: Path)
    requires IsAbsolute(cwd)
    requires |states| == |es|
    requires forall i :: 0 <= i < |es| ==>
               states[i].0 == es[i].0
               && states[i].1.cls == Some(Classes.Name(es[i].1.cls))
               && states[i].1.path == StoredPath(es[i].1.path, None)
    ensures Restored(states, None, cwd) == es
    decreases |es|
  {
    if es != [] {
      assert Restored(states, None, cwd) == [es[0]] + Restored(states[1..], None, cwd) by {
        RestoredCons(states, es[0], None, cwd);
      }
      assert Restored(states[1..], None, cwd) == es[1..] by {
        forall i | 0 <= i < |es[1..]|
          ensures states[1..][i].0 == es[1..][i].0
          ensures states[1..][i].1.cls == Some(Classes.Name(es[1..][i].1.cls))
          ensures states[1..][i].1.path == StoredPath(es[1..][i].1.path, None)
        {
          assert states[1..][i] == states[i + 1] && es[1..][i] == es[i + 1];
        }
        RestoredWithoutDir(es[1..], states[1..], cwd);
      }
      assert es == [es[0]] + es[1..];
    }
  }

  // ---------------------------------------------------------------------------
  // The naming example of the project tests

  /** A path that is the longest common prefix of mixed-free inputs is what
      `os.path.commonpath` returns. */
  lemma CommonOfIs(es: Entries, c: Path)
    requires PathsOf(ValuesOf(es)) != [] && !Mixed(PathsOf(ValuesOf(es)))
    requires IsLongestCommonPrefix(c, PathsOf(ValuesOf(es)))
    ensures CommonOf(es) == Some(c)
  {
    var ps := PathsOf(ValuesOf(es));
    LongestCommonPrefixUnique(CommonOf(es).value, c, ps);
  }

  lemma PathsOfCons(h: Handle, hs: seq<Handle>)
    ensures PathsOf([h] + hs) == (if h.path.Some? then [h.path.value] else []) + PathsOf(hs)
  {
    assert ([h] + hs)[1..] == hs;
  }

  function Text(parts: Path): Handle { Handle(TextClass, Some(parts)) }

  const File1: Path := ["/", "usr", "local", "bin", "file1"]
  const File2: Path := ["/", "usr", "local", "bin", "file2"]
  const Source: Path := ["/", "usr", "local", "src", "source.cpp"]
  const HttpConf: Path := ["/", "etc", "http.conf"]

  /** When the derived names are distinct, nothing collapses: the entries
      keep their order under their derived names. */
  lemma DistinctNamesKept(es: Entries, cwd: Path)
    requires IsAbsolute(cwd) && UniqueKeys(NamedItems(es, cwd))
    ensures AssignUniqueNames(es, cwd) == NamedItems(es, cwd)
  {
    PutAllIntoEmpty(NamedItems(es, cwd));
  }

  const Step1: Entries := [("a", Text(File1)), ("b", Text(File2)), ("c", Text(Source)), ("d", Text(HttpConf))]
  const Step2: Entries := [("/usr/local/bin/file1", Text(File1)), ("/usr/local/bin/file2", Text(File2)),
                           ("/usr/local/src/source.cpp", Text(Source))]
  const Step3: Entries := [("bin/file1", Text(File1)), ("bin/file2", Text(File2))]
  const Step4: Entries := [("file1", Text(File1)), ("file2", Handle(TextClass, None))]

  lemma CommonStep1()
    ensures CommonOf(Step1) == Some([Root])
  {
    ValuesStep1();
    PathsStep1();
    OsCommonStep1();
  }

  lemma ValuesStep1()
    ensures ValuesOf(Step1) == [Text(File1), Text(File2), Text(Source), Text(HttpConf)]
  {
  }

  lemma PathsStep1()
    ensures PathsOf([Text(File1), Text(File2), Text(Source), Text(HttpConf)]) == [File1, File2, Source, HttpConf]
  {
    PathsOfFour(Text(File1), Text(File2), Text(Source), Text(HttpConf));
  }

  /** The paths of four pathful handles. */
  lemma PathsOfFour(h1: Handle, h2: Handle, h3: Handle, h4: Handle)
    requires h1.path.Some? && h2.path.Some? && h3.path.Some? && h4.path.Some?
    ensures PathsOf([h1, h2, h3, h4]) == [h1.path.value, h2.path.value, h3.path.value, h4.path.value]
  {
    PathsOfTail(h2, h3, h4);
    assert [h1, h2, h3, h4] == [h1] + [h2, h3, h4];
    PathsOfCons(h1, [h2, h3, h4]);
  }

  /** The paths of three pathful handles. */
  lemma PathsOfTail(h1: Handle, h2: Handle, h3: Handle)
    requires h1.path.Some? && h2.path.Some? && h3.path.Some?
    ensures PathsOf([h1, h2, h3]) == [h1.path.value, h2.path.value, h3.path.value]
  {
    PathsOfCons(h3, []);
    assert [h3] == [h3] + [];
    PathsOfCons(h2, [h3]);
    assert [h1, h2, h3] == [h1] + [h2, h3];
    PathsOfCons(h1, [h2, h3]);
  }

  lemma OsCommonStep1()
    ensures OsCommonPath([File1, File2, Source, HttpConf]) == Some([Root])
  {
    var ps := [File1, File2, Source, HttpConf];
    assert IsAbsolute(ps[0]) && IsAbsolute(ps[1]) && IsAbsolute(ps[2]) && IsAbsolute(ps[3]);
    assert !Mixed(ps);
    assert !AgreeAt(ps, 1) by { assert ps[3][1] != ps[0][1]; }
    assert CommonFrom(ps, 1) == [];
    assert AgreeAt(ps, 0);
    assert CommonFrom(ps, 0) == [Root];
  }

  lemma CommonStep2()
    ensures CommonOf(Step2) == Some(["/", "usr", "local"])
  {
    assert ValuesOf(Step2) == [Text(File1), Text(File2), Text(Source)];
    PathsStep2();
    OsCommonStep2();
  }

  lemma PathsStep2()
    ensures PathsOf([Text(File1), Text(File2), Text(Source)]) == [File1, File2, Source]
  {
    PathsOfTail(Text(File1), Text(File2), Text(Source));
  }

  lemma OsCommonStep2()
    ensures OsCommonPath([File1, File2, Source]) == Some(["/", "usr", "local"])
  {
    var ps := [File1, File2, Source];
    assert IsAbsolute(ps[0]) && IsAbsolute(ps[1]) && IsAbsolute(ps[2]);
    assert !Mixed(ps);
    assert !AgreeAt(ps, 3) by { assert ps[2][3] != ps[0][3]; }
    assert CommonFrom(ps, 3) == [];
    assert AgreeAt(ps, 2);
    assert CommonFrom(ps, 2) == ["local"];
    assert AgreeAt(ps, 1);
    assert CommonFrom(ps, 1) == ["usr", "local"];
    assert AgreeAt(ps, 0);
    assert CommonFrom(ps, 0) == ["/", "usr", "local"];
  }

  lemma CommonStep3()
    ensures CommonOf(Step3) == Some(["/", "usr", "local", "bin"])
  {
    assert ValuesOf(Step3) == [Text(File1), Text(File2)];
    PathsStep3();
    OsCommonStep3();
  }

  lemma PathsStep3()
    ensures PathsOf([Text(File1), Text(File2)]) == [File1, File2]
  {
    PathsOfCons(Text(File2), []);
    assert [Text(File2)] == [Text(File2)] + [];
    PathsOfCons(Text(File1), [Text(File2)]);
  }

  lemma OsCommonStep3()
    ensures OsCommonPath([File1, File2]) == Some(["/", "usr", "local", "bin"])
  {
    var ps := [File1, File2];
    assert IsAbsolute(ps[0]) && IsAbsolute(ps[1]);
    assert !Mixed(ps);
    assert !AgreeAt(ps, 4) by { assert ps[1][4] != ps[0][4]; }
    assert CommonFrom(ps, 4) == [];
    assert AgreeAt(ps, 3);
    assert CommonFrom(ps, 3) == ["bin"];
    assert AgreeAt(ps, 2);
    assert CommonFrom(ps, 2) == ["local", "bin"];
    assert AgreeAt(ps, 1);
    assert CommonFrom(ps, 1) == ["usr", "local", "bin"];
    assert AgreeAt(ps, 0);
    assert CommonFrom(ps, 0) == ["/", "usr", "local", "bin"];
  }

  lemma CommonStep4()
    ensures CommonOf(Step4) == Some(File1)
  {
    assert ValuesOf(Step4) == [Text(File1), Handle(TextClass, None)];
    PathsOfCons(Handle(TextClass, None), []);
    PathsOfCons(Text(File1), [Handle(TextClass, None)]);
    var ps := PathsOf(ValuesOf(Step4));
    assert ps == [File1];
    assert !Mixed(ps);
    assert IsLongestCommonPrefix(File1, ps);
    CommonOfIs(Step4, File1);
  }

  lemma FullPathNames()
    ensures ToString(File1) == "/usr/local/bin/file1"
    ensures ToString(File2) == "/usr/local/bin/file2"
    ensures ToString(Source) == "/usr/local/src/source.cpp"
    ensures ToString(HttpConf) == "/etc/http.conf"
  {
    FullPathFile1();
    FullPathFile2();
    FullPathSource();
    FullPathHttpConf();
  }

  lemma FullPathHttpConf()
    ensures ToString(HttpConf) == "/etc/http.conf"
  {
    assert HttpConf[1..] == ["etc", "http.conf"];
    assert ["etc", "http.conf"][1..] == ["http.conf"];
    assert Strings.Join("/", ["etc", "http.conf"]) == "etc" + "/" + "http.conf";
  }

  lemma FullPathFile1()
    ensures ToString(File1) == "/usr/local/bin/file1"
  {
    FullPathName(File1, "/usr/local/bin/file1");
  }

  lemma FullPathFile2()
    ensures ToString(File2) == "/usr/local/bin/file2"
  {
    FullPathName(File2, "/usr/local/bin/file2");
  }

  lemma FullPathSource()
    ensures ToString(Source) == "/usr/local/src/source.cpp"
  {
    FullPathName(Source, "/usr/local/src/source.cpp");
  }

  lemma FullPathName(p: Path, name: string)
    requires |p| == 5 && p[0] == Root
    requires name == Root + p[1] + "/" + p[2] + "/" + p[3] + "/" + p[4]
    ensures ToString(p) == name
  {
    FourPartName(p[1], p[2], p[3], p[4]);
    assert p == [Root, p[1], p[2], p[3], p[4]];
  }

  lemma FourPartName(a: string, b: string, c: string, d: string)
    ensures ToString([Root, a, b, c, d]) == Root + a + "/" + b + "/" + c + "/" + d
  {
    var p := [Root, a, b, c, d];
    assert IsAbsolute(p) && p[1..] == [a, b, c, d];
    assert [c, d][1..] == [d];
    assert Strings.Join("/", [c, d]) == c + "/" + d;
    assert [b, c, d][1..] == [c, d];
    assert Strings.Join("/", [b, c, d]) == b + "/" + (c + "/" + d);
    assert [a, b, c, d][1..] == [b, c, d];
    assert Strings.Join("/", [a, b, c, d]) == a + "/" + (b + "/" + (c + "/" + d));
  }

  lemma RootNamesStep1(cwd: Path)
    requires IsAbsolute(cwd)
    ensures DerivedName(1, Text(File1), Some([Root]), cwd) == ToString(File1)
    ensures DerivedName(2, Text(File2), Some([Root]), cwd) == ToString(File2)
    ensures DerivedName(3, Text(Source), Some([Root]), cwd) == ToString(Source)
    ensures DerivedName(4, Text(HttpConf), Some([Root]), cwd) == ToString(HttpConf)
  {
    assert Absolute([Root], cwd) == [Root];
  }

  lemma Step1NamesDistinct()
    ensures UniqueKeys([("/usr/local/bin/file1", Text(File1)), ("/usr/local/bin/file2", Text(File2)),
                        ("/usr/local/src/source.cpp", Text(Source)), ("/etc/http.conf", Text(HttpConf))])
  {
    var n: seq<string> := ["/usr/local/bin/file1", "/usr/local/bin/file2", "/usr/local/src/source.cpp", "/etc/http.conf"];
    assert |n[0]| == 20 && |n[1]| == 20 && |n[2]| == 25 && |n[3]| == 14;
    assert n[0][19] != n[1][19];
  }

  /** Step 1: the common path of all four is the root, so every entry is
      named by its full path. */
  lemma NamingExampleRoot(cwd: Path)
    requires IsAbsolute(cwd)
    ensures AssignUniqueNames(Step1, cwd)
            == [("/usr/local/bin/file1", Text(File1)), ("/usr/local/bin/file2", Text(File2)),
                ("/usr/local/src/source.cpp", Text(Source)), ("/etc/http.conf", Text(HttpConf))]
  {
    NamesStep1(cwd);
    Step1NamesDistinct();
    DistinctNamesKept(Step1, cwd);
  }

  lemma NamesStep1(cwd: Path)
    requires IsAbsolute(cwd)
    ensures NamedItems(Step1, cwd)
            == [("/usr/local/bin/file1", Text(File1)), ("/usr/local/bin/file2", Text(File2)),
                ("/usr/local/src/source.cpp", Text(Source)), ("/etc/http.conf", Text(HttpConf))]
  {
    NamesStep1AsPaths(cwd);
    FullPathNames();
  }

  lemma NamesStep1AsPaths(cwd: Path)
    requires IsAbsolute(cwd)
    ensures NamedItems(Step1, cwd)
            == [(ToString(File1), Text(File1)), (ToString(File2), Text(File2)),
                (ToString(Source), Text(Source)), (ToString(HttpConf), Text(HttpConf))]
  {
    var items := NamedItems(Step1, cwd);
    CommonStep1();
    RootNamesStep1(cwd);
    assert items[0] == (ToString(File1), Text(File1));
    assert items[1] == (ToString(File2), Text(File2));
    assert items[2] == (ToString(Source), Text(Source));
    assert items[3] == (ToString(HttpConf), Text(HttpConf));
    SeqOfFour(items, (ToString(File1), Text(File1)), (ToString(File2), Text(File2)),
              (ToString(Source), Text(Source)), (ToString(HttpConf), Text(HttpConf)));
  }

  lemma RelativeNamesStep2(cwd: Path)
    requires IsAbsolute(cwd)
    ensures DerivedName(1, Text(File1), Some(["/", "usr", "local"]), cwd) == "bin/file1"
    ensures DerivedName(2, Text(File2), Some(["/", "usr", "local"]), cwd) == "bin/file2"
    ensures DerivedName(3, Text(Source), Some(["/", "usr", "local"]), cwd) == "src/source.cpp"
  {
    var c: Path := ["/", "usr", "local"];
    RelativeDerivedName(1, c, "bin", "file1", cwd);
    RelativeDerivedName(2, c, "bin", "file2", cwd);
    RelativeDerivedName(3, c, "src", "source.cpp", cwd);
    assert File1 == c + ["bin", "file1"] && File2 == c + ["bin", "file2"] && Source == c + ["src", "source.cpp"];
  }

  /** An entry two parts below a common directory other than the root is
      named by those two parts. */
  lemma RelativeDerivedName(num: nat, c: Path, dir: string, file: string, cwd: Path)
    requires IsAbsolute(cwd) && IsAbsolute(c) && !IsRoot(c) && dir != Root
    ensures DerivedName(num, Text(c + [dir, file]), Some(c), cwd) == dir + "/" + file
  {
    var p := c + [dir, file];
    assert p[0] == c[0] && p[..|c|] == c && p[|c|..] == [dir, file];
    assert RelativeTo(p, c) == Some([dir, file]);
    assert Strings.Join("/", [dir, file]) == dir + "/" + file by {
      assert [dir, file][1..] == [file];
    }
  }

  lemma Step2NamesDistinct()
    ensures UniqueKeys([("bin/file1", Text(File1)), ("bin/file2", Text(File2)), ("src/source.cpp", Text(Source))])
  {
    var n: seq<string> := ["bin/file1", "bin/file2", "src/source.cpp"];
    assert |n[0]| == 9 && |n[1]| == 9 && |n[2]| == 14;
    assert n[0][8] != n[1][8];
  }

  /** Step 2: without the entry under /etc the common path is /usr/local. */
  lemma NamingExampleSubdirectories(cwd: Path)
    requires IsAbsolute(cwd)
    ensures AssignUniqueNames(Step2, cwd)
            == [("bin/file1", Text(File1)), ("bin/file2", Text(File2)), ("src/source.cpp", Text(Source))]
  {
    NamesStep2(cwd);
    Step2NamesDistinct();
    DistinctNamesKept(Step2, cwd);
  }

  lemma NamesStep2(cwd: Path)
    requires IsAbsolute(cwd)
    ensures NamedItems(Step2, cwd)
            == [("bin/file1", Text(File1)), ("bin/file2", Text(File2)), ("src/source.cpp", Text(Source))]
  {
    var items := NamedItems(Step2, cwd);
    CommonStep2();
    RelativeNamesStep2(cwd);
    assert items[0] == ("bin/file1", Text(File1));
    assert items[1] == ("bin/file2", Text(File2));
    assert items[2] == ("src/source.cpp", Text(Source));
    SeqOfThree(items, ("bin/file1", Text(File1)), ("bin/file2", Text(File2)), ("src/source.cpp", Text(Source)));
  }

  /** Step 3: two siblings are named by their file names. */
  lemma NamingExampleSiblings(cwd: Path)
    requires IsAbsolute(cwd)
    ensures AssignUniqueNames(Step3, cwd) == [("file1", Text(File1)), ("file2", Text(File2))]
  {
    NamesStep3(cwd);
    DistinctNamesKept(Step3, cwd);
  }

  lemma NamesStep3(cwd: Path)
    requires IsAbsolute(cwd)
    ensures NamedItems(Step3, cwd) == [("file1", Text(File1)), ("file2", Text(File2))]
  {
    var items := NamedItems(Step3, cwd);
    CommonStep3();
    SiblingNamesStep3(cwd);
    assert items[0] == ("file1", Text(File1));
    assert items[1] == ("file2", Text(File2));
    SeqOfTwo(items, ("file1", Text(File1)), ("file2", Text(File2)));
  }

  lemma SiblingNamesStep3(cwd: Path)
    requires IsAbsolute(cwd)
    ensures DerivedName(1, Text(File1), Some(["/", "usr", "local", "bin"]), cwd) == "file1"
    ensures DerivedName(2, Text(File2), Some(["/", "usr", "local", "bin"]), cwd) == "file2"
  {
    var c: Path := ["/", "usr", "local", "bin"];
    assert Absolute(c, cwd) == c;
    assert File1[..4] == c && File2[..4] == c;
    assert RelativeTo(File1, c) == Some(["file1"]);
    assert RelativeTo(File2, c) == Some(["file2"]);
  }

  lemma SeqOfTwo<T>(s: seq<T>, a: T, b: T)
    requires |s| == 2 && s[0] == a && s[1] == b
    ensures s == [a, b]
  {
  }

  lemma SeqOfThree<T>(s: seq<T>, a: T, b: T, c: T)
    requires |s| == 3 && s[0] == a && s[1] == b && s[2] == c
    ensures s == [a, b, c]
  {
  }

  lemma SeqOfFour<T>(s: seq<T>, a: T, b: T, c: T, d: T)
    requires |s| == 4 && s[0] == a && s[1] == b && s[2] == c && s[3] == d
    ensures s == [a, b, c, d]
  {
  }

  /** Step 4: once the second entry loses its path, the first is the only
      path and is named by its file name, and the second gets the
      placeholder for position 2. */
  lemma NamingExamplePathless(cwd: Path)
    requires IsAbsolute(cwd)
    ensures AssignUniqueNames(Step4, cwd) == [("file1", Text(File1)), ("<unsaved> (2)", Handle(TextClass, None))]
  {
    CommonStep4();
    assert NatToString(2) == "2";
    assert DefaultName(2) == "<unsaved> (2)";
    var items := NamedItems(Step4, cwd);
    assert items[0].0 == "file1";
    assert items[1].0 == "<unsaved> (2)";
    DistinctNamesKept(Step4, cwd);
  }
}

=== FILE: registry.dfy ===
/** The registry of entry classes, sorted by score, and `Entry.guess_type`,
    which picks the accepting class of highest score. */
module Registry {
  import opened Wrappers
  import opened Paths
  import opened Oracles
  import opened Hints
  import opened Classes
  import opened Sniffing
  import opened Sorting

  /** `Entry._subclasses` is a set: its iteration order is some permutation
      of the registered classes, which the model takes as a parameter. */
  predicate IsRegistryOrder(order: seq<Class>) {
    multiset(order) == multiset(AllClasses)
  }

  /** `Entry.subclasses()`: the registered classes sorted by score. */
  function Subclasses(order: seq<Class>): (r: seq<Class>)
    ensures SortedBy(r, Score)
    ensures multiset(r) == multiset(order)
  {
    SortBy(order, Score)
  }

  /** Classes of equal score are listed in registry order. */
  lemma SubclassesStable(order: seq<Class>, k: int)
    ensures WithKey(Subclasses(order), Score, k) == WithKey(order, Score, k)
  {
    SortByStable(order, Score, k);
  }

  lemma SameMembers(order: seq<Class>)
    ensures forall c :: c in Subclasses(order) <==> c in order
  {
    forall c ensures c in Subclasses(order) <==> c in order {
      assert c in Subclasses(order) <==> c in multiset(Subclasses(order));
      assert c in order <==> c in multiset(order);
    }
  }

  // ---------------------------------------------------------------------------
  // guess_type

  /** The loop of `guess_type` from the state (`highest_score`, `best_subcls`):
      a class replaces the best one only with a strictly higher score. */
  function Select(accepts: Class -> bool, cs: seq<Class>, highest: int, best: Option<Class>): Option<Class>
    decreases |cs|
  {
    if cs == [] then best
    else if Score(cs[0]) > highest && accepts(cs[0]) then
      Select(accepts, cs[1..], Score(cs[0]), Some(cs[0]))
    else
      Select(accepts, cs[1..], highest, best)
  }

  /** Reference definition: `cs[i]` accepts with a score above `floor`, no
      accepting class scores higher, and every accepting class before it
      scores strictly lower. */
  ghost predicate IsBestAbove(accepts: Class -> bool, cs: seq<Class>, i: int, floor: int) {
    && 0 <= i < |cs|
    && accepts(cs[i])
    && Score(cs[i]) > floor
    && (forall j :: 0 <= j < |cs| && accepts(cs[j]) ==> Score(cs[j]) <= Score(cs[i]))
    && (forall j :: 0 <= j < i && accepts(cs[j]) ==> Score(cs[j]) < Score(cs[i]))
  }

  ghost predicate SomeAcceptsAbove(accepts: Class -> bool, cs: seq<Class>, floor: int) {
    exists j :: 0 <= j < |cs| && accepts(cs[j]) && Score(cs[j]) > floor
  }

  /** The loop finds the best class above the running score, or keeps the
      running best when no accepting class beats it. */
  lemma {:induction false} SelectFindsBest(accepts: Class -> bool, cs: seq<Class>, highest: int, best: Option<Class>)
    ensures !SomeAcceptsAbove(accepts, cs, highest) ==> Select(accepts, cs, highest, best) == best
    ensures SomeAcceptsAbove(accepts, cs, highest) ==>
              exists i :: IsBestAbove(accepts, cs, i, highest) && Select(accepts, cs, highest, best) == Some(cs[i])
    decreases |cs|
  {
    if cs != [] {
      var c := cs[0];
      var tail := cs[1..];
      if Score(c) > highest && accepts(c) {
        SelectFindsBest(accepts, tail, Score(c), Some(c));
        if SomeAcceptsAbove(accepts, tail, Score(c)) {
          var k :| IsBestAbove(accepts, tail, k, Score(c)) && Select(accepts, tail, Score(c), Some(c)) == Some(tail[k]);
          LiftBest(accepts, cs, k, highest);
        } else {
          assert IsBestAbove(accepts, cs, 0, highest) by {
            forall j | 0 <= j < |cs| && accepts(cs[j]) ensures Score(cs[j]) <= Score(c) {
              if j > 0 { assert cs[j] == tail[j - 1]; }
            }
          }
        }
      } else {
        SelectFindsBest(accepts, tail, highest, best);
        if SomeAcceptsAbove(accepts, cs, highest) {
          var j0 :| 0 <= j0 < |cs| && accepts(cs[j0]) && Score(cs[j0]) > highest;
          assert j0 > 0 && tail[j0 - 1] == cs[j0];
          var k :| IsBestAbove(accepts, tail, k, highest) && Select(accepts, tail, highest, best) == Some(tail[k]);
          LiftBest(accepts, cs, k, highest);
        } else {
          assert !SomeAcceptsAbove(accepts, tail, highest) by {
            forall j | 0 <= j < |tail| && accepts(tail[j]) ensures Score(tail[j]) <= highest {
              assert tail[j] == cs[j + 1];
            }
          }
        }
      }
    }
  }

  /** A best class of the tail is best in the whole list when the head does
      not accept with a score at least as high. */
  lemma LiftBest(accepts: Class -> bool, cs: seq<Class>, k: int, highest: int)
    requires cs != []
    requires IsBestAbove(accepts, cs[1..], k, if Score(cs[0]) > highest && accepts(cs[0]) then Score(cs[0]) else highest)
    ensures IsBestAbove(accepts, cs, k + 1, highest)
  {
    var tail := cs[1..];
    assert cs[k + 1] == tail[k];
    forall j | 0 <= j < |cs| && accepts(cs[j]) ensures Score(cs[j]) <= Score(cs[k + 1]) {
      if j > 0 { assert cs[j] == tail[j - 1]; }
    }
    forall j | 0 <= j < k + 1 && accepts(cs[j]) ensures Score(cs[j]) < Score(cs[k + 1]) {
      if j > 0 { assert cs[j] == tail[j - 1]; }
    }
  }

  /** The hint `guess_type` works from: the given one, else the file's. */
  function ResolvedHint(fs: FileSystem, path: Option<Path>, hint: Option<Hint>): Option<Hint> {
    if hint.Some? then hint else GetHint(fs, path)
  }

  /** `subcls.is_type(path=path, hint=hint)` for the resolved hint. */
  function Accepting(o: Oracles, h: Hint): Class -> bool {
    c => IsType(o, c, Some(h))
  }

  /** `Entry.guess_type(path, hint)`: None without a hint; otherwise the
      loop over the sorted classes starting from the base score. */
  function GuessType(o: Oracles, fs: FileSystem, path: Option<Path>, hint: Option<Hint>, order: seq<Class>)
    : Option<Class>
  {
    var h := ResolvedHint(fs, path, hint);
    if h.None? then None else Select(Accepting(o, h.value), Subclasses(order), EntryScore, None)
  }

  /** The loop run from the base score over classes that all score above it
      finds nothing exactly when no class accepts, and otherwise the best. */
  lemma SelectFromBase(accepts: Class -> bool, cs: seq<Class>)
    ensures Select(accepts, cs, EntryScore, None).None? <==> forall c :: c in cs ==> !accepts(c)
    ensures Select(accepts, cs, EntryScore, None).Some? ==>
              exists i :: IsBestAbove(accepts, cs, i, EntryScore) && Select(accepts, cs, EntryScore, None) == Some(cs[i])
  {
    SelectFindsBest(accepts, cs, EntryScore, None);
    ScoreTable();
    if exists c :: c in cs && accepts(c) {
      var c :| c in cs && accepts(c);
      var j :| 0 <= j < |cs| && cs[j] == c;
      assert SomeAcceptsAbove(accepts, cs, EntryScore);
    }
  }

  /** The arg-max specification: there is no guess exactly when no hint can
      be read or no registered class accepts it; otherwise the guess accepts
      the hint, scores above the base, is not outscored by an accepting class,
      and comes first in sorted order among accepting classes of its score. */
  lemma GuessTypeIsBest(o: Oracles, fs: FileSystem, path: Option<Path>, hint: Option<Hint>, order: seq<Class>)
    ensures var h := ResolvedHint(fs, path, hint);
            GuessType(o, fs, path, hint, order).None? <==>
              h.None? || forall c :: c in order ==> !IsType(o, c, h)
    ensures var h := ResolvedHint(fs, path, hint);
            GuessType(o, fs, path, hint, order).Some? ==>
              exists i :: IsBestAbove(Accepting(o, h.value), Subclasses(order), i, EntryScore)
                       && GuessType(o, fs, path, hint, order) == Some(Subclasses(order)[i])
  {
    var h := ResolvedHint(fs, path, hint);
    if h.Some? {
      var accepts := Accepting(o, h.value);
      var cs := Subclasses(order);
      SelectFromBase(accepts, cs);
      SameMembers(order);
      assert forall c :: accepts(c) == IsType(o, c, h);
    }
  }

  /** `guess_type` returns None when no hint can be obtained. */
  lemma GuessTypeWithoutHint(o: Oracles, fs: FileSystem, path: Option<Path>, order: seq<Class>)
    requires path.None? || path.value !in fs
    ensures GuessType(o, fs, path, None, order) == None
  {
  }

  /** Either the text or the binary class accepts every hint, so whenever a
      hint can be read some class is guessed. */
  lemma GuessTypeWithHint(o: Oracles, fs: FileSystem, path: Option<Path>, hint: Option<Hint>, order: seq<Class>)
    requires IsRegistryOrder(order)
    requires ResolvedHint(fs, path, hint).Some?
    ensures GuessType(o, fs, path, hint, order).Some?
  {
    var h := ResolvedHint(fs, path, hint);
    BinaryNegatesText(h);
    assert TextClass in multiset(order) && BinaryClass in multiset(order) by {
      assert AllClasses[0] == TextClass && AllClasses[1] == BinaryClass;
    }
    var c := if TextIsType(h) then TextClass else BinaryClass;
    assert c in order && IsType(o, c, h);
    GuessTypeIsBest(o, fs, path, hint, order);
  }

  /** The project class, alone at the top score, wins whenever it accepts. */
  lemma SelectProject(accepts: Class -> bool, cs: seq<Class>)
    requires ProjectClass in cs && accepts(ProjectClass)
    ensures Select(accepts, cs, EntryScore, None) == Some(ProjectClass)
  {
    SelectFromBase(accepts, cs);
    var i :| IsBestAbove(accepts, cs, i, EntryScore) && Select(accepts, cs, EntryScore, None) == Some(cs[i]);
    var p :| 0 <= p < |cs| && cs[p] == ProjectClass;
    ScoreTable();
    assert Score(cs[i]) >= 20;
    match cs[i]
    case ProjectClass =>
    case TextClass =>
    case BinaryClass =>
    case CsvClass =>
    case YamlClass =>
  }

  /** A project file is guessed as a project: its score of 20 is the unique
      maximum. */
  lemma GuessTypeProject(o: Oracles, fs: FileSystem, path: Option<Path>, hint: Option<Hint>, order: seq<Class>)
    requires IsRegistryOrder(order)
    requires ProjectIsType(ResolvedHint(fs, path, hint))
    ensures GuessType(o, fs, path, hint, order) == Some(ProjectClass)
  {
    var rh := ResolvedHint(fs, path, hint);
    assert rh.Some?;
    var h := rh.value;
    assert ProjectClass in order by {
      assert ProjectClass in multiset(order) by { assert AllClasses[4] == ProjectClass; }
    }
    SameMembers(order);
    var accepts := Accepting(o, h);
    AcceptingProject(o, h);
    SelectProject(accepts, Subclasses(order));
    assert GuessType(o, fs, path, hint, order) == Select(accepts, Subclasses(order), EntryScore, None);
  }

  lemma AcceptingProject(o: Oracles, h: Hint)
    ensures Accepting(o, h)(ProjectClass) == ProjectIsType(Some(h))
  {
  }

  /** A hint that is not UTF-8 can only be binary. */
  lemma GuessTypeUndecodable(o: Oracles, fs: FileSystem, path: Option<Path>, hint: Option<Hint>, order: seq<Class>)
    requires IsRegistryOrder(order)
    requires ResolvedHint(fs, path, hint).Some?
    requires !Utf8.Valid(ResolvedHint(fs, path, hint).value.bytes)
    ensures GuessType(o, fs, path, hint, order) == Some(BinaryClass)
  {
    var h := ResolvedHint(fs, path, hint);
    BinaryNegatesText(h);
    CsvRejectsUndecodable(o, h);
    YamlIsTypeCases(o, h);
    ProjectRejectsUndecodable(h);
    var accepts := Accepting(o, h.value);
    assert forall c :: accepts(c) ==> c == BinaryClass;
    GuessTypeWithHint(o, fs, path, hint, order);
    GuessTypeIsBest(o, fs, path, hint, order);
    var cs := Subclasses(order);
    var i :| IsBestAbove(accepts, cs, i, EntryScore) && GuessType(o, fs, path, hint, order) == Some(cs[i]);
  }

  /** Among accepting classes of equal score the first one in the registry's
      iteration order wins: when the CSV and YAML classes both accept and the
      project class does not, swapping them in the registry swaps the guess. */
  lemma TieBrokenByRegistryOrder(accepts: Class -> bool)
    requires accepts(CsvClass) && accepts(YamlClass) && !accepts(ProjectClass)
    ensures Select(accepts, Subclasses([TextClass, BinaryClass, CsvClass, YamlClass, ProjectClass]), EntryScore, None)
            == Some(CsvClass)
    ensures Select(accepts, Subclasses([TextClass, BinaryClass, YamlClass, CsvClass, ProjectClass]), EntryScore, None)
            == Some(YamlClass)
  {
    ScoreTable();
    SortedFive(TextClass, BinaryClass, CsvClass, YamlClass);
    FirstOfTopScoreWins(accepts, TextClass, BinaryClass, CsvClass, YamlClass);
    SortedFive(TextClass, BinaryClass, YamlClass, CsvClass);
    FirstOfTopScoreWins(accepts, TextClass, BinaryClass, YamlClass, CsvClass);
  }

  /** With the project class rejecting, the first of the two accepting
      classes of score 10 is selected. */
  lemma FirstOfTopScoreWins(accepts: Class -> bool, a: Class, b: Class, c: Class, d: Class)
    requires Score(a) == 5 && Score(b) == 5 && Score(c) == 10 && Score(d) == 10
    requires accepts(c) && accepts(d) && !accepts(ProjectClass)
    ensures Select(accepts, [a, b, c, d, ProjectClass], EntryScore, None) == Some(c)
  {
    var cs := [a, b, c, d, ProjectClass];
    SelectFromBase(accepts, cs);
    assert cs[2] == c;
    var i :| IsBestAbove(accepts, cs, i, EntryScore) && Select(accepts, cs, EntryScore, None) == Some(cs[i]);
    assert Score(cs[i]) >= Score(cs[2]);
    assert i == 2;
  }

  /** Five classes already in score order are their own sorting. */
  lemma SortedFive(a: Class, b: Class, c: Class, d: Class)
    requires Score(a) == 5 && Score(b) == 5 && Score(c) == 10 && Score(d) == 10
    ensures Subclasses([a, b, c, d, ProjectClass]) == [a, b, c, d, ProjectClass]
  {
    var s := [a, b, c, d, ProjectClass];
    ScoreTable();
    assert SortedBy(s, Score);
    SortedIsFixed(s, Score);
  }
}

=== FILE: sniffing.dfy ===
/** `is_type` of each entry class: whether a hint looks like a file of that
    class. */
module Sniffing {
  import opened Wrappers
  import opened Utf8
  import opened Strings
  import opened Values
  import opened Oracles
  import opened Hints
  import opened Classes

  // ---------------------------------------------------------------------------
  // TextEntry and BinaryEntry

  /** `TextEntry.is_type`: a hint exists and decodes to a non-empty string. */
  predicate TextIsType(h: Option<Hint>) {
    h.Some? && Utf8Of(h.value).Some? && Utf8Of(h.value).value != ""
  }

  /** `BinaryEntry.is_type`: "False if hint and hint.utf_8 else True". */
  predicate BinaryIsType(h: Option<Hint>) {
    if h.Some? && Utf8Of(h.value).Some? && Utf8Of(h.value).value != "" then false else true
  }

  /** Text files are the hints holding valid, non-empty UTF-8; so an empty
      file is not text. */
  lemma TextIsTypeIff(h: Option<Hint>)
    ensures TextIsType(h) <==> h.Some? && Valid(h.value.bytes) && h.value.bytes != []
  {
  }

  /** The binary test is the exact negation of the text test: it accepts a
      missing hint, an undecodable hint and an empty hint. */
  lemma BinaryNegatesText(h: Option<Hint>)
    ensures BinaryIsType(h) <==> !TextIsType(h)
    ensures BinaryIsType(h) <==> h.None? || !Valid(h.value.bytes) || h.value.bytes == []
  {
    TextIsTypeIff(h);
  }

  /** A source file in ASCII is text; the start of an executable (the ELF
      magic followed by a byte that cannot start a UTF-8 sequence) is not. */
  lemma TextExamples()
    ensures TextIsType(Some(Hint([0x69, 0x6D, 0x70, 0x6F, 0x72, 0x74, 0x0A])))   // "import\n"
    ensures !TextIsType(Some(Hint([0x7F, 0x45, 0x4C, 0x46, 0x80])))
    ensures !TextIsType(Some(Hint([])))
  {
    var ok: seq<byte> := [0x69, 0x6D, 0x70, 0x6F, 0x72, 0x74, 0x0A];
    assert ok == Encode("import\n");
    DecodeEncode("import\n");
    var bad: seq<byte> := [0x7F, 0x45, 0x4C, 0x46, 0x80];
    assert DecodeFirst(bad[4..]) == None;
    assert Decode(bad[4..]) == None;
    assert bad[3..][1..] == bad[4..];
    assert Decode(bad[3..]) == None;
    assert bad[2..][1..] == bad[3..];
    assert Decode(bad[2..]) == None;
    assert bad[1..][1..] == bad[2..];
    assert Decode(bad[1..]) == None;
    assert Decode(bad) == None;
  }

  // ---------------------------------------------------------------------------
  // CsvEntry

  /** `CsvEntry.get_dialect`: `NotImplementedError` without a decodable hint,
      the sniffer's `csv.Error` when it finds no dialect. */
  function GetDialect(o: Oracles, h: Option<Hint>): (r: Result<()>)
    ensures h.None? || Utf8Of(h.value).None? ==> r == Failure(NotImplemented)
    ensures r.Success? <==> h.Some? && Utf8Of(h.value).Some? && o.sniff(Utf8Of(h.value).value)
  {
    if h.Some? && Utf8Of(h.value).Some? then
      if o.sniff(Utf8Of(h.value).value) then Success(()) else Failure(CsvError)
    else Failure(NotImplemented)
  }

  /** `CsvEntry.is_type`: a dialect was found; every exception means false. */
  predicate CsvIsType(o: Oracles, h: Option<Hint>) {
    GetDialect(o, h).Success?
  }

  /** Without a hint, or with one that is not UTF-8, a file is never CSV,
      whatever the sniffer would say. */
  lemma CsvRejectsUndecodable(o: Oracles, h: Option<Hint>)
    requires h.None? || !Valid(h.value.bytes)
    ensures !CsvIsType(o, h)
  {
  }

  // ---------------------------------------------------------------------------
  // YamlEntry

  /** The parse results accepted as YAML: a mapping, a list or tuple, or an
      entry object. */
  predicate AcceptedDocument(l: Loaded) {
    || (l.Document? && (l.doc.Mapping? || l.doc.Sequence?))
    || l.EntryDocument?
  }

  /** `YamlEntry.is_type`: the decoded hint without its last (possibly cut)
      line must parse to a collection. */
  predicate YamlIsType(o: Oracles, h: Option<Hint>) {
    match h
    case None => false
    case Some(hint) =>
      match Utf8Of(hint)
      case None => false
      case Some(text) =>
        var block := DropLastLine(text);
        match o.yamlLoad(block)
        case Unparsable => false
        case Document(doc) => doc.Mapping? || doc.Sequence?
        case EntryDocument => true
  }

  /** Without a decodable hint a file is never YAML; a parse exception or a
      scalar document also rejects it. */
  lemma YamlIsTypeCases(o: Oracles, h: Option<Hint>)
    ensures h.None? || !Valid(h.value.bytes) ==> !YamlIsType(o, h)
    ensures h.Some? && Valid(h.value.bytes) ==>
              (YamlIsType(o, h) <==> AcceptedDocument(o.yamlLoad(DropLastLine(Utf8Of(h.value).value))))
  {
  }

  /** Only complete lines are parsed: two hints that differ only in their
      last, unterminated line are classified alike. This is what keeps a
      line cut off at the hint size from spoiling the parse. */
  lemma YamlIgnoresLastLine(o: Oracles, lines: string, last1: string, last2: string)
    requires lines == [] || IsLineBreak(lines[|lines| - 1])
    requires last1 != [] && NoLineBreak(last1)
    requires last2 != [] && NoLineBreak(last2)
    ensures YamlIsType(o, Some(Hint(Encode(lines + last1))))
        == YamlIsType(o, Some(Hint(Encode(lines + last2))))
  {
    DecodeEncode(lines + last1);
    DecodeEncode(lines + last2);
    DropLastLineAfterBreak(lines, last1);
    DropLastLineAfterBreak(lines, last2);
  }

  // ---------------------------------------------------------------------------
  // Project

  /** `text[k:]` from the first "\n" on (empty when there is none). */
  function FromLinefeed(s: string): (r: string)
    ensures |r| <= |s| && r == s[|s| - |r|..]
    ensures '\n' !in s[..|s| - |r|]
    ensures r == [] || r[0] == '\n'
    decreases |s|
  {
    if s == [] || s[0] == '\n' then s
    else
      var r := FromLinefeed(s[1..]);
      assert s[..|s| - |r|] == [s[0]] + s[1..][..|s[1..]| - |r|];
      r
  }

  /** `re.sub(r"#.*", "", text)`: every "#" and the rest of its line (up to,
      not including, the next "\n") removed. */
  function RemoveComments(s: string): (r: string)
    ensures '#' !in r
    ensures '#' !in s ==> r == s
    ensures forall c :: c in r ==> c in s
    decreases |s|
  {
    if s == [] then []
    else if s[0] == '#' then RemoveComments(FromLinefeed(s))
    else
      assert forall k :: 0 <= k < |s| - 1 ==> s[1..][k] == s[k + 1];
      [s[0]] + RemoveComments(s[1..])
  }

  /** Text without "#" is kept as it is, and removal goes on after it. */
  lemma {:induction false} RemoveCommentsPlain(a: string, b: string)
    requires '#' !in a
    ensures RemoveComments(a + b) == a + RemoveComments(b)
    decreases |a|
  {
    if a == [] {
      assert a + b == b;
    } else {
      var x, t := a + b, a[1..];
      assert a[0] in a && a == [a[0]] + t;
      assert x[0] == a[0] && x[1..] == t + b;
      RemoveCommentsCons(x);
      RemoveCommentsPlain(t, b);
      Associative([a[0]], t, RemoveComments(b));
    }
  }

  lemma RemoveCommentsCons(x: string)
    requires x != [] && x[0] != '#'
    ensures RemoveComments(x) == [x[0]] + RemoveComments(x[1..])
  {
  }

  /** A comment is dropped up to, not including, the next line break. */
  lemma {:induction false} CommentSkipped(c: string, u: string)
    requires '\n' !in c && (u == [] || u[0] == '\n')
    ensures RemoveComments("#" + c + u) == RemoveComments(u)
  {
    var t := "#" + c + u;
    assert t[0] == '#' && t[1..] == c + u;
    FromLinefeedSkips(c, u);
  }

  /** A comment runs from its "#" to the end of its line: the line break and
      the lines after it stay. */
  lemma {:induction false} CommentRunsToLineEnd(a: string, c: string, b: string)
    requires '#' !in a && '\n' !in c
    ensures RemoveComments(a + "#" + c + "\n" + b) == a + "\n" + RemoveComments(b)
  {
    var u := "\n" + b;
    var t := "#" + c + u;
    assert a + "#" + c + "\n" + b == a + t;
    RemoveCommentsPlain(a, t);
    CommentSkipped(c, u);
    RemoveCommentsCons(u);
    assert u[1..] == b;
    Associative(a, "\n", RemoveComments(b));
  }

  /** A comment on the last line takes the rest of the text. */
  lemma {:induction false} CommentOnLastLine(a: string, c: string)
    requires '#' !in a && '\n' !in c
    ensures RemoveComments(a + "#" + c) == a
  {
    var v := "#" + c;
    Associative(a, "#", c);
    RemoveCommentsPlain(a, v);
    assert v + [] == v;
    CommentSkipped(c, []);
    assert RemoveComments([]) == [];
    assert a + [] == a;
  }

  const ProjectTag: string := "!Project\n"

  /** The match `re.match(r"!Project\n\s*(meta|entries):", stripped)`. */
  predicate MatchesProjectHeader(s: string) {
    StartsWith(s, ProjectTag)
    && var rest := StripStart(s[|ProjectTag|..]);
       StartsWith(rest, "meta:") || StartsWith(rest, "entries:")
  }

  /** `Project.is_type`: the decoded hint, comments removed and whitespace
      stripped, starts with the `!Project` tag line and a `meta:` or
      `entries:` key. */
  predicate ProjectIsType(h: Option<Hint>) {
    match h
    case None => false
    case Some(hint) =>
      match Utf8Of(hint)
      case None => false
      case Some(text) => MatchesProjectHeader(Strip(RemoveComments(text)))
  }

  /** Reference definition of the header pattern as a decomposition. */
  ghost predicate HeaderDecomposes(s: string) {
    exists ws: string, rest: string ::
      AllSpace(ws) && (s == ProjectTag + ws + "meta:" + rest || s == ProjectTag + ws + "entries:" + rest)
  }

  /** The matcher accepts exactly the strings made of the tag line, any
      whitespace, a key and a colon, then anything. */
  lemma MatchesProjectHeaderIff(s: string)
    ensures MatchesProjectHeader(s) <==> HeaderDecomposes(s)
  {
    if MatchesProjectHeader(s) {
      MatchImpliesDecomposes(s);
    }
    if HeaderDecomposes(s) {
      var ws: string, rest: string :|
        AllSpace(ws) && (s == ProjectTag + ws + "meta:" + rest || s == ProjectTag + ws + "entries:" + rest);
      if s == ProjectTag + ws + "meta:" + rest {
        DecomposedMatches(s, ws, "meta:", rest);
      } else {
        DecomposedMatches(s, ws, "entries:", rest);
      }
    }
  }

  lemma MatchImpliesDecomposes(s: string)
    requires MatchesProjectHeader(s)
    ensures HeaderDecomposes(s)
  {
    var after := s[|ProjectTag|..];
    assert s == ProjectTag + after;
    var rest := StripStart(after);
    var ws := SpacePrefix(after);
    var key := if StartsWith(rest, "meta:") then "meta:" else "entries:";
    var tail := rest[|key|..];
    assert rest == key + tail;
    Reassociate(s, ws, key, tail);
  }

  /** The whitespace `StripStart` removes. */
  function SpacePrefix(s: string): (ws: string)
    ensures AllSpace(ws) && s == ws + StripStart(s)
  {
    var r := StripStart(s);
    SpacesBefore(s, |s| - |r|);
    s[..|s| - |r|]
  }

  lemma Reassociate(s: string, ws: string, key: string, tail: string)
    requires AllSpace(ws)
    requires key == "meta:" || key == "entries:"
    requires s == ProjectTag + (ws + (key + tail))
    ensures HeaderDecomposes(s)
  {
    assert s == ProjectTag + ws + key + tail;
  }

  lemma DecomposedMatches(s: string, ws: string, key: string, rest: string)
    requires AllSpace(ws)
    requires key == "meta:" || key == "entries:"
    requires s == ProjectTag + ws + key + rest
    ensures MatchesProjectHeader(s)
  {
    assert s == ProjectTag + (ws + (key + rest));
    assert StartsWith(s, ProjectTag);
    assert s[|ProjectTag|..] == ws + (key + rest);
    StripStartOfSpaces(ws, key + rest);
    assert (key + rest)[..|key|] == key;
  }

  /** A hint that is missing or not UTF-8 is never a project file. */
  lemma ProjectRejectsUndecodable(h: Option<Hint>)
    requires h.None? || !Valid(h.value.bytes)
    ensures !ProjectIsType(h)
  {
  }

  /** A project file whose first line is a comment is still recognised. */
  lemma ProjectFileAfterComment(comment: string, ws: string, rest: string)
    requires '\n' !in comment
    requires AllSpace(ws)
    requires '#' !in rest
    requires rest == [] || !IsSpace(rest[|rest| - 1])
    ensures ProjectIsType(Some(Hint(Encode("#" + comment + "\n" + ProjectTag + ws + "meta:" + rest))))
  {
    var body := "\n" + ProjectTag + ws + "meta:" + rest;
    var text := "#" + comment + "\n" + ProjectTag + ws + "meta:" + rest;
    CommentedHeader(comment, ws, rest);
    HeaderHasNoComment(ws, rest);
    CommentLineRemoved(comment, body);
    HeaderRecognised(ws, rest);
    ProjectIsTypeOfText(text);
  }

  lemma CommentedHeader(comment: string, ws: string, rest: string)
    ensures "#" + comment + "\n" + ProjectTag + ws + "meta:" + rest
         == "#" + comment + ("\n" + ProjectTag + ws + "meta:" + rest)
  {
  }

  lemma HeaderRecognised(ws: string, rest: string)
    requires AllSpace(ws)
    requires rest == [] || !IsSpace(rest[|rest| - 1])
    ensures MatchesProjectHeader(Strip("\n" + ProjectTag + ws + "meta:" + rest))
  {
    var header := ProjectTag + ws + "meta:" + rest;
    assert "\n" + ProjectTag + ws + "meta:" + rest == "\n" + header;
    assert header[|header| - 1] == if rest == [] then ':' else rest[|rest| - 1];
    StripAfterLinefeed(header);
    DecomposedMatches(header, ws, "meta:", rest);
  }

  /** On the encoding of a text, the project test is the header match. */
  lemma ProjectIsTypeOfText(text: string)
    ensures ProjectIsType(Some(Hint(Encode(text)))) == MatchesProjectHeader(Strip(RemoveComments(text)))
  {
    DecodeEncode(text);
  }

  lemma HeaderHasNoComment(ws: string, rest: string)
    requires AllSpace(ws)
    requires '#' !in rest
    ensures '#' !in ProjectTag + ws + "meta:" + rest
  {
    assert !IsSpace('#');
  }

  lemma CommentLineRemoved(comment: string, body: string)
    requires '\n' !in comment
    requires body == [] || body[0] == '\n'
    requires '#' !in body
    ensures RemoveComments("#" + comment + body) == body
  {
    var text := "#" + comment + body;
    assert text == ("#" + comment) + body;
    FromLinefeedSkips("#" + comment, body);
  }

  lemma StripAfterLinefeed(t: string)
    requires t != [] && !IsSpace(t[0]) && !IsSpace(t[|t| - 1])
    ensures Strip("\n" + t) == t
  {
    assert ("\n" + t)[1..] == t;
    assert StripStart("\n" + t) == t;
  }

  /** Text without a "!" can never carry the project tag. */
  lemma NoTagNoProject(text: string)
    requires '!' !in text
    ensures !MatchesProjectHeader(Strip(RemoveComments(text)))
  {
    var r := RemoveComments(text);
    assert '!' !in r;
    StripKeepsCharacters(r);
    var st := Strip(r);
    assert '!' !in st;
    assert ProjectTag[0] == '!';
  }

  lemma StripKeepsCharacters(s: string)
    ensures forall c :: c in Strip(s) ==> c in s
  {
    var i, j :| 0 <= i <= j <= |s| && Strip(s) == s[i..j];
  }

  /** Skipping to the next linefeed over a line without one. */
  lemma {:induction false} FromLinefeedSkips(a: string, b: string)
    requires '\n' !in a
    requires b == [] || b[0] == '\n'
    ensures FromLinefeed(a + b) == b
    decreases |a|
  {
    if a != [] {
      assert (a + b)[1..] == a[1..] + b;
      FromLinefeedSkips(a[1..], b);
    }
  }

  // ---------------------------------------------------------------------------
  // Dispatch

  /** `cls.is_type(path, hint)` for each registered class, once the hint has
      been obtained. */
  predicate IsType(o: Oracles, c: Class, h: Option<Hint>) {
    match c
    case TextClass => TextIsType(h)
    case BinaryClass => BinaryIsType(h)
    case CsvClass => CsvIsType(o, h)
    case YamlClass => YamlIsType(o, h)
    case ProjectClass => ProjectIsType(h)
  }

  /** `cls.is_type(path)` without a hint: each class reads the hint itself. */
  predicate IsTypeAt(o: Oracles, fs: FileSystem, c: Class, path: Option<Paths.Path>, hint: Option<Hint>) {
    IsType(o, c, if hint.Some? then hint else GetHint(fs, path))
  }
}

=== FILE: sorting.dfy ===
/** A stable sort by an integer key, as Python's `sorted(xs, key=...)`
    performs it: insertion of each element after all elements whose key does
    not exceed its own. */
module Sorting {

  predicate SortedBy<T>(s: seq<T>, key: T -> int) {
    forall i, j :: 0 <= i < j < |s| ==> key(s[i]) <= key(s[j])
  }

  /** The elements of `s` whose key is `k`, in the order of `s`. */
  function WithKey<T>(s: seq<T>, key: T -> int, k: int): seq<T> {
    if s == [] then []
    else (if key(s[0]) == k then [s[0]] else []) + WithKey(s[1..], key, k)
  }

  lemma {:induction false} WithKeyConcat<T>(a: seq<T>, b: seq<T>, key: T -> int, k: int)
    ensures WithKey(a + b, key, k) == WithKey(a, key, k) + WithKey(b, key, k)
  {
    if a == [] {
      assert a + b == b;
    } else {
      var hd := if key(a[0]) == k then [a[0]] else [];
      assert (a + b)[0] == a[0];
      assert (a + b)[1..] == a[1..] + b;
      assert WithKey(a + b, key, k) == hd + WithKey(a[1..] + b, key, k);
      WithKeyConcat(a[1..], b, key, k);
      assert WithKey(a, key, k) == hd + WithKey(a[1..], key, k);
    }
  }

  lemma PrependSorted<T>(c: T, t: seq<T>, key: T -> int)
    requires SortedBy(t, key)
    requires forall d :: d in t ==> key(c) <= key(d)
    ensures SortedBy([c] + t, key)
  {
    var r := [c] + t;
    forall i, j | 0 <= i < j < |r| ensures key(r[i]) <= key(r[j]) {
      assert r[j] == t[j - 1];
      if i > 0 { assert r[i] == t[i - 1]; assert key(t[i - 1]) <= key(t[j - 1]); } else { assert t[j - 1] in t; }
    }
  }

  lemma InsertLowerBound<T>(s: seq<T>, x: T, t: seq<T>, key: T -> int)
    requires s != [] && SortedBy(s, key) && key(s[0]) <= key(x)
    requires multiset(t) == multiset(s[1..]) + multiset{x}
    ensures forall d :: d in t ==> key(s[0]) <= key(d)
  {
    forall d | d in t ensures key(s[0]) <= key(d) {
      assert d in multiset(t);
      if d != x {
        assert d in multiset(s[1..]);
        var j :| 0 <= j < |s[1..]| && s[1..][j] == d;
        assert s[j + 1] == d;
      }
    }
  }

  /** Insert `x` into sorted `s` after every element whose key does not
      exceed its own. */
  function Insert<T>(s: seq<T>, x: T, key: T -> int): (r: seq<T>)
    requires SortedBy(s, key)
    ensures SortedBy(r, key)
    ensures multiset(r) == multiset(s) + multiset{x}
  {
    if s == [] then [x]
    else if key(s[0]) <= key(x) then
      var t := Insert(s[1..], x, key);
      assert s == [s[0]] + s[1..];
      InsertLowerBound(s, x, t, key);
      PrependSorted(s[0], t, key);
      [s[0]] + t
    else
      assert forall d :: d in s ==> key(x) <= key(d) by {
        forall d | d in s ensures key(x) <= key(d) {
          var j :| 0 <= j < |s| && s[j] == d;
          assert j == 0 || key(s[0]) <= key(s[j]);
        }
      }
      PrependSorted(x, s, key);
      [x] + s
  }

  /** `sorted(s, key=key)`. */
  function SortBy<T>(s: seq<T>, key: T -> int): (r: seq<T>)
    ensures SortedBy(r, key)
    ensures multiset(r) == multiset(s)
  {
    if s == [] then []
    else
      assert s == s[..|s| - 1] + [s[|s| - 1]];
      Insert(SortBy(s[..|s| - 1], key), s[|s| - 1], key)
  }

  lemma {:induction false} NoneWithKey<T>(s: seq<T>, key: T -> int, k: int)
    requires forall i :: 0 <= i < |s| ==> key(s[i]) > k
    ensures WithKey(s, key, k) == []
  {
    if s != [] {
      NoneWithKey(s[1..], key, k);
    }
  }

  lemma {:induction false} InsertWithKey<T>(s: seq<T>, x: T, key: T -> int, k: int)
    requires SortedBy(s, key)
    ensures WithKey(Insert(s, x, key), key, k) == WithKey(s, key, k) + (if key(x) == k then [x] else [])
    decreases |s|, 1
  {
    if s == [] {
      WithKeyCons(x, [], key, k);
      assert [x] + [] == [x];
    } else if key(s[0]) <= key(x) {
      InsertWithKeyAfter(s, x, key, k);
    } else {
      InsertWithKeyBefore(s, x, key, k);
    }
  }

  lemma {:induction false} InsertWithKeyAfter<T>(s: seq<T>, x: T, key: T -> int, k: int)
    requires s != [] && SortedBy(s, key) && key(s[0]) <= key(x)
    ensures WithKey(Insert(s, x, key), key, k) == WithKey(s, key, k) + (if key(x) == k then [x] else [])
    decreases |s|, 0
  {
    InsertUnfold(s, x, key);
    var t := Insert(s[1..], x, key);
    assert WithKey(t, key, k) == WithKey(s[1..], key, k) + (if key(x) == k then [x] else []) by {
      InsertWithKey(s[1..], x, key, k);
    }
    WithKeyPrepend(s[0], t, s[1..], key, k, if key(x) == k then [x] else []);
    assert [s[0]] + s[1..] == s;
  }

  /** Prepending one element keeps an equation between filtered sequences. */
  lemma WithKeyPrepend<T>(c: T, t: seq<T>, u: seq<T>, key: T -> int, k: int, own: seq<T>)
    requires WithKey(t, key, k) == WithKey(u, key, k) + own
    ensures WithKey([c] + t, key, k) == WithKey([c] + u, key, k) + own
  {
    WithKeyCons(c, t, key, k);
    WithKeyCons(c, u, key, k);
    var hd := if key(c) == k then [c] else [];
    assert hd + (WithKey(u, key, k) + own) == hd + WithKey(u, key, k) + own;
  }

  lemma InsertWithKeyBefore<T>(s: seq<T>, x: T, key: T -> int, k: int)
    requires s != [] && SortedBy(s, key) && key(x) < key(s[0])
    ensures WithKey(Insert(s, x, key), key, k) == WithKey(s, key, k) + (if key(x) == k then [x] else [])
  {
    assert Insert(s, x, key) == [x] + s by {
      InsertUnfold(s, x, key);
    }
    WithKeyCons(x, s, key, k);
    if key(x) == k {
      assert WithKey(s, key, k) == [] by {
        AboveFirst(s, key, k);
        NoneWithKey(s, key, k);
      }
    } else {
      assert [] + WithKey(s, key, k) == WithKey(s, key, k) + [];
    }
  }

  lemma AboveFirst<T>(s: seq<T>, key: T -> int, k: int)
    requires s != [] && SortedBy(s, key) && k < key(s[0])
    ensures forall i :: 0 <= i < |s| ==> key(s[i]) > k
  {
    forall i | 0 <= i < |s| ensures key(s[i]) > k {
      assert i == 0 || key(s[0]) <= key(s[i]);
    }
  }

  lemma WithKeyCons<T>(x: T, s: seq<T>, key: T -> int, k: int)
    ensures WithKey([x] + s, key, k) == (if key(x) == k then [x] else []) + WithKey(s, key, k)
  {
    assert ([x] + s)[1..] == s;
  }

  lemma InsertUnfold<T>(s: seq<T>, x: T, key: T -> int)
    requires s != [] && SortedBy(s, key)
    ensures SortedBy(s[1..], key)
    ensures key(s[0]) <= key(x) ==> Insert(s, x, key) == [s[0]] + Insert(s[1..], x, key)
    ensures key(x) < key(s[0]) ==> Insert(s, x, key) == [x] + s
  {
    SortedTail(s, key);
  }

  /** The sort is stable: elements of equal key keep their input order. */
  lemma {:induction false} SortByStable<T>(s: seq<T>, key: T -> int, k: int)
    ensures WithKey(SortBy(s, key), key, k) == WithKey(s, key, k)
  {
    if s != [] {
      var init := s[..|s| - 1];
      var last := s[|s| - 1];
      var sorted := SortBy(init, key);
      SortByUnfold(s, key);
      SortByStable(init, key, k);
      InsertWithKey(sorted, last, key, k);
      SplitLast(s, key, k);
    }
  }

  lemma SortByUnfold<T>(s: seq<T>, key: T -> int)
    requires s != []
    ensures SortBy(s, key) == Insert(SortBy(s[..|s| - 1], key), s[|s| - 1], key)
  {
  }

  lemma SplitLast<T>(s: seq<T>, key: T -> int, k: int)
    requires s != []
    ensures WithKey(s, key, k) == WithKey(s[..|s| - 1], key, k) + (if key(s[|s| - 1]) == k then [s[|s| - 1]] else [])
  {
    var last := s[|s| - 1];
    assert s == s[..|s| - 1] + [last];
    WithKeyConcat(s[..|s| - 1], [last], key, k);
    assert WithKey([last], key, k) == (if key(last) == k then [last] else []) + WithKey([last][1..], key, k);
  }

  /** An element whose key is not below any key of `s` goes to the end. */
  lemma {:induction false} InsertAtEnd<T>(s: seq<T>, x: T, key: T -> int)
    requires SortedBy(s, key)
    requires forall i :: 0 <= i < |s| ==> key(s[i]) <= key(x)
    ensures Insert(s, x, key) == s + [x]
  {
    if s != [] {
      SortedTail(s, key);
      forall i | 0 <= i < |s[1..]| ensures key(s[1..][i]) <= key(x) {
        assert s[1..][i] == s[i + 1];
      }
      InsertAtEnd(s[1..], x, key);
      assert key(s[0]) <= key(x);
      assert [s[0]] + (s[1..] + [x]) == s + [x];
    }
  }

  lemma SortedTail<T>(s: seq<T>, key: T -> int)
    requires s != [] && SortedBy(s, key)
    ensures SortedBy(s[1..], key)
  {
    forall i, j | 0 <= i < j < |s[1..]| ensures key(s[1..][i]) <= key(s[1..][j]) {
      assert s[1..][i] == s[i + 1] && s[1..][j] == s[j + 1];
    }
  }

  lemma SortedInit<T>(s: seq<T>, init: seq<T>, key: T -> int)
    requires s != [] && SortedBy(s, key) && init == s[..|s| - 1]
    ensures SortedBy(init, key)
    ensures forall i :: 0 <= i < |init| ==> key(init[i]) <= key(s[|s| - 1])
  {
    forall i, j | 0 <= i < j < |init| ensures key(init[i]) <= key(init[j]) {
      assert init[i] == s[i] && init[j] == s[j];
    }
    forall i | 0 <= i < |init| ensures key(init[i]) <= key(s[|s| - 1]) {
      assert init[i] == s[i];
    }
  }

  /** Sorting an already sorted sequence leaves it unchanged. */
  lemma {:induction false} SortedIsFixed<T>(s: seq<T>, key: T -> int)
    requires SortedBy(s, key)
    ensures SortBy(s, key) == s
  {
    if s != [] {
      var init, last := s[..|s| - 1], s[|s| - 1];
      SortedInit(s, init, key);
      assert SortBy(s, key) == Insert(init, last, key) by {
        SortedIsFixed(init, key);
        SortByUnfold(s, key);
      }
      assert Insert(init, last, key) == init + [last] by {
        InsertAtEnd(init, last, key);
      }
      assert init + [last] == s;
    }
  }
}

=== FILE: strings.dfy ===
/** The handful of Python `str` operations the entry subsystem relies on:
    decimal formatting of an `int`, `str.isspace`/`str.strip`,
    `str.splitlines` and `str.join`. Strings are sequences of Unicode scalar values. */
module Strings {

  /** The decimal digit for 0 <= d < 10. */
  function Digit(d: nat): (c: char)
    requires d < 10
    ensures '0' <= c <= '9' && DigitValue(c) == d
  {
    (d + '0' as int) as char
  }

  /** The value of a decimal digit character. */
  function DigitValue(c: char): int {
    c as int - '0' as int
  }

  /** Reference reading of a numeral: the digits, most significant first,
      as a number in base ten. */
  function DecimalValue(s: string): int
    decreases |s|
  {
    if s == [] then 0 else 10 * DecimalValue(s[..|s| - 1]) + DigitValue(s[|s| - 1])
  }

  /** `str(n)` for a non-negative integer: its decimal digits, most significant first. */
  function NatToString(n: nat): (s: string)
    ensures |s| >= 1
    ensures n < 10 <==> |s| == 1
    ensures forall i :: 0 <= i < |s| ==> '0' <= s[i] <= '9'
    ensures DecimalValue(s) == n
    ensures s[0] == '0' <==> n == 0
  {
    if n < 10 then [Digit(n)]
    else
      var t := NatToString(n / 10);
      var s := t + [Digit(n % 10)];
      assert s[..|s| - 1] == t;
      s
  }

  lemma DigitInjective(a: nat, b: nat)
    requires a < 10 && b < 10
    ensures Digit(a) == Digit(b) ==> a == b
  {
  }

  /** Different numbers print differently, so numbered names never collide. */
  lemma {:induction false} NatToStringInjective(a: nat, b: nat)
    ensures NatToString(a) == NatToString(b) ==> a == b
    decreases a
  {
    if NatToString(a) == NatToString(b) {
      if a < 10 {
        DigitInjective(a, b);
      } else {
        var sa, sb := NatToString(a), NatToString(b);
        assert sa[|sa| - 1] == Digit(a % 10) && sb[|sb| - 1] == Digit(b % 10);
        DigitInjective(a % 10, b % 10);
        assert sa[..|sa| - 1] == NatToString(a / 10);
        assert sb[..|sb| - 1] == NatToString(b / 10);
        NatToStringInjective(a / 10, b / 10);
      }
    }
  }

  /** `c.isspace()`: the characters Python treats as whitespace, which are also
      the characters `\s` matches in a `str` regular expression. */
  predicate IsSpace(c: char) {
    var n := c as int;
    || (0x09 <= n <= 0x0D) || (0x1C <= n <= 0x20) || n == 0x85 || n == 0xA0
    || n == 0x1680 || (0x2000 <= n <= 0x200A) || n == 0x2028 || n == 0x2029
    || n == 0x202F || n == 0x205F || n == 0x3000
  }

  /** `s.lstrip()`: drop leading whitespace. */
  function StripStart(s: string): (r: string)
    ensures |r| <= |s| && r == s[|s| - |r|..]
    ensures forall i :: 0 <= i < |s| - |r| ==> IsSpace(s[i])
    ensures r == [] || !IsSpace(r[0])
  {
    if |s| > 0 && IsSpace(s[0]) then
      var r := StripStart(s[1..]);
      assert s[1..][|s| - 1 - |r|..] == s[|s| - |r|..];
      assert forall i :: 1 <= i < |s| - |r| ==> s[i] == s[1..][i - 1];
      r
    else s
  }

  /** `s.rstrip()`: drop trailing whitespace. */
  function StripEnd(s: string): (r: string)
    ensures |r| <= |s| && r == s[..|r|]
    ensures forall i :: |r| <= i < |s| ==> IsSpace(s[i])
    ensures r == [] || !IsSpace(r[|r| - 1])
  {
    if |s| > 0 && IsSpace(s[|s| - 1]) then StripEnd(s[..|s| - 1]) else s
  }

  /** `s.strip()`: the slice of `s` left after removing whitespace at both ends. */
  function Strip(s: string): (r: string)
    ensures exists i, j :: 0 <= i <= j <= |s| && r == s[i..j] && AllSpace(s[..i]) && AllSpace(s[j..])
    ensures r == [] || (!IsSpace(r[0]) && !IsSpace(r[|r| - 1]))
    ensures (forall i :: 0 <= i < |s| ==> !IsSpace(s[i])) ==> r == s
  {
    var t := StripStart(s);
    var r := StripEnd(t);
    StripSlices(s, t, r, |s| - |t|);
    r
  }

  /** A run of spaces at the front of a string, cut off. */
  lemma SpacesBefore(s: string, k: nat)
    requires k <= |s| && forall i :: 0 <= i < k ==> IsSpace(s[i])
    ensures AllSpace(s[..k]) && s == s[..k] + s[k..]
  {
    forall i | 0 <= i < k ensures IsSpace(s[..k][i]) {
      assert s[..k][i] == s[i];
    }
  }

  /** Spaces cut from both ends leave a slice with space runs around it. */
  lemma StripSlices(s: string, t: string, r: string, i: nat)
    requires i <= |s| && t == s[i..] && |r| <= |t| && r == t[..|r|]
    requires forall k :: 0 <= k < i ==> IsSpace(s[k])
    requires forall k :: |r| <= k < |t| ==> IsSpace(t[k])
    ensures r == s[i..i + |r|] && AllSpace(s[..i]) && AllSpace(s[i + |r|..])
  {
    forall k | 0 <= k < i ensures IsSpace(s[..i][k]) {
      assert s[..i][k] == s[k];
    }
    var j := i + |r|;
    forall k | 0 <= k < |s| - j ensures IsSpace(s[j..][k]) {
      assert s[j..][k] == t[|r| + k];
    }
  }

  /** The characters at which `str.splitlines` breaks a line. */
  predicate IsLineBreak(c: char) {
    var n := c as int;
    (0x0A <= n <= 0x0D) || (0x1C <= n <= 0x1E) || n == 0x85 || n == 0x2028 || n == 0x2029
  }

  predicate NoLineBreak(s: string) {
    forall i :: 0 <= i < |s| ==> !IsLineBreak(s[i])
  }

  /** The number of characters before the first line break (or |s| if none). */
  function LineLength(s: string): (n: nat)
    ensures n <= |s|
    ensures NoLineBreak(s[..n])
    ensures n < |s| ==> IsLineBreak(s[n])
  {
    if s == [] || IsLineBreak(s[0]) then 0
    else
      var k := LineLength(s[1..]);
      assert s[..1 + k] == [s[0]] + s[1..][..k];
      1 + k
  }

  /** `s.splitlines()`: lines without their terminators; "\r\n" is one break and
      a final terminator does not start an empty last line. */
  function SplitLines(s: string): (lines: seq<string>)
    ensures s == [] <==> lines == []
    ensures forall i :: 0 <= i < |lines| ==> NoLineBreak(lines[i])
    decreases |s|
  {
    if s == [] then []
    else
      var n := LineLength(s);
      if n == |s| then [s]
      else
        [s[..n]] + SplitLines(s[n + BreakWidth(s, n)..])
  }

  /** The length of the line break at `s[n]`: "\r\n" is one break of two
      characters, every other break is one character. */
  function BreakWidth(s: string, n: nat): (w: nat)
    requires n < |s|
    ensures 1 <= w <= 2 && n + w <= |s|
  {
    if s[n] == '\r' && n + 1 < |s| && s[n + 1] == '\n' then 2 else 1
  }

  /** `sep.join(parts)`. */
  function Join(sep: string, parts: seq<string>): string {
    if parts == [] then ""
    else if |parts| == 1 then parts[0]
    else parts[0] + sep + Join(sep, parts[1..])
  }

  /** `"\n".join(text.splitlines()[:-1])`: the text without its last line. */
  function DropLastLine(text: string): string {
    var lines := SplitLines(text);
    if lines == [] then "" else Join("\n", lines[..|lines| - 1])
  }

  /** The text is split only by "\n", no other line-break character. */
  predicate LinefeedOnly(s: string) {
    forall i :: 0 <= i < |s| ==> IsLineBreak(s[i]) ==> s[i] == '\n'
  }

  /** Fields of `s` separated by "\n" (Python's `s.split("\n")`). */
  function SplitOnLinefeed(s: string): (fields: seq<string>)
    requires LinefeedOnly(s)
    ensures |fields| >= 1
    ensures forall i :: 0 <= i < |fields| ==> NoLineBreak(fields[i])
    decreases |s|
  {
    var n := LineLength(s);
    if n == |s| then [s] else [s[..n]] + SplitOnLinefeed(s[n + 1..])
  }

  lemma {:induction false} JoinSplitOnLinefeed(s: string)
    requires LinefeedOnly(s)
    ensures Join("\n", SplitOnLinefeed(s)) == s
    decreases |s|
  {
    var n := LineLength(s);
    if n < |s| {
      var rest := SplitOnLinefeed(s[n + 1..]);
      JoinSplitOnLinefeed(s[n + 1..]);
      assert SplitOnLinefeed(s) == [s[..n]] + rest;
      assert s == s[..n] + "\n" + s[n + 1..];
    }
  }

  lemma SplitLinesAtLinefeed(s: string, head: string, tail: string)
    requires LineLength(s) < |s| && s[LineLength(s)] == '\n'
    requires head == s[..LineLength(s)] && tail == s[LineLength(s) + 1..]
    ensures SplitLines(s) == [head] + SplitLines(tail)
  {
  }

  lemma {:induction false} SplitLinesAppendLastLine(a: string, b: string)
    requires LinefeedOnly(a)
    requires b != [] && NoLineBreak(b)
    ensures SplitLines(a + "\n" + b) == SplitOnLinefeed(a) + [b]
    decreases |a|
  {
    var n := LineLength(a);
    if n == |a| {
      LastLineCase(a, b);
    } else {
      var a' := a[n + 1..];
      assert SplitLines(a + "\n" + b) == [a[..n]] + SplitLines(a' + "\n" + b) by {
        InnerLineCase(a, b);
      }
      assert LinefeedOnly(a') && SplitOnLinefeed(a) == [a[..n]] + SplitOnLinefeed(a') by {
        SplitOnLinefeedAtLinefeed(a);
      }
      SplitLinesAppendLastLine(a', b);
      ConsSnoc(a[..n], SplitOnLinefeed(a'), b);
    }
  }

  lemma ConsSnoc<T>(x: T, s: seq<T>, y: T)
    ensures [x] + (s + [y]) == [x] + s + [y]
  {
  }

  lemma SplitOnLinefeedAtLinefeed(a: string)
    requires LinefeedOnly(a) && LineLength(a) < |a|
    ensures LinefeedOnly(a[LineLength(a) + 1..])
    ensures SplitOnLinefeed(a) == [a[..LineLength(a)]] + SplitOnLinefeed(a[LineLength(a) + 1..])
  {
    LinefeedOnlySuffix(a, LineLength(a) + 1);
  }

  lemma LinefeedOnlySuffix(a: string, k: nat)
    requires LinefeedOnly(a) && k <= |a|
    ensures LinefeedOnly(a[k..])
  {
    forall i | 0 <= i < |a[k..]| ensures IsLineBreak(a[k..][i]) ==> a[k..][i] == '\n' {
      assert a[k..][i] == a[k + i];
    }
  }

  lemma InnerLineCase(a: string, b: string)
    requires LinefeedOnly(a) && LineLength(a) < |a|
    ensures SplitLines(a + "\n" + b)
            == [a[..LineLength(a)]] + SplitLines(a[LineLength(a) + 1..] + "\n" + b)
  {
    var n := LineLength(a);
    Associative(a, "\n", b);
    Associative(a[n + 1..], "\n", b);
    SplitLinesBeforeBreak(a, "\n" + b);
  }

  /** A line that ends inside `a` is split off the same way whatever follows. */
  lemma SplitLinesBeforeBreak(a: string, t: string)
    requires LinefeedOnly(a) && LineLength(a) < |a|
    requires t != [] && IsLineBreak(t[0])
    ensures SplitLines(a + t) == [a[..LineLength(a)]] + SplitLines(a[LineLength(a) + 1..] + t)
  {
    var n := LineLength(a);
    assert LineLength(a + t) == n by {
      LineLengthExtends(a, t);
    }
    SliceAround(a, n, t);
    SplitLinesAtLinefeed(a + t, a[..n], a[n + 1..] + t);
  }

  /** Slicing around a position inside the left operand of a concatenation. */
  lemma Associative<T>(a: seq<T>, b: seq<T>, c: seq<T>)
    ensures a + b + c == a + (b + c)
  {
  }

  lemma SliceThree<T>(s: seq<T>, i: nat, j: nat)
    requires i <= j <= |s|
    ensures s == s[..i] + s[i..j] + s[j..]
  {
  }

  /** Slicing inside the left operand of a concatenation. */
  lemma SliceLeft<T>(a: seq<T>, t: seq<T>, i: nat, j: nat)
    requires i <= j <= |a|
    ensures (a + t)[..i] == a[..i] && (a + t)[i..j] == a[i..j] && (a + t)[j..] == a[j..] + t
  {
  }

  lemma SliceAround<T>(a: seq<T>, n: nat, t: seq<T>)
    requires n < |a|
    ensures (a + t)[..n] == a[..n] && (a + t)[n] == a[n] && (a + t)[n + 1..] == a[n + 1..] + t
  {
  }

  lemma LastLineCase(a: string, b: string)
    requires LinefeedOnly(a) && LineLength(a) == |a|
    requires b != [] && NoLineBreak(b)
    ensures SplitLines(a + "\n" + b) == [a] + SplitLines(b) == SplitOnLinefeed(a) + [b]
  {
    var s := a + "\n" + b;
    assert LineLength(s) == |a| && s[|a|] == '\n' && s[..|a|] == a && s[|a| + 1..] == b by {
      assert s == a + ("\n" + b);
      LineLengthExtends(a, "\n" + b);
    }
    SplitLinesAtLinefeed(s, a, b);
    LineLengthWhole(b);
  }

  lemma LineLengthWhole(s: string)
    requires NoLineBreak(s) && s != []
    ensures SplitLines(s) == [s]
  {
    assert LineLength(s) == |s| by { LineLengthNoBreak(s); }
  }

  lemma {:induction false} LineLengthNoBreak(s: string)
    requires NoLineBreak(s)
    ensures LineLength(s) == |s|
    decreases |s|
  {
    if s != [] {
      LineLengthNoBreak(s[1..]);
    }
  }

  lemma {:induction false} LineLengthExtends(a: string, t: string)
    requires t != [] && IsLineBreak(t[0])
    ensures LineLength(a + t) == LineLength(a)
    decreases |a|
  {
    if a != [] {
      assert (a + t)[1..] == a[1..] + t;
      LineLengthExtends(a[1..], t);
    } else {
      assert a + t == t;
    }
  }

  /** Dropping the last line of a hint keeps exactly the complete lines before it:
      the cut-off tail `b` never reaches the parser. */
  lemma DropLastLineKeepsCompleteLines(a: string, b: string)
    requires LinefeedOnly(a)
    requires b != [] && NoLineBreak(b)
    ensures DropLastLine(a + "\n" + b) == a
  {
    SplitLinesAppendLastLine(a, b);
    var lines := SplitLines(a + "\n" + b);
    assert lines[..|lines| - 1] == SplitOnLinefeed(a);
    JoinSplitOnLinefeed(a);
  }
  // ---------------------------------------------------------------------------
  // Prefixes, whitespace runs and universal newlines

  predicate StartsWith(s: string, prefix: string) {
    |prefix| <= |s| && s[..|prefix|] == prefix
  }

  predicate AllSpace(s: string) {
    forall i :: 0 <= i < |s| ==> IsSpace(s[i])
  }

  /** Stripping a run of whitespace in front of a non-space stops exactly there. */
  lemma {:induction false} StripStartOfSpaces(ws: string, t: string)
    requires AllSpace(ws)
    requires t == [] || !IsSpace(t[0])
    ensures StripStart(ws + t) == t
    decreases |ws|
  {
    if ws != [] {
      assert (ws + t)[1..] == ws[1..] + t;
      StripStartOfSpaces(ws[1..], t);
    }
  }

  /** Universal-newline reading (`Path.read_text`): "\r\n" and a lone "\r"
      both become "\n". */
  function TranslateNewlines(s: string): (r: string)
    ensures '\r' !in r
    ensures '\r' !in s ==> r == s
    ensures |r| <= |s|
    decreases |s|
  {
    if s == [] then []
    else if s[0] == '\r' then
      if |s| > 1 && s[1] == '\n' then "\n" + TranslateNewlines(s[2..])
      else "\n" + TranslateNewlines(s[1..])
    else
      assert forall k :: 0 <= k < |s| - 1 ==> s[1..][k] == s[k + 1];
      [s[0]] + TranslateNewlines(s[1..])
  }

  // ---------------------------------------------------------------------------
  // Line splitting with every kind of line break

  /** A line terminator `splitlines` removes: "\r\n" or one break character. */
  predicate IsLineEnd(t: string) {
    t == "\r\n" || (|t| == 1 && IsLineBreak(t[0]))
  }

  /** The terminators `splitlines` removed, one per line; "" for a last line
      that has none. */
  function LineEnds(s: string): (ends: seq<string>)
    decreases |s|
  {
    if s == [] then []
    else
      var n := LineLength(s);
      if n == |s| then [""]
      else
        var w := BreakWidth(s, n);
        [s[n..n + w]] + LineEnds(s[n + w..])
  }

  /** Each line followed by its terminator. */
  function Unsplit(lines: seq<string>, ends: seq<string>): string
    requires |lines| == |ends|
  {
    if lines == [] then "" else lines[0] + ends[0] + Unsplit(lines[1..], ends[1..])
  }

  /** One step of `splitlines` on a text with a line break. */
  lemma {:induction false} SplitLinesStep(s: string, head: string, t: string, rest: string)
    requires LineLength(s) < |s|
    requires head == s[..LineLength(s)]
    requires t == s[LineLength(s)..LineLength(s) + BreakWidth(s, LineLength(s))]
    requires rest == s[LineLength(s) + BreakWidth(s, LineLength(s))..]
    ensures SplitLines(s) == [head] + SplitLines(rest)
    ensures LineEnds(s) == [t] + LineEnds(rest)
    ensures IsLineEnd(t)
    ensures t == "\r" ==> rest == [] || rest[0] != '\n'
    ensures s == head + t + rest
  {
    var n := LineLength(s);
    SliceThree(s, n, n + BreakWidth(s, n));
    if |t| == 1 {
      assert t == [s[n]];
      if rest != [] { assert rest[0] == s[n + 1]; }
    }
  }

  lemma {:induction false} UnsplitCons(line: string, t: string, lines: seq<string>, ends: seq<string>)
    requires |lines| == |ends|
    ensures Unsplit([line] + lines, [t] + ends) == line + t + Unsplit(lines, ends)
  {
    assert ([line] + lines)[1..] == lines;
    assert ([t] + ends)[1..] == ends;
  }

  /** `splitlines` loses nothing but terminators: lines and terminators put
      back together give the text. */
  lemma {:induction false} SplitLinesRebuilds(s: string)
    ensures |LineEnds(s)| == |SplitLines(s)|
    ensures Unsplit(SplitLines(s), LineEnds(s)) == s
    decreases |s|
  {
    if s != [] {
      var n := LineLength(s);
      if n == |s| {
        assert SplitLines(s) == [s] && LineEnds(s) == [""];
      } else {
        var w := BreakWidth(s, n);
        SplitLinesStep(s, s[..n], s[n..n + w], s[n + w..]);
        SplitLinesRebuilds(s[n + w..]);
        UnsplitCons(s[..n], s[n..n + w], SplitLines(s[n + w..]), LineEnds(s[n + w..]));
      }
    }
  }

  /** Every terminator but the last is a line break. */
  predicate InnerEndsAreBreaks(ends: seq<string>) {
    forall i :: 0 <= i < |ends| - 1 ==> IsLineEnd(ends[i])
  }

  /** The last terminator is a line break exactly when the text ends in one,
      and is missing exactly when it does not. */
  predicate LastEndMatches(s: string, ends: seq<string>) {
    s != [] ==>
      && ends != []
      && (IsLineEnd(ends[|ends| - 1]) <==> IsLineBreak(s[|s| - 1]))
      && (ends[|ends| - 1] == [] <==> !IsLineBreak(s[|s| - 1]))
  }

  /** Every terminator `splitlines` removed is a line break, and the last line
      has one exactly when the text ends in a line break. */
  lemma {:induction false} LineEndsAreBreaks(s: string)
    ensures InnerEndsAreBreaks(LineEnds(s))
    ensures LastEndMatches(s, LineEnds(s))
    decreases |s|
  {
    if s != [] {
      var n := LineLength(s);
      if n == |s| {
        assert LineEnds(s) == [""];
        assert s[..|s|] == s;
      } else {
        var w := BreakWidth(s, n);
        var head, t, rest := s[..n], s[n..n + w], s[n + w..];
        SplitLinesStep(s, head, t, rest);
        LineEndsAreBreaks(rest);
        ConsLineEnd(t, LineEnds(rest));
        LastEndCons(head, t, rest, LineEnds(rest));
      }
    }
  }

  lemma LastEndCons(head: string, t: string, rest: string, ends: seq<string>)
    requires IsLineEnd(t) && LastEndMatches(rest, ends) && (rest == [] ==> ends == [])
    ensures LastEndMatches(head + t + rest, [t] + ends)
  {
    LastOfConcat(head + t, rest);
    if rest == [] {
      assert head + t + rest == head + t;
      LastOfConcat(head, t);
    }
  }

  /** Putting a line break in front keeps every terminator but the last a
      line break, and keeps the last one. */
  lemma ConsLineEnd(t: string, ends: seq<string>)
    requires IsLineEnd(t) && InnerEndsAreBreaks(ends)
    ensures InnerEndsAreBreaks([t] + ends)
    ensures ends == [] ==> ([t] + ends)[0] == t
    ensures ends != [] ==> ([t] + ends)[|ends|] == ends[|ends| - 1]
  {
    forall i | 0 <= i < |ends| ensures IsLineEnd(([t] + ends)[i]) {
      if i > 0 { assert ([t] + ends)[i] == ends[i - 1]; }
    }
  }

  lemma LastOfConcat<T>(a: seq<T>, b: seq<T>)
    ensures b != [] ==> (a + b)[|a + b| - 1] == b[|b| - 1]
  {
  }

  /** `LineLength(a + t)` is `LineLength(a)` once `a` holds a line break. */
  lemma {:induction false} LineLengthInside(a: string, t: string)
    requires LineLength(a) < |a|
    ensures LineLength(a + t) == LineLength(a)
    decreases |a|
  {
    if !IsLineBreak(a[0]) {
      assert (a + t)[1..] == a[1..] + t;
      LineLengthInside(a[1..], t);
    }
  }

  /** A text that ends in a line break followed by a last, unterminated line
      splits into the text's lines plus that last line, whatever the breaks. */
  lemma {:induction false} SplitLinesAfterBreak(x: string, b: string)
    requires x != [] && IsLineBreak(x[|x| - 1])
    requires b != [] && NoLineBreak(b)
    ensures SplitLines(x + b) == SplitLines(x) + [b]
    decreases |x|
  {
    var n := LineLength(x);
    LineLengthBeforeLastBreak(x);
    var w := BreakWidth(x, n);
    var head, t, rest := x[..n], x[n..n + w], x[n + w..];
    SplitLinesStep(x, head, t, rest);
    SplitLinesStepAppend(x, b, head, t, rest);
    if rest == [] {
      assert rest + b == b;
      LineLengthWhole(b);
    } else {
      LastOfConcat(head + t, rest);
      SplitLinesAfterBreak(rest, b);
      ConsSnoc(head, SplitLines(rest), b);
    }
  }

  lemma LineLengthBeforeLastBreak(x: string)
    requires x != [] && IsLineBreak(x[|x| - 1])
    ensures LineLength(x) < |x|
  {
    assert x[..|x|] == x;
  }

  /** The first line of `x` is split off `x + b` as it is off `x`, when `b`
      cannot extend a final "\r" into "\r\n". */
  lemma {:induction false} SplitLinesStepAppend(x: string, b: string, head: string, t: string, rest: string)
    requires LineLength(x) < |x|
    requires head == x[..LineLength(x)]
    requires t == x[LineLength(x)..LineLength(x) + BreakWidth(x, LineLength(x))]
    requires rest == x[LineLength(x) + BreakWidth(x, LineLength(x))..]
    requires b == [] || b[0] != '\n'
    ensures SplitLines(x + b) == [head] + SplitLines(rest + b)
  {
    var s, n := x + b, LineLength(x);
    var w := BreakWidth(x, n);
    assert LineLength(s) == n by { LineLengthInside(x, b); }
    assert BreakWidth(s, n) == w by {
      assert s[n] == x[n];
      if n + 1 < |x| { assert s[n + 1] == x[n + 1]; }
      else if n + 1 < |s| { assert s[n + 1] == b[0]; }
    }
    SliceLeft(x, b, n, n + w);
    SplitLinesStep(s, head, t, rest + b);
  }

  /** Dropping the last, unterminated line of a text keeps the lines before it
      joined by "\n", whatever breaks ended them. */
  lemma {:induction false} DropLastLineAfterBreak(x: string, b: string)
    requires x == [] || IsLineBreak(x[|x| - 1])
    requires b != [] && NoLineBreak(b)
    ensures DropLastLine(x + b) == Join("\n", SplitLines(x))
  {
    if x == [] {
      assert x + b == b;
      LineLengthWhole(b);
    } else {
      SplitLinesAfterBreak(x, b);
      var lines := SplitLines(x + b);
      assert lines[..|lines| - 1] == SplitLines(x);
    }
  }

  /** One line, a break other than "\r", then the rest: the line is split off. */
  lemma {:induction false} SplitLinesOneLine(line: string, c: char, u: string)
    requires NoLineBreak(line) && IsLineBreak(c) && c != '\r'
    ensures SplitLines(line + [c] + u) == [line] + SplitLines(u)
  {
    var s := line + [c] + u;
    assert s == line + ([c] + u);
    assert LineLength(line) == |line| by { LineLengthNoBreak(line); }
    assert LineLength(s) == |line| by { LineLengthExtends(line, [c] + u); }
    assert s[..|line|] == line && s[|line|] == c && s[|line| + 1..] == u;
  }

  /** Translating newlines passes a prefix without "\r" through unchanged. */
  lemma {:induction false} TranslateNewlinesAfterPlain(a: string, b: string)
    requires '\r' !in a
    ensures TranslateNewlines(a + b) == a + TranslateNewlines(b)
    decreases |a|
  {
    if a != [] {
      assert (a + b)[0] == a[0] && (a + b)[1..] == a[1..] + b;
      TranslateNewlinesAfterPlain(a[1..], b);
    } else {
      assert a + b == b;
    }
  }

  /** Universal newlines map "\r\n" and a lone "\r" to "\n" and keep every
      other character. */
  lemma {:induction false} TranslateNewlinesBreaks(a: string, b: string)
    requires '\r' !in a
    ensures TranslateNewlines(a + "\r\n" + b) == a + "\n" + TranslateNewlines(b)
    ensures b == [] || b[0] != '\n' ==> TranslateNewlines(a + "\r" + b) == a + "\n" + TranslateNewlines(b)
  {
    TranslateLine(a, "\r\n", b, '\n');
    if b == [] || b[0] != '\n' {
      TranslateLine(a, "\r", b, '\n');
    }
  }

  /** Reading in universal-newline mode changes no line: the translated text
      has exactly the lines of the original. */
  lemma {:induction false} TranslateNewlinesKeepsLines(s: string)
    ensures SplitLines(TranslateNewlines(s)) == SplitLines(s)
    decreases |s|
  {
    if s != [] {
      var n := LineLength(s);
      if n == |s| {
        assert s[..|s|] == s;
        NoLineBreakNoReturn(s);
      } else {
        var w := BreakWidth(s, n);
        var head, t, rest := s[..n], s[n..n + w], s[n + w..];
        SplitLinesStep(s, head, t, rest);
        var c := if s[n] == '\r' then '\n' else s[n];
        NoLineBreakNoReturn(head);
        TranslateLine(head, t, rest, c);
        SplitLinesOneLine(head, c, TranslateNewlines(rest));
        TranslateNewlinesKeepsLines(rest);
      }
    }
  }

  /** A line, its terminator and the rest translate to the line, one "\n"
      or other break, and the translated rest. */
  lemma {:induction false} TranslateLine(head: string, t: string, rest: string, c: char)
    requires '\r' !in head && IsLineEnd(t)
    requires t == "\r" ==> rest == [] || rest[0] != '\n'
    requires c == if t[0] == '\r' then '\n' else t[0]
    ensures TranslateNewlines(head + t + rest) == head + [c] + TranslateNewlines(rest)
    ensures IsLineBreak(c) && c != '\r'
  {
    assert head + t + rest == head + (t + rest);
    TranslateNewlinesAfterPlain(head, t + rest);
    TranslateLineEnd(t, rest, c);
  }

  lemma NoLineBreakNoReturn(s: string)
    requires NoLineBreak(s)
    ensures '\r' !in s
  {
  }

  /** A terminator translates to one character: "\n" for "\r\n" and "\r",
      the break itself otherwise. */
  lemma {:induction false} TranslateLineEnd(t: string, rest: string, c: char)
    requires IsLineEnd(t)
    requires t == "\r" ==> rest == [] || rest[0] != '\n'
    requires c == if t[0] == '\r' then '\n' else t[0]
    ensures TranslateNewlines(t + rest) == [c] + TranslateNewlines(rest)
    ensures IsLineBreak(c) && c != '\r'
  {
    var s := t + rest;
    if |t| == 2 {
      assert s[0] == '\r' && s[1] == '\n' && s[2..] == rest;
    } else {
      assert s[0] == t[0] && s[1..] == rest;
    }
  }
}

=== FILE: utf8.dfy ===
/** Strict UTF-8, as Python's `bytes.decode("utf-8")` and `str.encode("utf-8")`
    implement it: the well-formed byte sequences of Table 3-7 of the Unicode
    Standard (chapter 3, section 3.9), no overlong forms, no surrogates, nothing
    above U+10FFFF. */
module Utf8 {
  import opened Wrappers

  newtype byte = b: int | 0 <= b < 256

  predicate IsCont(b: byte) { 0x80 <= b <= 0xBF }

  /** Decode the first scalar value of `bs`: the character and the number of
      bytes it occupies, or None when `bs` does not start with a well-formed
      sequence. */
  function DecodeFirst(bs: seq<byte>): (r: Option<(char, nat)>)
    requires |bs| > 0
    ensures r.Some? ==> 1 <= r.value.1 <= |bs| && r.value.1 <= 4
  {
    var b0 := bs[0] as int;
    if b0 < 0x80 then Some((b0 as char, 1))
    else if 0xC2 <= b0 <= 0xDF then
      if |bs| >= 2 && IsCont(bs[1]) then
        Some((((b0 - 0xC0) * 64 + (bs[1] as int - 0x80)) as char, 2))
      else None
    else if 0xE0 <= b0 <= 0xEF then
      if |bs| >= 3 && IsCont(bs[1]) && IsCont(bs[2])
         && (b0 != 0xE0 || bs[1] >= 0xA0) && (b0 != 0xED || bs[1] <= 0x9F) then
        Some((((b0 - 0xE0) * 4096 + (bs[1] as int - 0x80) * 64 + (bs[2] as int - 0x80)) as char, 3))
      else None
    else if 0xF0 <= b0 <= 0xF4 then
      if |bs| >= 4 && IsCont(bs[1]) && IsCont(bs[2]) && IsCont(bs[3])
         && (b0 != 0xF0 || bs[1] >= 0x90) && (b0 != 0xF4 || bs[1] <= 0x8F) then
        Some((((b0 - 0xF0) * 262144 + (bs[1] as int - 0x80) * 4096
               + (bs[2] as int - 0x80) * 64 + (bs[3] as int - 0x80)) as char, 4))
      else None
    else None
  }

  /** `bs.decode("utf-8")`, with None standing for a `UnicodeDecodeError`. */
  function Decode(bs: seq<byte>): Option<string>
    decreases |bs|
  {
    if bs == [] then Some("")
    else
      match DecodeFirst(bs)
      case None => None
      case Some((c, n)) =>
        match Decode(bs[n..])
        case None => None
        case Some(s) => Some([c] + s)
  }

  /** The UTF-8 encoding of one scalar value. */
  function EncodeChar(c: char): (bs: seq<byte>)
    ensures 1 <= |bs| <= 4
  {
    var cp := c as int;
    if cp < 0x80 then [cp as byte]
    else if cp < 0x800 then [(0xC0 + cp / 64) as byte, (0x80 + cp % 64) as byte]
    else if cp < 0x10000 then
      [(0xE0 + cp / 4096) as byte, (0x80 + (cp / 64) % 64) as byte, (0x80 + cp % 64) as byte]
    else
      [(0xF0 + cp / 262144) as byte, (0x80 + (cp / 4096) % 64) as byte,
       (0x80 + (cp / 64) % 64) as byte, (0x80 + cp % 64) as byte]
  }

  /** `s.encode("utf-8")`. */
  function Encode(s: string): seq<byte> {
    if s == "" then [] else EncodeChar(s[0]) + Encode(s[1..])
  }

  /** Reference definition: a byte sequence is valid UTF-8 when it is the
      encoding of some string. */
  ghost predicate Valid(bs: seq<byte>) {
    exists s: string :: Encode(s) == bs
  }

  lemma Split64(x: int)
    requires x >= 0
    ensures x == (x / 64) * 64 + x % 64
    ensures x / 4096 == (x / 64) / 64
    ensures x / 262144 == (x / 4096) / 64
  {
  }

  lemma DecodeFirstOfEncodeChar(c: char, rest: seq<byte>)
    ensures DecodeFirst(EncodeChar(c) + rest) == Some((c, |EncodeChar(c)|))
  {
    var cp := c as int;
    if cp < 0x80 {
    } else if cp < 0x800 {
      DecodeFirstOfTwo(c, rest);
    } else if cp < 0x10000 {
      DecodeFirstOfThree(c, rest);
    } else {
      DecodeFirstOfFour(c, rest);
    }
  }

  lemma DecodeFirstOfTwo(c: char, rest: seq<byte>)
    requires 0x80 <= c as int < 0x800
    ensures DecodeFirst(EncodeChar(c) + rest) == Some((c, 2))
  {
    var cp := c as int;
    var bs := EncodeChar(c) + rest;
    Split64(cp);
    assert bs[0] as int == 0xC0 + cp / 64;
    assert bs[1] as int == 0x80 + cp % 64;
  }

  lemma DecodeFirstOfThree(c: char, rest: seq<byte>)
    requires 0x800 <= c as int < 0x10000
    ensures DecodeFirst(EncodeChar(c) + rest) == Some((c, 3))
  {
    var cp := c as int;
    var bs := EncodeChar(c) + rest;
    Split64(cp);
    Split64(cp / 64);
    assert bs[0] as int == 0xE0 + cp / 4096;
    assert bs[1] as int == 0x80 + (cp / 64) % 64;
    assert bs[2] as int == 0x80 + cp % 64;
    assert cp == (cp / 4096) * 4096 + ((cp / 64) % 64) * 64 + cp % 64;
  }

  lemma DecodeFirstOfFour(c: char, rest: seq<byte>)
    requires 0x10000 <= c as int
    ensures DecodeFirst(EncodeChar(c) + rest) == Some((c, 4))
  {
    var cp := c as int;
    var bs := EncodeChar(c) + rest;
    Split64(cp);
    Split64(cp / 64);
    Split64(cp / 4096);
    assert bs[0] as int == 0xF0 + cp / 262144;
    assert bs[1] as int == 0x80 + (cp / 4096) % 64;
    assert bs[2] as int == 0x80 + (cp / 64) % 64;
    assert bs[3] as int == 0x80 + cp % 64;
    assert cp == (cp / 262144) * 262144 + ((cp / 4096) % 64) * 4096
                 + ((cp / 64) % 64) * 64 + cp % 64;
  }

  /** Decoding undoes encoding: every string survives the trip through bytes. */
  lemma {:induction false} DecodeEncode(s: string)
    ensures Decode(Encode(s)) == Some(s)
  {
    if s != "" {
      var head := EncodeChar(s[0]);
      var tail := Encode(s[1..]);
      DecodeFirstOfEncodeChar(s[0], tail);
      assert (head + tail)[|head|..] == tail;
      DecodeEncode(s[1..]);
      assert [s[0]] + s[1..] == s;
    }
  }

  lemma DivMod64(q: int, r: int)
    requires q >= 0 && 0 <= r < 64
    ensures (q * 64 + r) / 64 == q && (q * 64 + r) % 64 == r
  {
  }

  lemma EncodeCharOfDecodeFirst(bs: seq<byte>)
    requires |bs| > 0 && DecodeFirst(bs).Some?
    ensures EncodeChar(DecodeFirst(bs).value.0) == bs[..DecodeFirst(bs).value.1]
  {
    var b0 := bs[0] as int;
    if b0 < 0x80 {
    } else if b0 <= 0xDF {
      EncodeCharOfTwo(bs);
    } else if b0 <= 0xEF {
      EncodeCharOfThree(bs);
    } else {
      EncodeCharOfFour(bs);
    }
  }

  lemma EncodeCharOfTwo(bs: seq<byte>)
    requires |bs| > 0 && DecodeFirst(bs).Some? && 0x80 <= bs[0] <= 0xDF
    ensures EncodeChar(DecodeFirst(bs).value.0) == bs[..2]
  {
    var b0, b1 := bs[0] as int, bs[1] as int - 0x80;
    var cp := DecodeFirst(bs).value.0 as int;
    assert cp == (b0 - 0xC0) * 64 + b1;
    DivMod64(b0 - 0xC0, b1);
  }

  lemma EncodeCharOfThree(bs: seq<byte>)
    requires |bs| > 0 && DecodeFirst(bs).Some? && 0xE0 <= bs[0] <= 0xEF
    ensures EncodeChar(DecodeFirst(bs).value.0) == bs[..3]
  {
    var b0, b1, b2 := bs[0] as int, bs[1] as int - 0x80, bs[2] as int - 0x80;
    var cp := DecodeFirst(bs).value.0 as int;
    var x := (b0 - 0xE0) * 64 + b1;
    assert cp == x * 64 + b2;
    Split64(cp);
    DivMod64(x, b2);
    DivMod64(b0 - 0xE0, b1);
  }

  lemma EncodeCharOfFour(bs: seq<byte>)
    requires |bs| > 0 && DecodeFirst(bs).Some? && 0xF0 <= bs[0]
    ensures EncodeChar(DecodeFirst(bs).value.0) == bs[..4]
  {
    var b0, b1, b2, b3 := bs[0] as int, bs[1] as int - 0x80, bs[2] as int - 0x80, bs[3] as int - 0x80;
    var cp := DecodeFirst(bs).value.0 as int;
    var y := (b0 - 0xF0) * 64 + b1;
    var x := y * 64 + b2;
    assert cp == x * 64 + b3;
    Split64(cp);
    Split64(cp / 64);
    DivMod64(x, b3);
    DivMod64(y, b2);
    DivMod64(b0 - 0xF0, b1);
  }

  /** Encoding undoes decoding: a successful decode accounts for every byte. */
  lemma {:induction false} EncodeDecode(bs: seq<byte>)
    requires Decode(bs).Some?
    ensures Encode(Decode(bs).value) == bs
    decreases |bs|
  {
    if bs != [] {
      DecodeUnfold(bs);
      var (c, n) := DecodeFirst(bs).value;
      var s, t := Decode(bs).value, Decode(bs[n..]).value;
      assert s == [c] + t;
      assert Encode(s) == EncodeChar(c) + Encode(t) by {
        assert s[0] == c && s[1..] == t;
      }
      EncodeCharOfDecodeFirst(bs);
      EncodeDecode(bs[n..]);
      SplitAt(bs, n);
    }
  }

  lemma SplitAt(bs: seq<byte>, n: nat)
    requires n <= |bs|
    ensures bs[..n] + bs[n..] == bs
  {
  }

  lemma DecodeUnfold(bs: seq<byte>)
    requires bs != [] && Decode(bs).Some?
    ensures DecodeFirst(bs).Some?
    ensures Decode(bs[DecodeFirst(bs).value.1..]).Some?
    ensures Decode(bs).value == [DecodeFirst(bs).value.0] + Decode(bs[DecodeFirst(bs).value.1..]).value
  {
  }

  /** `bytes.decode("utf-8")` fails exactly on byte sequences that are not the
      encoding of any string. */
  lemma DecodeSucceedsIffValid(bs: seq<byte>)
    ensures Decode(bs).Some? <==> Valid(bs)
  {
    if Decode(bs).Some? {
      EncodeDecode(bs);
    }
    if Valid(bs) {
      var s :| Encode(s) == bs;
      DecodeEncode(s);
    }
  }
}

=== FILE: values.dfy ===
/** The structured values the entry subsystem stores: YAML documents, project
    metadata and the dictionaries `recursive_update` merges. */
module Values {
  import opened Wrappers
  import opened Utf8

  /** A Python value as far as these modules look at it: a scalar with no
      length (number, boolean, None), a string, a list or tuple, or a mapping. */
  datatype Node =
    | Atom(repr: string)
    | Str(s: string)
    | Sequence(items: seq<Node>)
    | Mapping(m: map<string, Node>)

  /** `d.get(k)`. */
  function Get(d: map<string, Node>, k: string): Option<Node> {
    if k in d then Some(d[k]) else None
  }

  /** `hasattr(value, "__len__")`: strings, sequences and mappings have a length. */
  predicate HasLength(n: Node) { !n.Atom? }

  /** `len(value)` for a value that has a length. */
  function Length(n: Node): nat
    requires HasLength(n)
  {
    match n
    case Str(s) => |s|
    case Sequence(items) => |items|
    case Mapping(m) => |m|
  }

  /** The data an entry caches: text, bytes, CSV rows, a YAML tree, or an
      entry object that a YAML constructor produced (contents not modelled). */
  datatype Payload =
    | Text(text: string)
    | Bytes(bytes: seq<byte>)
    | Rows(rows: seq<seq<string>>)
    | Tree(tree: Node)
    | EntryObject
}

=== FILE: wrappers.dfy ===
/** Failure-compatible wrappers and the exceptions the entry subsystem raises. */
module Wrappers {

  /** An optional value: Python's `None` or a present value. */
  datatype Option<+T> = None | Some(value: T) {
    predicate IsFailure() { None? }

    function PropagateFailure<U>(): Option<U>
      requires None?
    {
      None
    }

    function Extract(): T
      requires Some?
    {
      value
    }

    function GetOr(default: T): T {
      match this
      case Some(v) => v
      case None => default
    }
  }

  /** The Python exceptions that can escape from the modelled operations. */
  datatype Exception =
    | MissingPath        // save/load attempted without a path
    | FileChanged        // the file on disk is newer than the loaded data
    | FileNotFound       // a stat or read of a missing file
    | UnicodeDecode      // a text read of bytes that are not UTF-8
    | NotImplemented     // a serializer or dialect lookup that cannot proceed
    | TypeError          // a value of the wrong Python type
    | AttributeError     // an attribute read on a value that lacks it
    | AssertionError     // an explicit `raise AssertionError`
    | ParseError         // an exception raised by the YAML parser
    | CsvError           // the CSV sniffer could not determine a dialect
    | LookupError        // text written with the pseudo-encoding "bytes"

  /** Either a value or the exception that was raised instead. */
  datatype Result<+T> = Success(value: T) | Failure(error: Exception) {
    predicate IsFailure() { Failure? }

    function PropagateFailure<U>(): Result<U>
      requires Failure?
    {
      Failure(error)
    }

    function Extract(): T
      requires Success?
    {
      value
    }
  }
}
